=== FILE: README.md ===
# Duty planner core, modelled in Dafny

This project models the core of a duty planner, a desktop program that keeps a personnel
database for a military unit and plans guard duties month by month. The model covers:

- the **personnel database**: the person list, the two-month duty calendar and the points
  ledger;
- the **duty calendar**'s wall-clock rollover;
- the **JSON storage adapters**, which turn stored persons and a stored database back into
  the model;
- the **command-line parser**, with the argument parsers of the find, edit, add, delete,
  points, select, block-date and swap-decision commands;
- the **commands** add, delete, reward, penalize, points, clear, undo, redo, view,
  view-block, sort, list, help, exit and view-current;
- the **logic manager**, which runs one line of input for a logged-in user and saves the
  database when the command changed it.

Everything is pure: operations are functions or methods over immutable datatypes. The
wall clock, the storage write, and every collaborator whose code is not part of this model
are parameters. Those collaborators are:

- the field validators;
- the parser utilities and the prefix tokenizer;
- `findPerson`;
- the scheduler;
- the name-keyword predicate of the find command;
- the commands and argument parsers outside the core.

Files, in dependency order:

| file | module | what it holds |
|---|---|---|
| `common.dfy` | `Common` | `Option`, `Result`, counting helpers |
| `javatext.dfy` | `JavaText` | Java's `String.trim`, `String.split`, `\s+` splitting and `Integer.parseInt` on decimal text |
| `person.dfy` | `Persons` | the person record, identity by NRIC, uniqueness of identities |
| `ledger.dfy` | `PointsLedger` | the points ledger as a log of the calls made on it |
| `roster.dfy` | `Roster` | one month's roster and the wall clock |
| `calendar.dfy` | `Calendar` | the duty calendar |
| `database.dfy` | `Database` | the personnel database |
| `stored_person.dfy` | `StoredPerson` | the stored form of a person |
| `stored_database.dfy` | `StoredDatabase` | the stored form of the database and its loader |
| `app_model.dfy` | `AppModel` | the live database, the displayed-list filter and the undo history |
| `parser_types.dfy` | `ParserTypes` | commands, parse errors, the tokenizer's result |
| `block_date_parser.dfy` | `BlockDateParser` | the block-date argument parser |
| `arg_parsers.dfy` | `ArgParsers` | the other argument parsers |
| `command_parser.dfy` | `CommandParser` | splitting the input line and choosing the parser |
| `commands.dfy` | `Commands` | the command executions |
| `logic.dfy` | `Logic` | the logic manager |

## Model

| member | source | states |
|---|---|---|
| Calendar.Default | src/main/java/seedu/address/model/DutyCalendar.java:31-41 | The current month is the wall-clock month and starts empty and unconfirmed. The next month is numbered current + 1 with no wrap-around. It lies in the following year exactly when the current month is December (index 11). |
| Calendar.FreshNextMonth | src/main/java/seedu/address/model/DutyCalendar.java:81-83 | The month built after month `index` is numbered `index + 1`. Its year moves on exactly when `index` is 11. It is empty and unconfirmed. |
| Calendar.OfMonths | src/main/java/seedu/address/model/DutyCalendar.java:43-46 | The two-month constructor keeps the given months. It leaves the year and the month index at Java's default 0. |
| Calendar.Rollover | src/main/java/seedu/address/model/DutyCalendar.java:77-84 | The stored next month becomes the current month. The year and index come from the wall clock. A fresh next month follows. |
| Calendar.SetDutyCalendar | src/main/java/seedu/address/model/DutyCalendar.java:64-71 | A calendar built for the wall-clock month is copied month by month, and this calendar's own year and index are kept. Any other calendar is rolled over, and the result is exactly `Rollover`: its next month becomes current and the index is the clock's. |
| Calendar.SetDutyCalendarFlag | src/main/java/dutyplanner/model/PersonnelDatabase.java:74-78 | With the rollover flag cleared the months are copied verbatim. With it set, the result is the same as the one-argument setter. |
| Calendar.RolloverDiscardsStoredCurrent | src/main/java/seedu/address/model/DutyCalendar.java:77-84 | A rollover ignores the stored current month. Two stored calendars that differ only there give the same result. |
| Calendar.TwoMonthCalendarCopiedOnlyInJanuary | src/main/java/seedu/address/model/DutyCalendar.java:43-71 | A calendar from the two-month constructor reads back index 0. So it is copied only when the clock reads January, and rolled over in every other month. |
| Calendar.DecemberNextMonth | src/main/java/seedu/address/model/DutyCalendar.java:38-40 | In December the next month is numbered 12, not 0, and lies in the following year. |
| Calendar.FreshCalendarsConsistent | src/main/java/seedu/address/model/DutyCalendar.java:31-84 | The months of a default calendar satisfy "next index = current index + 1, and the years agree unless the current month is December". A rolled-over calendar satisfies it between its year and index fields and its next month. Its months satisfy it when the stored next month is the wall-clock month. |
| Database.SetPersons | src/main/java/dutyplanner/model/PersonnelDatabase.java:56-59 | The person list is replaced wholesale. The calendar and ledger are unchanged and the listeners are notified. |
| Database.SetDutyCalendar | src/main/java/dutyplanner/model/PersonnelDatabase.java:65-68 | The calendar becomes exactly what the calendar's own `setDutyCalendar` gives. A calendar built for the wall-clock month has its months copied while the year and index stay. Any other is rolled over: the year and index come from the clock and a fresh next month follows. Persons and ledger are unchanged; the listeners are notified. |
| Database.SetDutyCalendarFlag | src/main/java/dutyplanner/model/PersonnelDatabase.java:74-78 | Without the rollover flag the months are copied verbatim. With it, the result is the same as the one-argument setter. |
| Database.ScheduleDutyForNextMonth | src/main/java/dutyplanner/model/PersonnelDatabase.java:83-86 | The scheduler's calendar and ledger are installed. The persons are unchanged and the listeners are not notified. |
| Database.ResetData | src/main/java/dutyplanner/model/PersonnelDatabase.java:91-96 | The new data's persons and calendar are taken, the calendar by the wall-clock rule. The ledger is not part of the reset. The result keeps identities unique. |
| Database.Sort | src/main/java/dutyplanner/model/PersonnelDatabase.java:100-104 | The person list becomes sorted by name and is a permutation of the old list. Calendar and ledger are unchanged. |
| Database.HasPersonNric | src/main/java/dutyplanner/model/PersonnelDatabase.java:120-128 | The scan reports true exactly when some listed person has the NRIC. |
| Database.HasNricIsHasPerson | src/main/java/dutyplanner/model/PersonnelDatabase.java:111-128 | Looking up by NRIC string and looking up by person identity agree. |
| Database.AddPerson | src/main/java/dutyplanner/model/PersonnelDatabase.java:134-138 | The person is appended and the ledger gains a row for it. The calendar is unchanged and the listeners are notified. |
| Database.AddPersonKeepsValid | src/main/java/dutyplanner/model/PersonnelDatabase.java:134-138 | Adding a person who is not listed keeps identities unique. |
| Database.SetPerson | src/main/java/dutyplanner/model/PersonnelDatabase.java:146-151 | The first occurrence of the target, and only it, becomes the edited person. Length, calendar and ledger are unchanged. |
| Database.SetPersonKeepsValid | src/main/java/dutyplanner/model/PersonnelDatabase.java:146-151 | Replacing a person by one with the same identity, or with an unused one, keeps identities unique. |
| Database.RemovePerson | src/main/java/dutyplanner/model/PersonnelDatabase.java:157-160 | The first occurrence of the key leaves the list: one copy fewer, the rest in order. Calendar and ledger are unchanged. |
| Database.RemovePersonKeepsValid | src/main/java/dutyplanner/model/PersonnelDatabase.java:157-160 | Removing a person keeps identities unique. |
| Database.RemoveUndoesAdd | src/main/java/dutyplanner/model/PersonnelDatabase.java:134-160 | Removing a just-added person restores the person list. The ledger row stays, because removal does not tell the ledger. |
| Database.EqualsIgnoresCalendar | src/main/java/dutyplanner/model/PersonnelDatabase.java:199-203 | Equality compares person lists only, so databases with different calendars are equal. |
| StoredPerson.Create | src/main/java/dutyplanner/storage/JsonAdaptedPerson.java:46-62 | A missing tag list is stored as an empty one. Every other field is kept as given, null included. |
| StoredPerson.FirstBadTag | src/main/java/dutyplanner/storage/JsonAdaptedPerson.java:87-90 | Reports the first tag the validator rejects. It is None exactly when every tag passes. |
| StoredPerson.ToModelSucceeds | src/main/java/dutyplanner/storage/JsonAdaptedPerson.java:86-155 | Conversion succeeds exactly when every tag and every field check passes. It then yields the stored values, with the tags as a set. |
| StoredPerson.ToModelReportsFirstFailure | src/main/java/dutyplanner/storage/JsonAdaptedPerson.java:92-149 | When the tags pass, the error is the one of the first failing check. The order is NRIC, company, section, rank, name, phone, password, user type. |
| StoredPerson.BadTagReportedFirst | src/main/java/dutyplanner/storage/JsonAdaptedPerson.java:87-90 | A bad tag is reported ahead of any field problem, even a missing NRIC. |
| StoredPerson.PasswordNotValidated | src/main/java/dutyplanner/storage/JsonAdaptedPerson.java:140-144 | Any non-null password text is accepted unchanged. |
| StoredPerson.RoundTrip | src/main/java/dutyplanner/storage/JsonAdaptedPerson.java:67-155 | A valid person, stored and loaded back, is the same person, whatever order its tags were written in. |
| StoredPerson.DuplicateTagsCollapse | src/main/java/dutyplanner/storage/JsonAdaptedPerson.java:86-155 | Repeating a stored tag changes neither the result nor the error. |
| StoredDatabase.Create | src/main/java/dutyplanner/storage/JsonSerializablePersonnelDatabase.java:36-44 | The stored persons keep their order; the months and ledger are kept as given. |
| StoredDatabase.FromModel | src/main/java/dutyplanner/storage/JsonSerializablePersonnelDatabase.java:51-56 | Every person is stored in list order, with both months and the ledger. |
| StoredDatabase.LoadPersons | src/main/java/dutyplanner/storage/JsonSerializablePersonnelDatabase.java:65-71 | A successful load has one person per stored entry, each that entry's conversion, and no two share an identity. |
| StoredDatabase.LoadPersonsSucceeds | src/main/java/dutyplanner/storage/JsonSerializablePersonnelDatabase.java:65-71 | The load succeeds exactly when every entry converts and no two conversions share an NRIC. |
| StoredDatabase.DuplicateRejected | src/main/java/dutyplanner/storage/JsonSerializablePersonnelDatabase.java:67-69 | An entry whose identity was already loaded fails the load with the duplicate-person error. |
| StoredDatabase.LoadPersonsPrefixErr | src/main/java/dutyplanner/storage/JsonSerializablePersonnelDatabase.java:65-71 | Once a prefix of the entries fails, the whole load fails with the same error. |
| StoredDatabase.PersonsRoundTrip | src/main/java/dutyplanner/storage/JsonSerializablePersonnelDatabase.java:51-71 | Valid, distinct persons, stored and loaded back, come back as the same list in the same order. |
| StoredDatabase.InstalledCalendar | src/main/java/dutyplanner/storage/JsonSerializablePersonnelDatabase.java:74-81 | Without a rollover request the stored months are installed verbatim. With one, they are installed by the wall-clock rule: copied in January, rolled over otherwise. |
| StoredDatabase.ToModelType | src/main/java/dutyplanner/storage/JsonSerializablePersonnelDatabase.java:63-96 | A person-load error is reported as is. The month check is next: the index mismatch is reported first, then the year mismatch. Otherwise the result is valid, holds the loaded persons, the installed calendar and the stored ledger. |
| StoredDatabase.DecemberThenJanuaryRejected | src/main/java/dutyplanner/storage/JsonSerializablePersonnelDatabase.java:85-88 | A December current month followed by a January next month fails the month-index check. |
| StoredDatabase.CheckVersusWrapAround | src/main/java/dutyplanner/storage/JsonSerializablePersonnelDatabase.java:85-92 | The check agrees with the wrap-around relation (next = current + 1 mod 12, the year moving after December) on indexes 0 to 10. For December, it accepts exactly next index 12, which that relation rejects. A current index of 12 passes whenever the years agree, and the relation never holds for it. |
| StoredDatabase.RolloverCheck | src/main/java/dutyplanner/storage/JsonSerializablePersonnelDatabase.java:75-92 | The months a rollover installs pass the check exactly when the stored next month has the wall-clock index (or 12), and, unless its index is 11, the year of the fresh next month. |
| StoredDatabase.FreshCalendarPassesCheck | src/main/java/dutyplanner/storage/JsonSerializablePersonnelDatabase.java:85-92 | The months of a clock-built calendar always pass the check. |
| StoredDatabase.DatabaseRoundTrip | src/main/java/dutyplanner/storage/JsonSerializablePersonnelDatabase.java:51-92 | A valid database stored without a rollover request loads back with the same persons in order, the same months and the same ledger, whatever the clock says. This needs the months to pass the check. |
| AppModel.Commit | src/main/java/dutyplanner/logic/commands/AddCommand.java:71 | The live database becomes the newest snapshot after the current one. The redo branch is dropped, so undo is possible and redo is not. |
| AppModel.CommitUndoRedo | src/main/java/dutyplanner/logic/commands/UndoCommand.java:20-30 | Undoing a commit brings back the previous snapshot's persons. Redoing then brings back the committed persons and the committed history. |
| BlockDateParser.ParseBlockDate | src/main/java/dutyplanner/logic/parser/BlockDateCommandParser.java:22-47 | Blank arguments, and only they, give the invalid-format error. A success is a block-date command for the user, with days 1 to 31 strictly ascending. |
| BlockDateParser.BlockDateDays | src/main/java/dutyplanner/logic/parser/BlockDateCommandParser.java:28-46 | The blocked days are exactly the values of the space-separated tokens of the trimmed arguments, duplicates removed. |
| BlockDateParser.NormalizeAscending | src/main/java/dutyplanner/logic/parser/BlockDateCommandParser.java:38-45 | De-duplicating and sorting a strictly ascending list leaves it unchanged. |
| BlockDateParser.BlockDateIdempotent | src/main/java/dutyplanner/logic/parser/BlockDateCommandParser.java:22-47 | Re-parsing the space-joined days of a successful parse gives the same command. |
| BlockDateParser.ParseDatesFirstFailure | src/main/java/dutyplanner/logic/parser/BlockDateCommandParser.java:31-37 | The first token that is not a number is reported, provided every token before it is a valid day. |
| BlockDateParser.ParseDatesRangeFailure | src/main/java/dutyplanner/logic/parser/BlockDateCommandParser.java:31-37 | The first token that is a number outside 1 to 31 gives the invalid-date error, provided every token before it is a valid day. |
| BlockDateParser.OutOfRangeDayRejected | src/main/java/dutyplanner/logic/parser/BlockDateCommandParser.java:28-37 | The command fails with the invalid-date error when the first token that is not a valid day is a number outside 1 to 31. |
| BlockDateParser.DoubledSpaceFails | src/main/java/dutyplanner/logic/parser/BlockDateCommandParser.java:28-32 | Two spaces between days make an empty token. The parse then fails with a number-format error, not the invalid-format error. |
| ArgParsers.ParseFind | src/main/java/dutyplanner/logic/parser/FindCommandParser.java:21-31 | Blank arguments, and only they, are rejected with the find usage; anything else is a find command. |
| ArgParsers.FindKeywords | src/main/java/dutyplanner/logic/parser/FindCommandParser.java:22-30 | The keywords are non-empty and contain no whitespace. Joined by single spaces, they give back the trimmed arguments with each whitespace run collapsed. |
| ArgParsers.TagsForEdit | src/main/java/dutyplanner/logic/parser/EditCommandParser.java:129-137 | No tag prefix leaves the tags alone. A single empty tag clears them. Otherwise every value is parsed. |
| ArgParsers.GeneralFields | src/main/java/dutyplanner/logic/parser/EditCommandParser.java:49-67 | The shared fields succeed exactly when each given field parses, and each edited field is its parsed value. A field is edited exactly when its prefix occurs. Otherwise the error is that of the first field, in reading order, that fails to parse. |
| ArgParsers.AdminFields | src/main/java/dutyplanner/logic/parser/EditCommandParser.java:92-116 | An admin's edit reads the NRIC, then the shared fields, then the user type. Something is edited exactly when one of their prefixes occurs. |
| ArgParsers.GeneralParse | src/main/java/dutyplanner/logic/parser/EditCommandParser.java:42-73 | A preamble is an invalid format. "Not edited" comes exactly when no field prefix occurs. A success edits the user's own record with the parsed fields. |
| ArgParsers.AdminParse | src/main/java/dutyplanner/logic/parser/EditCommandParser.java:80-122 | A bad index is reported before any field, as an invalid format caused by the index error. "Not edited" comes exactly when the index parses and no field prefix occurs. A success names the index and the parsed fields. |
| ArgParsers.ParseEdit | src/main/java/dutyplanner/logic/parser/EditCommandParser.java:27-35 | The role chooses the admin or the general form, and no role is refused. A success names a person by index exactly when the user is an admin. |
| ArgParsers.GeneralEditKeepsIdentity | src/main/java/dutyplanner/logic/parser/EditCommandParser.java:42-73 | A general user's edit never touches an NRIC or a user type, and never names another person. |
| ArgParsers.ParseAdd | src/main/java/dutyplanner/logic/parser/AddCommandParser.java:37-60 | A missing required prefix or a preamble is an invalid format. A success holds each required field's parsed value and the parsed tags. It also holds the password and user type a new person gets. |
| ArgParsers.AddReportsNricFirst | src/main/java/dutyplanner/logic/parser/AddCommandParser.java:48-54 | An NRIC that fails to parse is the error reported, whatever the other fields hold. |
| ArgParsers.ParseDelete | src/main/java/dutyplanner/logic/parser/DeleteCommandParser.java:19-41 | Anyone but an admin is refused. For an admin, the parse succeeds exactly when the index does; otherwise the index error is wrapped in the delete usage. |
| ArgParsers.ParsePoints | src/main/java/dutyplanner/logic/parser/PointsCommandParser.java:15-27 | Empty arguments ask for the points table. Anything else must be an index; otherwise the index error is wrapped in the points usage. |
| ArgParsers.ParseSelect | src/main/java/dutyplanner/logic/parser/SelectCommandParser.java:19-27 | Succeeds exactly when the index parses; otherwise the index error is wrapped in the select usage. |
| ArgParsers.ParseAcceptSwap | src/main/java/dutyplanner/logic/parser/AcceptSwapCommandParser.java:19-40 | The default admin account is refused, judged by user name and not by role. Anyone else succeeds exactly when the index parses. |
| ArgParsers.ParseApproveSwap | src/main/java/dutyplanner/logic/parser/ApproveSwapCommandParser.java:19-31 | General users are refused. Anyone else, including a user with no role, succeeds exactly when the index parses. |
| ArgParsers.ParseRejectSwap | src/main/java/dutyplanner/logic/parser/RejectSwapCommandParser.java:19-31 | General users are refused. Anyone else, including a user with no role, succeeds exactly when the index parses. |
| ArgParsers.RoleRulesDiffer | src/main/java/dutyplanner/logic/parser/DeleteCommandParser.java:19-25 | With no role known, delete is refused while approving or rejecting a swap is parsed. |
| CommandParser.SplitTrimmed | src/main/java/dutyplanner/logic/parser/PersonnelDatabaseParser.java:50 | The pattern matches exactly when the trimmed input is non-empty and nothing after the first word is a line terminator. The word is the first whitespace-free run and the arguments are the rest, starting with whitespace if non-empty. |
| CommandParser.SplitIsGreedyMatch | src/main/java/dutyplanner/logic/parser/PersonnelDatabaseParser.java:50 | A match exists exactly when the split succeeds. The split's word is the longest command word any match could give. |
| CommandParser.KindOf | src/main/java/dutyplanner/logic/parser/PersonnelDatabaseParser.java:67-163 | The switch finds a command kind exactly when some kind has the word, and the kind found has that word. |
| CommandParser.ParseCommand | src/main/java/dutyplanner/logic/parser/PersonnelDatabaseParser.java:59-165 | No match is an invalid format quoting the help usage. An unknown word is an unknown command. Otherwise the word's kind runs on the arguments. |
| CommandParser.BlankInputRejected | src/main/java/dutyplanner/logic/parser/PersonnelDatabaseParser.java:59-63 | Blank input is an invalid format quoting the help usage. |
| CommandParser.UnknownWordRejected | src/main/java/dutyplanner/logic/parser/PersonnelDatabaseParser.java:162-163 | Input whose first word is no command word is an unknown command. |
| CommandParser.WordSelectsCommand | src/main/java/dutyplanner/logic/parser/PersonnelDatabaseParser.java:59-165 | A command word, a whitespace run, then a line without line terminators runs that word's parser on the whitespace and the line. |
| CommandParser.ArgumentsIgnored | src/main/java/dutyplanner/logic/parser/PersonnelDatabaseParser.java:78-157 | The commands that take no arguments are built whatever follows their word. |
| Commands.ExecAdd | src/main/java/dutyplanner/logic/commands/AddCommand.java:57-79 | General users are refused and a listed NRIC is a duplicate; neither changes anything. Otherwise the person is appended and the ledger gains the row and a batch undo. The next month loses its confirmation, keeping its duties, and the result is committed. |
| Commands.ExecDelete | src/main/java/dutyplanner/logic/commands/DeleteCommand.java:41-71 | General users are refused and an index past the displayed list is invalid; neither changes anything. Otherwise that displayed person leaves the list, in order, and nobody with its identity remains. The ledger records the row removal and a batch undo, the next month's duties are cleared and unconfirmed, and the result is committed. Deleting yourself logs you out. |
| Commands.AddThenDelete | src/main/java/dutyplanner/logic/commands/DeleteCommand.java:41-66 | Deleting, from the full list, the person just added restores the person list. The ledger keeps a trace of both commands. |
| Commands.AdjustedBalances | src/main/java/dutyplanner/logic/commands/RewardCommand.java:42-58 | The entries of a reward (or penalty) change each balance by the points times the number of times that person is targeted. |
| Commands.RecordPoints | src/main/java/dutyplanner/logic/commands/RewardCommand.java:47-54 | One ledger entry is recorded per index, in order, until the first index past the displayed list. That index's position is returned. |
| Commands.AdjustPoints | src/main/java/dutyplanner/logic/commands/PenalizeCommand.java:41-62 | General users are refused. A bad index aborts with its one-based number; the entries recorded before it stay and nothing is committed. A success records every target and commits. The loop computes `PointsOutcome`. |
| Commands.PointsOutcome | src/main/java/dutyplanner/logic/commands/RewardCommand.java:42-58 | The closed form of reward and penalize. Persons and calendar never change, and the command succeeds exactly for an admin whose indexes are all within the displayed list. |
| Commands.TargetsDistinct | src/main/java/dutyplanner/logic/commands/RewardCommand.java:42-54 | Distinct indexes into a list with unique identities select distinct persons: exactly those at the chosen positions. |
| Commands.EachTargetOnce | src/main/java/dutyplanner/logic/commands/RewardCommand.java:42-58 | With distinct indexes, as the set the command holds gives, and all indexes in range, the command succeeds. It changes each chosen person's balance by exactly the points, added for reward and deducted for penalize, and leaves every other balance alone. |
| Commands.ExecPoints | src/main/java/dutyplanner/logic/commands/PointsCommand.java:37-56 | General users are refused. No index shows the table; an index shows that displayed person's records, or is invalid past the list. Nothing changes. |
| Commands.ExecClear | src/main/java/dutyplanner/logic/commands/ClearCommand.java:27-40 | General users are refused. Otherwise the persons are emptied and the calendar is taken over from a fresh one; the ledger is kept and the result is committed. Anyone but the default admin account is logged out. |
| Commands.ClearThenUndo | src/main/java/dutyplanner/logic/commands/ClearCommand.java:27-35 | After a clear, undo is possible and brings back the persons of the snapshot before it. |
| Commands.ExecUndo | src/main/java/dutyplanner/logic/commands/UndoCommand.java:20-30 | With no earlier snapshot the command fails and nothing changes. Otherwise the previous snapshot is restored and every person is shown. |
| Commands.ExecRedo | src/main/java/dutyplanner/logic/commands/RedoCommand.java:20-30 | With no later snapshot the command fails and nothing changes. Otherwise the next snapshot is restored and every person is shown. |
| Commands.UndoThenRedo | src/main/java/dutyplanner/logic/commands/RedoCommand.java:20-30 | Undo then redo both succeed and return to the same history, with the current snapshot's persons. |
| Commands.AddThenUndo | src/main/java/dutyplanner/logic/commands/UndoCommand.java:20-30 | Undo right after an add brings back the persons from before the add. The ledger keeps the add's entries. |
| Commands.MatchDuties | src/main/java/dutyplanner/logic/commands/ViewCommand.java:50-59 | The nested loops collect exactly `Matches`: the duties in roster order, each once per assignment of the NRIC. So there are as many as there are assignments, and only duties that hold the NRIC. |
| Roster.MatchesCount | src/main/java/dutyplanner/logic/commands/ViewCommand.java:50-59 | There is one match per assignment of the NRIC. |
| Roster.MatchesMembers | src/main/java/dutyplanner/logic/commands/ViewCommand.java:50-59 | A duty is matched if and only if it is on the roster and the NRIC is among its persons. |
| Roster.MatchesAppend | src/main/java/dutyplanner/logic/commands/ViewCommand.java:42-47 | Matching the current month's duties followed by the next month's gives the current month's matches followed by the next month's. |
| Commands.ViewOutcome | src/main/java/dutyplanner/logic/commands/ViewCommand.java:34-65 | An NRIC nobody has, and only that, is refused. No duties at all gives the no-duties message. Otherwise the list is the current month's matches followed by the next month's. It holds one entry per assignment, and a duty appears if and only if it holds the NRIC. Nothing changes. |
| Commands.ExecView | src/main/java/dutyplanner/logic/commands/ViewCommand.java:34-65 | The command, with its loops, computes `ViewOutcome`. |
| Commands.ExecViewBlock | src/main/java/dutyplanner/logic/commands/ViewBlockCommand.java:29-47 | Admins are refused. A general user gets the next month's blocked days of the person found for the user name. The result is absent exactly when no person is found or the next month's blocked map has no entry for that person. An entry with no days gives an empty list. Nothing changes. |
| Commands.ExecSort | src/main/java/dutyplanner/logic/commands/SortCommand.java:23-28 | The persons are sorted by name as a permutation and every person is shown. Nothing is committed. |
| Commands.SortKeepsValid | src/main/java/dutyplanner/model/PersonnelDatabase.java:100-104 | A permutation of a list with unique identities has unique identities. |
| Commands.ExecList | src/main/java/dutyplanner/logic/commands/ListCommand.java:20-24 | Every person is shown and the data is unchanged. |
| Commands.Run | src/main/java/dutyplanner/logic/LogicManager.java:57-62 | Running a parsed command for a role keeps the model invariant, whichever command it is. |
| Commands.RunCases | src/main/java/dutyplanner/logic/LogicManager.java:57-62 | Each modelled command runs its own execution for the role. Help, exit and view-current only steer the interface. Every other command goes to its own code. |
| Commands.ReadOnlyNotModified | src/main/java/dutyplanner/logic/LogicManager.java:70-78 | View, points, view-block, list, help, exit and view-current leave the database as it was, so they never cause a save. |
| Commands.Execute | src/main/java/dutyplanner/logic/LogicManager.java:57-62 | The execution, with the loops of reward, penalize and view, gives the outcome `Run` describes. Each modelled command runs its own execution for the role, and the model invariant is kept. |
| Logic.Unflagged | src/main/java/dutyplanner/logic/LogicManager.java:53 | Lowering the modified flag keeps everything else. |
| Logic.Execute | src/main/java/dutyplanner/logic/LogicManager.java:50-81 | The line always joins the history and the model invariant is kept. With no user, the command fails. A parse error is reported as is and nothing is saved. A parsed command leaves the model in the state `Run` gives on the unflagged model, even when the save fails. Its error is reported as a command failure, and its result is returned unless the save fails. The database is saved exactly when the command succeeded and modified it, and a failing save is a file-operations error. |

## Left out

- The storage write, the user-preferences save and the wall clock are parameters. Whether the save succeeds is a boolean; the user-preferences save is folded into it.
- Several collaborators are parameters, and their contracts are not modelled:
  - the field validators, and the parser utilities (`parseIndex`, `parseNric` and the other field parsers, `parseTags`, `parseUserType`);
  - the prefix tokenizer;
  - `findPerson`;
  - the scheduler;
  - the name-keyword predicate;
  - the commands and argument parsers outside the core: the swap, view, duty-settings, reward and penalize argument parsers, and the execution of edit, find, select, schedule, confirm, swaps, block dates and history.
- The points ledger is kept as a log of the calls the core makes on it (add row, remove row, reward, penalize, undo last batch). Its own tables and its batch undo are not part of this model. The only arithmetic assumed is that a reward adds its points and a penalty deducts them.
- `VersionedPersonnelDatabase` and `ModelManager` are not part of this model. The undo history is a list of snapshots with a pointer; a commit drops the redo branch. Add and delete leave the displayed-list filter as it was.
- Snapshots are value copies. The Java code can share month objects between snapshots and the live database; that aliasing is not modelled.
- Reward and penalize change only the ledger. `DutyStorage.reward`, `DutyStorage.penalize` and `VersionedPersonnelDatabase.commit` are not part of this model. The model assumes that none of them notifies the database's listeners, so the modified flag stays down and the logic manager does not save after reward or penalize. If any of them does notify, those commands would be saved as well.
- The conversion of a stored month, and the three-argument calendar constructor used by the loader, are not part of this model. The stored months are taken as already converted. The constructor behaves like the two-month one: year and index 0.
- The class `DutyCalendar` declares its year and month-index fields twice. The model keeps one copy of each.
- `DutyCalendar.setDutyCalendar(DutyCalendar)` (`Calendar.SetDutyCalendar`) copies only the months, or rolls over. The two-argument `PersonnelDatabase.setDutyCalendar(DutyCalendar, boolean)` is not part of this model; `Calendar.SetDutyCalendarFlag` models it from its described behaviour: without the rollover flag it copies the months verbatim.
- A calendar's next month is not "current + 1 modulo 12": the code numbers the month after December 12, and the loader's check follows that numbering. The model follows the code; `Calendar.DecemberNextMonth` and `StoredDatabase.CheckVersusWrapAround` state the difference.
- Names are compared lexicographically by character code, standing in for the comparator used by `sort`.
- `Integer.parseInt` is modelled on ASCII text: an optional sign, decimal digits, and the 32-bit range. Digits of other scripts, which Java also accepts, are reported as not a number.
- The reward and penalize indexes arrive as a Java `Set`, whose iteration order is unspecified. The model takes that order as a given sequence.
- The stored tag order of a person, a set in the model, is a parameter.
- Output texts, message formatting and the user interface are not modelled. Results carry a tag for the message and a hint for the interface (exit, show list, help, calendar).
- CommandParser.Dispatch: the function carries no contract of its own. Its behaviour is stated by `CommandParser.FixedDispatch`, `CommandParser.ArgumentsIgnored`, `CommandParser.WordSelectsCommand` and the argument parsers' contracts.
- StoredDatabase.ToModelType: installs the stored ledger as the database's ledger. The three-argument calendar constructor that receives the stored duty storage is not part of this model, and `DutyCalendar.setDutyCalendar(DutyCalendar)` copies only the months. The model assumes the stored points survive the load.

=== FILE: app_model.dfy ===
/** What the commands see of the model: the live personnel database, the filter of the
    displayed person list, and the undo history of committed database snapshots. */
module AppModel {
  import opened Persons
  import opened Roster
  import opened Database

  /** The predicate of the displayed person list: everyone, or those a name search matched. */
  datatype Filter = ShowAll | NameKeywords(keywords: seq<string>)

  /** The undo history: the committed snapshots, and the position of the one the live
      database was last committed as or restored from. */
  datatype Versions = Versions(states: seq<Db>, pointer: nat)

  datatype ModelState = ModelState(db: Db, filter: Filter, versions: Versions)

  /** The name-keyword predicate of the find command, which lives outside this model. */
  type KeywordMatcher = (seq<string>, Person) -> bool

  /** The live database and every snapshot keep unique identities; the pointer is in range. */
  predicate Inv(m: ModelState) {
    && Valid(m.db)
    && m.versions.pointer < |m.versions.states|
    && forall i :: 0 <= i < |m.versions.states| ==> Valid(m.versions.states[i])
  }

  /** A model over `db` whose history holds `db` as its only snapshot. */
  function Init(db: Db): (m: ModelState)
    requires Valid(db)
    ensures Inv(m) && m.db == db && m.filter == ShowAll
    ensures !CanUndo(m) && !CanRedo(m)
  {
    ModelState(db, ShowAll, Versions([db], 0))
  }

  /** The elements of `ps` that satisfy `keep`, in their order. */
  function Filtered(ps: seq<Person>, keep: Person -> bool): (r: seq<Person>)
    ensures |r| <= |ps|
    ensures forall i :: 0 <= i < |r| ==> r[i] in ps && keep(r[i])
    ensures forall p :: p in ps && keep(p) ==> p in r
  {
    if |ps| == 0 then []
    else
      var rest := Filtered(ps[..|ps| - 1], keep);
      var last := ps[|ps| - 1];
      assert forall p :: p in ps ==> p in ps[..|ps| - 1] || p == last;
      if keep(last) then rest + [last] else rest
  }

  /** Filtering keeps identities unique. */
  lemma {:induction false} FilteredUnique(ps: seq<Person>, keep: Person -> bool)
    requires UniqueIds(ps)
    ensures UniqueIds(Filtered(ps, keep))
    decreases |ps|
  {
    if |ps| > 0 {
      var front := ps[..|ps| - 1];
      var last := ps[|ps| - 1];
      FilteredUnique(front, keep);
      var rest := Filtered(front, keep);
      if keep(last) {
        forall k | 0 <= k < |rest| ensures rest[k].nric != last.nric {
          var j :| 0 <= j < |front| && front[j] == rest[k];
          assert ps[j] == front[j];
        }
      }
    }
  }

  /** The displayed person list that the commands index into. */
  function Shown(m: ModelState, matches: KeywordMatcher): (r: seq<Person>)
    ensures forall i :: 0 <= i < |r| ==> r[i] in m.db.persons
    ensures m.filter.ShowAll? ==> r == m.db.persons
  {
    match m.filter
    case ShowAll => m.db.persons
    case NameKeywords(ks) => Filtered(m.db.persons, p => matches(ks, p))
  }

  predicate CanUndo(m: ModelState) {
    m.versions.pointer > 0
  }

  predicate CanRedo(m: ModelState) {
    m.versions.pointer + 1 < |m.versions.states|
  }

  /** `commit`: the live database becomes the snapshot after the current one; any redo
      branch is dropped. */
  function Commit(m: ModelState): (r: ModelState)
    requires Inv(m)
    ensures Inv(r) && r.db == m.db && r.filter == m.filter
    ensures CanUndo(r) && !CanRedo(r)
    ensures r.versions.states[r.versions.pointer] == m.db
    ensures r.versions.states[..r.versions.pointer] == m.versions.states[..m.versions.pointer + 1]
  {
    var p := m.versions.pointer;
    var states := m.versions.states[..p + 1] + [m.db];
    assert states[..p + 1] == m.versions.states[..p + 1];
    ModelState(m.db, m.filter, Versions(states, p + 1))
  }

  /** Replaces the live database by snapshot `i` through `resetData`: the persons and the
      calendar come from the snapshot, the ledger stays. */
  function Restore(m: ModelState, i: nat, clock: Clock): (r: ModelState)
    requires Inv(m) && i < |m.versions.states|
    ensures Inv(r) && r.filter == m.filter && r.versions == Versions(m.versions.states, i)
    ensures r.db.persons == m.versions.states[i].persons && r.db.ledger == m.db.ledger
    ensures r.db.modified
  {
    ModelState(ResetData(m.db, m.versions.states[i], clock), m.filter,
               Versions(m.versions.states, i))
  }

  /** `undo`: back to the previous snapshot. */
  function Undo(m: ModelState, clock: Clock): (r: ModelState)
    requires Inv(m) && CanUndo(m)
    ensures Inv(r) && CanRedo(r)
    ensures r.versions.pointer + 1 == m.versions.pointer
    ensures r.db.persons == m.versions.states[m.versions.pointer - 1].persons
    ensures r.db.ledger == m.db.ledger
  {
    Restore(m, m.versions.pointer - 1, clock)
  }

  /** `redo`: forward to the next snapshot. */
  function Redo(m: ModelState, clock: Clock): (r: ModelState)
    requires Inv(m) && CanRedo(m)
    ensures Inv(r) && CanUndo(r)
    ensures r.versions.pointer == m.versions.pointer + 1
    ensures r.db.persons == m.versions.states[m.versions.pointer + 1].persons
    ensures r.db.ledger == m.db.ledger
  {
    Restore(m, m.versions.pointer + 1, clock)
  }

  /** Undoing a commit brings back the persons of the snapshot before it, and redoing
      brings back the committed persons; the history is what the commit left. */
  lemma CommitUndoRedo(m: ModelState, clock: Clock)
    requires Inv(m)
    ensures Undo(Commit(m), clock).db.persons == m.versions.states[m.versions.pointer].persons
    ensures Redo(Undo(Commit(m), clock), clock).db.persons == m.db.persons
    ensures Redo(Undo(Commit(m), clock), clock).versions == Commit(m).versions
  {
    var c := Commit(m);
    assert c.versions.states[m.versions.pointer] == m.versions.states[..m.versions.pointer + 1][m.versions.pointer];
  }

  /** Redo after undo returns to the same position of the same history, with the persons
      of the snapshot undo left. */
  lemma UndoRedoRoundTrip(m: ModelState, clock: Clock)
    requires Inv(m) && CanUndo(m)
    ensures Redo(Undo(m, clock), clock).versions == m.versions
    ensures Redo(Undo(m, clock), clock).db.persons == m.versions.states[m.versions.pointer].persons
    ensures Redo(Undo(m, clock), clock).db.ledger == m.db.ledger
  {
  }
}

=== FILE: arg_parsers.dfy ===
/** The argument parsers of the find, edit, add, delete, points, select and swap-decision
    commands. Each takes the text after the command word, the role of the logged-in user
    (absent when nobody is logged in) and the user name; the parser utilities and the
    prefix tokenizer they call are the collaborators in `ParseEnv`. */
module ArgParsers {
  import opened Common
  import opened JavaText
  import opened Persons
  import opened ParserTypes

  // ---------------------------------------------------------------- index arguments

  /** A parser utility's outcome, its failure as the parse exception it throws. */
  function Util<T>(r: Result<T, string>): Result<T, ParseError> {
    match r
    case Ok(v) => Ok(v)
    case Err(message) => Err(UtilError(message))
  }

  /** The error of a failed index parse inside `catch (ParseException pe)`: an
      invalid-format error quoting `usage`, caused by the utility's exception. */
  function Rethrow(usage: Usage, message: string): ParseError {
    InvalidFormat(usage, Some(UtilError(message)))
  }

  /** `ParserUtil.parseIndex(args)` inside such a `catch`. */
  function IndexArg(args: string, usage: Usage, env: ParseEnv): (r: Result<nat, ParseError>)
    ensures r.Ok? <==> env.parseIndex(args).Ok?
    ensures r.Ok? ==> r.value == env.parseIndex(args).value
    ensures r.Err? ==> r.error == Rethrow(usage, env.parseIndex(args).error)
  {
    match env.parseIndex(args)
    case Ok(i) => Ok(i)
    case Err(message) => Err(Rethrow(usage, message))
  }

  // ---------------------------------------------------------------- find

  /** `FindCommandParser.parse`: the keywords are the `\s`-separated words of the trimmed
      arguments. */
  function ParseFind(args: string): (r: Result<Command, ParseError>)
    ensures r.Err? <==> AllTrimmable(args)
    ensures r.Err? ==> r.error == InvalidFormat(FindUsage, None)
    ensures r.Ok? ==> r.value.Find?
  {
    var t := Trim(args);
    if |t| == 0 then Err(InvalidFormat(FindUsage, None))
    else Ok(Find(JavaSplitSpaces(t)))
  }

  /** The keywords of a successful find are non-empty, contain no whitespace, and joined
      with single spaces give back the trimmed arguments with each whitespace run collapsed
      to one space. */
  lemma FindKeywords(args: string)
    requires ParseFind(args).Ok?
    ensures var ks := ParseFind(args).value.keywords;
            |ks| > 0
            && (forall i :: 0 <= i < |ks| ==> NonEmpty(ks[i]) && NoSpace(ks[i]))
            && Join(ks, ' ') == Collapse(Trim(args))
  {
    var t := Trim(args);
    SpaceIsTrimmable(t[0]);
    SpaceIsTrimmable(t[|t| - 1]);
    SplitSpacesOfTrimmed(t);
  }

  // ---------------------------------------------------------------- edit

  /** The prefixes a general user may edit, in tokenizer order. */
  const GeneralEditPrefixes := [CompanyPrefix, SectionPrefix, RankPrefix, NamePrefix,
                                PhonePrefix, TagPrefix, PasswordPrefix]

  /** The prefixes an admin may edit, in tokenizer order. */
  const AdminEditPrefixes := [NricPrefix, CompanyPrefix, SectionPrefix, RankPrefix, NamePrefix,
                              PhonePrefix, TagPrefix, PasswordPrefix, UserTypePrefix]

  /** The optional field behind `p`: parsed when `p` occurs, absent otherwise. */
  function OptField(m: ArgMultimap, p: Prefix, kind: FieldKind, env: ParseEnv)
    : (r: Result<Option<string>, ParseError>)
    ensures m.GetValue(p).None? ==> r == Ok(None)
    ensures m.GetValue(p).Some? ==>
              match env.parseField(kind, m.GetValue(p).value)
              case Ok(v) => r == Ok(Some(v))
              case Err(e) => r == Err(UtilError(e))
  {
    match m.GetValue(p)
    case None => Ok(None)
    case Some(text) =>
      var v :- Util(env.parseField(kind, text));
      Ok(Some(v))
  }

  /** `parseTagsForEdit`: no tag prefix leaves the tags alone; a single empty tag clears
      them; otherwise every tag value is parsed. */
  function TagsForEdit(tags: seq<string>, env: ParseEnv): (r: Result<Option<set<string>>, ParseError>)
    ensures |tags| == 0 ==> r == Ok(None)
    ensures |tags| == 1 && |tags[0]| == 0 ==>
              r == (match env.parseTags([]) case Ok(s) => Ok(Some(s)) case Err(e) => Err(UtilError(e)))
    ensures |tags| > 0 && !(|tags| == 1 && |tags[0]| == 0) ==>
              r == (match env.parseTags(tags) case Ok(s) => Ok(Some(s)) case Err(e) => Err(UtilError(e)))
  {
    if |tags| == 0 then Ok(None)
    else
      var given := if |tags| == 1 && |tags[0]| == 0 then [] else tags;
      var s :- Util(env.parseTags(given));
      Ok(Some(s))
  }

  /** None of the fields a general user may edit is given. */
  predicate NoGeneralField(m: ArgMultimap) {
    && |m.GetAll(CompanyPrefix)| == 0 && |m.GetAll(SectionPrefix)| == 0
    && |m.GetAll(RankPrefix)| == 0 && |m.GetAll(NamePrefix)| == 0
    && |m.GetAll(PhonePrefix)| == 0 && |m.GetAll(TagPrefix)| == 0
    && |m.GetAll(PasswordPrefix)| == 0
  }

  /** None of the fields an admin may edit is given. */
  predicate NoAdminField(m: ArgMultimap) {
    NoGeneralField(m) && |m.GetAll(NricPrefix)| == 0 && |m.GetAll(UserTypePrefix)| == 0
  }

  /** The fields both forms of edit read, in the order they are read: company, section,
      rank, name, phone, tags, password. The first one that fails to parse is reported. */
  function GeneralFields(m: ArgMultimap, env: ParseEnv): (r: Result<EditDescriptor, ParseError>)
    ensures r.Err? ==> r.error.UtilError?
    ensures OptField(m, CompanyPrefix, CompanyField, env).Err? ==>
              r == Err(OptField(m, CompanyPrefix, CompanyField, env).error)
    ensures OptField(m, CompanyPrefix, CompanyField, env).Ok?
            && OptField(m, SectionPrefix, SectionField, env).Err? ==>
              r == Err(OptField(m, SectionPrefix, SectionField, env).error)
    ensures OptField(m, CompanyPrefix, CompanyField, env).Ok?
            && OptField(m, SectionPrefix, SectionField, env).Ok?
            && OptField(m, RankPrefix, RankField, env).Err? ==>
              r == Err(OptField(m, RankPrefix, RankField, env).error)
    ensures OptField(m, CompanyPrefix, CompanyField, env).Ok?
            && OptField(m, SectionPrefix, SectionField, env).Ok?
            && OptField(m, RankPrefix, RankField, env).Ok?
            && OptField(m, NamePrefix, NameField, env).Err? ==>
              r == Err(OptField(m, NamePrefix, NameField, env).error)
    ensures OptField(m, CompanyPrefix, CompanyField, env).Ok?
            && OptField(m, SectionPrefix, SectionField, env).Ok?
            && OptField(m, RankPrefix, RankField, env).Ok?
            && OptField(m, NamePrefix, NameField, env).Ok?
            && OptField(m, PhonePrefix, PhoneField, env).Err? ==>
              r == Err(OptField(m, PhonePrefix, PhoneField, env).error)
    ensures OptField(m, CompanyPrefix, CompanyField, env).Ok?
            && OptField(m, SectionPrefix, SectionField, env).Ok?
            && OptField(m, RankPrefix, RankField, env).Ok?
            && OptField(m, NamePrefix, NameField, env).Ok?
            && OptField(m, PhonePrefix, PhoneField, env).Ok?
            && TagsForEdit(m.GetAll(TagPrefix), env).Err? ==>
              r == Err(TagsForEdit(m.GetAll(TagPrefix), env).error)
    ensures OptField(m, CompanyPrefix, CompanyField, env).Ok?
            && OptField(m, SectionPrefix, SectionField, env).Ok?
            && OptField(m, RankPrefix, RankField, env).Ok?
            && OptField(m, NamePrefix, NameField, env).Ok?
            && OptField(m, PhonePrefix, PhoneField, env).Ok?
            && TagsForEdit(m.GetAll(TagPrefix), env).Ok?
            && OptField(m, PasswordPrefix, PasswordField, env).Err? ==>
              r == Err(OptField(m, PasswordPrefix, PasswordField, env).error)
    ensures r.Ok? ==> r.value.nric.None? && r.value.userType.None?
    ensures r.Ok? ==> (r.value.AnyFieldEdited() <==> !NoGeneralField(m))
    ensures r.Ok? <==>
              && OptField(m, CompanyPrefix, CompanyField, env).Ok?
              && OptField(m, SectionPrefix, SectionField, env).Ok?
              && OptField(m, RankPrefix, RankField, env).Ok?
              && OptField(m, NamePrefix, NameField, env).Ok?
              && OptField(m, PhonePrefix, PhoneField, env).Ok?
              && TagsForEdit(m.GetAll(TagPrefix), env).Ok?
              && OptField(m, PasswordPrefix, PasswordField, env).Ok?
    ensures r.Ok? ==>
              && OptField(m, CompanyPrefix, CompanyField, env) == Ok(r.value.company)
              && OptField(m, SectionPrefix, SectionField, env) == Ok(r.value.section)
              && OptField(m, RankPrefix, RankField, env) == Ok(r.value.rank)
              && OptField(m, NamePrefix, NameField, env) == Ok(r.value.name)
              && OptField(m, PhonePrefix, PhoneField, env) == Ok(r.value.phone)
              && TagsForEdit(m.GetAll(TagPrefix), env) == Ok(r.value.tags)
              && OptField(m, PasswordPrefix, PasswordField, env) == Ok(r.value.password)
  {
    var company :- OptField(m, CompanyPrefix, CompanyField, env);
    var section :- OptField(m, SectionPrefix, SectionField, env);
    var rank :- OptField(m, RankPrefix, RankField, env);
    var name :- OptField(m, NamePrefix, NameField, env);
    var phone :- OptField(m, PhonePrefix, PhoneField, env);
    var tags :- TagsForEdit(m.GetAll(TagPrefix), env);
    var password :- OptField(m, PasswordPrefix, PasswordField, env);
    Ok(EditDescriptor(None, company, section, rank, name, phone, tags, password, None))
  }

  /** The fields an admin's edit reads: the NRIC first, then the shared fields, then the
      user type. */
  function AdminFields(m: ArgMultimap, env: ParseEnv): (r: Result<EditDescriptor, ParseError>)
    ensures r.Err? ==> r.error.UtilError?
    ensures r.Ok? ==> (r.value.AnyFieldEdited() <==> !NoAdminField(m))
    ensures r.Ok? <==>
              && OptField(m, NricPrefix, NricField, env).Ok?
              && GeneralFields(m, env).Ok?
              && OptUserType(m, env).Ok?
    ensures r.Ok? ==>
              && OptField(m, NricPrefix, NricField, env) == Ok(r.value.nric)
              && GeneralFields(m, env) == Ok(r.value.(nric := None, userType := None))
              && OptUserType(m, env) == Ok(r.value.userType)
  {
    var nric :- OptField(m, NricPrefix, NricField, env);
    var shared :- GeneralFields(m, env);
    var userType :- OptUserType(m, env);
    Ok(shared.(nric := nric, userType := userType))
  }

  /** `generalParse`: a general user edits their own record, so no index is given, and the
      NRIC and the user type cannot be edited. */
  function GeneralParse(args: string, userName: string, env: ParseEnv): (r: Result<Command, ParseError>)
    ensures var m := env.tokenize(args, GeneralEditPrefixes);
            |m.preamble| > 0 ==> r == Err(InvalidFormat(EditGeneralUsage, None))
    ensures var m := env.tokenize(args, GeneralEditPrefixes);
            r == Err(NotEdited) <==> |m.preamble| == 0 && NoGeneralField(m)
    ensures var m := env.tokenize(args, GeneralEditPrefixes);
            r.Ok? ==> r.value.Edit? && r.value.target.None? && r.value.userName == userName
                      && GeneralFields(m, env) == Ok(r.value.descriptor)
    ensures r.Ok? ==> r.value.descriptor.AnyFieldEdited()
  {
    var m := env.tokenize(args, GeneralEditPrefixes);
    if |m.preamble| > 0 then Err(InvalidFormat(EditGeneralUsage, None))
    else
      var d :- GeneralFields(m, env);
      if !d.AnyFieldEdited() then Err(NotEdited)
      else Ok(Edit(None, d, userName))
  }

  /** `adminParse`: an admin names the person by its displayed index, and may edit every
      field. A bad index is reported before any field is looked at. */
  function AdminParse(args: string, userName: string, env: ParseEnv): (r: Result<Command, ParseError>)
    ensures var m := env.tokenize(args, AdminEditPrefixes);
            env.parseIndex(m.preamble).Err? ==>
              r == Err(Rethrow(EditAdminUsage, env.parseIndex(m.preamble).error))
    ensures var m := env.tokenize(args, AdminEditPrefixes);
            r == Err(NotEdited) <==> env.parseIndex(m.preamble).Ok? && NoAdminField(m)
    ensures var m := env.tokenize(args, AdminEditPrefixes);
            r.Ok? ==> r.value.Edit? && r.value.userName == userName
                      && r.value.target.Some? && env.parseIndex(m.preamble) == Ok(r.value.target.value)
                      && AdminFields(m, env) == Ok(r.value.descriptor)
    ensures r.Ok? ==> r.value.descriptor.AnyFieldEdited()
  {
    var m := env.tokenize(args, AdminEditPrefixes);
    var index :- IndexArg(m.preamble, EditAdminUsage, env);
    var d :- AdminFields(m, env);
    if !d.AnyFieldEdited() then Err(NotEdited)
    else Ok(Edit(Some(index), d, userName))
  }

  /** The optional user type behind the user-type prefix. */
  function OptUserType(m: ArgMultimap, env: ParseEnv): (r: Result<Option<UserType>, ParseError>)
    ensures m.GetValue(UserTypePrefix).None? ==> r == Ok(None)
    ensures m.GetValue(UserTypePrefix).Some? ==>
              match env.parseUserType(m.GetValue(UserTypePrefix).value)
              case Ok(u) => r == Ok(Some(u))
              case Err(e) => r == Err(UtilError(e))
  {
    match m.GetValue(UserTypePrefix)
    case None => Ok(None)
    case Some(text) =>
      var u :- Util(env.parseUserType(text));
      Ok(Some(u))
  }

  /** `EditCommandParser.parse`: the role picks the admin or the general form; without a
      role the edit is refused. */
  function ParseEdit(args: string, userType: Option<UserType>, userName: string, env: ParseEnv)
    : (r: Result<Command, ParseError>)
    ensures userType.None? ==> r == Err(NoAuthorityParse)
    ensures userType == Some(Admin) ==> r == AdminParse(args, userName, env)
    ensures userType == Some(General) ==> r == GeneralParse(args, userName, env)
    ensures r.Ok? ==> r.value.Edit? && r.value.userName == userName
    ensures r.Ok? ==> (r.value.target.Some? <==> userType == Some(Admin))
  {
    match userType
    case Some(Admin) => AdminParse(args, userName, env)
    case Some(General) => GeneralParse(args, userName, env)
    case None => Err(NoAuthorityParse)
  }

  /** A general user's edit never changes an NRIC or a user type, and never names another
      person by index. */
  lemma GeneralEditKeepsIdentity(args: string, userName: string, env: ParseEnv)
    requires ParseEdit(args, Some(General), userName, env).Ok?
    ensures var c := ParseEdit(args, Some(General), userName, env).value;
            c.target.None? && c.descriptor.nric.None? && c.descriptor.userType.None?
  {
  }

  /** A single empty tag value clears the tags; repeating the tag prefix parses every value. */
  lemma EmptyTagClears(m: ArgMultimap, env: ParseEnv)
    requires m.GetAll(TagPrefix) == [""] && env.parseTags([]) == Ok({})
    ensures TagsForEdit(m.GetAll(TagPrefix), env) == Ok(Some({}))
  {
  }

  // ---------------------------------------------------------------- add

  /** The prefixes of an add command, in tokenizer order. */
  const AddPrefixes := [NricPrefix, CompanyPrefix, SectionPrefix, RankPrefix, NamePrefix,
                        PhonePrefix, TagPrefix]

  /** `arePrefixesPresent` on the prefixes an add command must carry: every field but the
      tags. */
  predicate RequiredGiven(m: ArgMultimap) {
    && m.GetValue(NricPrefix).Some? && m.GetValue(CompanyPrefix).Some?
    && m.GetValue(SectionPrefix).Some? && m.GetValue(RankPrefix).Some?
    && m.GetValue(NamePrefix).Some? && m.GetValue(PhonePrefix).Some?
  }

  /** The field behind a prefix that is known to occur. */
  function Field(m: ArgMultimap, p: Prefix, kind: FieldKind, env: ParseEnv): Result<string, ParseError>
    requires m.GetValue(p).Some?
  {
    Util(env.parseField(kind, m.GetValue(p).value))
  }

  /** `AddCommandParser.parse`: every field but the tags is required and there is no
      preamble; the person gets the password and the user type the seven-field constructor
      gives a new person. */
  function ParseAdd(args: string, env: ParseEnv): (r: Result<Command, ParseError>)
    ensures var m := env.tokenize(args, AddPrefixes);
            !RequiredGiven(m) || |m.preamble| > 0 ==>
              r == Err(InvalidFormat(AddUsage, None))
    ensures r.Ok? ==> r.value.Add?
    ensures r.Ok? ==>
              var m := env.tokenize(args, AddPrefixes);
              var p := r.value.person;
              && RequiredGiven(m) && |m.preamble| == 0
              && Field(m, NricPrefix, NricField, env) == Ok(p.nric)
              && Field(m, CompanyPrefix, CompanyField, env) == Ok(p.company)
              && Field(m, SectionPrefix, SectionField, env) == Ok(p.section)
              && Field(m, RankPrefix, RankField, env) == Ok(p.rank)
              && Field(m, NamePrefix, NameField, env) == Ok(p.name)
              && Field(m, PhonePrefix, PhoneField, env) == Ok(p.phone)
              && env.parseTags(m.GetAll(TagPrefix)) == Ok(p.tags)
              && p.password == env.newPersonPassword(p.nric)
              && p.userType == env.newPersonUserType
  {
    var m := env.tokenize(args, AddPrefixes);
    if !RequiredGiven(m) || |m.preamble| > 0 then Err(InvalidFormat(AddUsage, None))
    else
      var nric :- Field(m, NricPrefix, NricField, env);
      var company :- Field(m, CompanyPrefix, CompanyField, env);
      var section :- Field(m, SectionPrefix, SectionField, env);
      var rank :- Field(m, RankPrefix, RankField, env);
      var name :- Field(m, NamePrefix, NameField, env);
      var phone :- Field(m, PhonePrefix, PhoneField, env);
      var tags :- Util(env.parseTags(m.GetAll(TagPrefix)));
      Ok(Add(Person(nric, company, section, rank, name, phone, tags,
                    env.newPersonPassword(nric), env.newPersonUserType)))
  }

  /** The NRIC is parsed before every other field, so a failing NRIC is the error
      reported whatever the other fields hold. */
  lemma AddReportsNricFirst(args: string, env: ParseEnv)
    requires var m := env.tokenize(args, AddPrefixes);
             RequiredGiven(m) && |m.preamble| == 0
    requires var m := env.tokenize(args, AddPrefixes);
             m.GetValue(NricPrefix).Some? && Field(m, NricPrefix, NricField, env).Err?
    ensures var m := env.tokenize(args, AddPrefixes);
            ParseAdd(args, env) == Err(Field(m, NricPrefix, NricField, env).error)
  {
  }

  // ---------------------------------------------------------------- index commands

  /** `DeleteCommandParser.parse`: only an admin may delete. */
  function ParseDelete(args: string, userType: Option<UserType>, userName: string, env: ParseEnv)
    : (r: Result<Command, ParseError>)
    ensures userType != Some(Admin) ==> r == Err(NoAuthorityParse)
    ensures userType == Some(Admin) ==> (r.Ok? <==> env.parseIndex(args).Ok?)
    ensures r.Ok? ==> r.value == Delete(env.parseIndex(args).value, userName)
    ensures userType == Some(Admin) && r.Err? ==> r.error == Rethrow(DeleteUsage, env.parseIndex(args).error)
  {
    if userType == Some(Admin) then
      var i :- IndexArg(args, DeleteUsage, env);
      Ok(Delete(i, userName))
    else Err(NoAuthorityParse)
  }

  /** `PointsCommandParser.parse`: no argument at all asks for one's own points, anything
      else must be an index. */
  function ParsePoints(args: string, env: ParseEnv): (r: Result<Command, ParseError>)
    ensures |args| == 0 ==> r == Ok(Points(None))
    ensures |args| > 0 ==> (r.Ok? <==> env.parseIndex(args).Ok?)
    ensures |args| > 0 && r.Ok? ==> r.value == Points(Some(env.parseIndex(args).value))
    ensures |args| > 0 && r.Err? ==> r.error == Rethrow(PointsUsage, env.parseIndex(args).error)
  {
    if |args| == 0 then Ok(Points(None))
    else
      var i :- IndexArg(args, PointsUsage, env);
      Ok(Points(Some(i)))
  }

  /** `SelectCommandParser.parse`. */
  function ParseSelect(args: string, env: ParseEnv): (r: Result<Command, ParseError>)
    ensures r.Ok? <==> env.parseIndex(args).Ok?
    ensures r.Ok? ==> r.value == Select(env.parseIndex(args).value)
    ensures r.Err? ==> r.error == Rethrow(SelectUsage, env.parseIndex(args).error)
  {
    var i :- IndexArg(args, SelectUsage, env);
    Ok(Select(i))
  }

  /** `AcceptSwapCommandParser.parse`: anyone but the default admin account may accept a
      swap; the check is on the user name, not the role. */
  function ParseAcceptSwap(args: string, userName: string, env: ParseEnv): (r: Result<Command, ParseError>)
    ensures userName == env.adminUserName ==> r == Err(NoAuthorityParse)
    ensures userName != env.adminUserName ==> (r.Ok? <==> env.parseIndex(args).Ok?)
    ensures r.Ok? ==> r.value == AcceptSwap(userName, env.parseIndex(args).value)
    ensures userName != env.adminUserName && r.Err? ==>
              r.error == Rethrow(AcceptSwapUsage, env.parseIndex(args).error)
  {
    if userName != env.adminUserName then
      var i :- IndexArg(args, AcceptSwapUsage, env);
      Ok(AcceptSwap(userName, i))
    else Err(NoAuthorityParse)
  }

  /** `ApproveSwapCommandParser.parse`: refused to general users only, so it goes through
      when no role is known. */
  function ParseApproveSwap(args: string, userType: Option<UserType>, env: ParseEnv)
    : (r: Result<Command, ParseError>)
    ensures userType == Some(General) ==> r == Err(NoAuthorityParse)
    ensures userType != Some(General) ==> (r.Ok? <==> env.parseIndex(args).Ok?)
    ensures r.Ok? ==> r.value == ApproveSwap(env.parseIndex(args).value)
    ensures userType != Some(General) && r.Err? ==>
              r.error == Rethrow(ApproveSwapUsage, env.parseIndex(args).error)
  {
    if userType == Some(General) then Err(NoAuthorityParse)
    else
      var i :- IndexArg(args, ApproveSwapUsage, env);
      Ok(ApproveSwap(i))
  }

  /** `RejectSwapCommandParser.parse`: the same rule as approving. */
  function ParseRejectSwap(args: string, userType: Option<UserType>, env: ParseEnv)
    : (r: Result<Command, ParseError>)
    ensures userType == Some(General) ==> r == Err(NoAuthorityParse)
    ensures userType != Some(General) ==> (r.Ok? <==> env.parseIndex(args).Ok?)
    ensures r.Ok? ==> r.value == RejectSwap(env.parseIndex(args).value)
    ensures userType != Some(General) && r.Err? ==>
              r.error == Rethrow(RejectSwapUsage, env.parseIndex(args).error)
  {
    if userType == Some(General) then Err(NoAuthorityParse)
    else
      var i :- IndexArg(args, RejectSwapUsage, env);
      Ok(RejectSwap(i))
  }

  /** The admin-only and general-refused parsers draw the line differently: with no role
      known, deleting is refused while approving a swap is parsed. */
  lemma RoleRulesDiffer(args: string, userName: string, env: ParseEnv)
    requires env.parseIndex(args).Ok?
    ensures ParseDelete(args, None, userName, env) == Err(NoAuthorityParse)
    ensures ParseApproveSwap(args, None, env) == Ok(ApproveSwap(env.parseIndex(args).value))
    ensures ParseRejectSwap(args, None, env) == Ok(RejectSwap(env.parseIndex(args).value))
  {
  }
}

=== FILE: block_date_parser.dfy ===
/** The block-date argument parser: space-separated day numbers, each in 1..31,
    returned without duplicates in ascending order. */
module BlockDateParser {
  import opened Common
  import opened JavaText
  import opened ParserTypes

  /** Every element of `s` is smaller than every later one. */
  predicate StrictlyAscending(s: seq<int>) {
    forall i, j :: 0 <= i < j < |s| ==> s[i] < s[j]
  }

  /** Inserts `x` into an ascending list unless it is already there. */
  function InsertUnique(x: int, s: seq<int>): (r: seq<int>)
    requires StrictlyAscending(s)
    ensures StrictlyAscending(r)
    ensures forall y :: y in r <==> y == x || y in s
  {
    if |s| == 0 then [x]
    else if x < s[0] then [x] + s
    else if x == s[0] then s
    else
      var t := InsertUnique(x, s[1..]);
      assert forall y :: y in t ==> s[0] < y by {
        forall y | y in t ensures s[0] < y {
          if y != x {
            var k :| 0 <= k < |s[1..]| && s[1..][k] == y;
            assert s[k + 1] == y;
          }
        }
      }
      ConsAscending(s[0], t);
      ConsMembers(s);
      [s[0]] + t
  }

  lemma ConsAscending(x: int, t: seq<int>)
    requires StrictlyAscending(t) && forall y :: y in t ==> x < y
    ensures StrictlyAscending([x] + t)
  {
    var r := [x] + t;
    forall i, j | 0 <= i < j < |r| ensures r[i] < r[j] {
      assert r[j] == t[j - 1] && t[j - 1] in t;
      if i > 0 { assert r[i] == t[i - 1]; }
    }
  }

  lemma ConsMembers(s: seq<int>)
    requires |s| > 0
    ensures forall y :: y in s <==> y == s[0] || y in s[1..]
  {
    assert s == [s[0]] + s[1..];
  }

  /** The distinct values of `xs` in ascending order: the `HashSet` copy followed by the
      ascending sort. */
  function Normalize(xs: seq<int>): (r: seq<int>)
    ensures StrictlyAscending(r)
    ensures forall y :: y in r <==> y in xs
  {
    if |xs| == 0 then []
    else
      var n := |xs| - 1;
      assert xs == xs[..n] + [xs[n]];
      InsertUnique(xs[n], Normalize(xs[..n]))
  }

  /** The head of an ascending list is its least element. */
  lemma AscendingHead(s: seq<int>, y: int)
    requires StrictlyAscending(s) && y in s
    ensures |s| > 0 && s[0] <= y
    ensures y != s[0] ==> y in s[1..]
  {
    var k :| 0 <= k < |s| && s[k] == y;
    if k > 0 {
      assert s[1..][k - 1] == y;
    }
  }

  /** The tail of an ascending list holds its elements other than the head. */
  lemma AscendingTail(s: seq<int>, y: int)
    requires StrictlyAscending(s) && |s| > 0
    ensures y in s[1..] <==> y in s && y != s[0]
  {
    if y in s[1..] {
      var k :| 0 <= k < |s| - 1 && s[1..][k] == y;
      assert s[k + 1] == y;
    }
    if y in s && y != s[0] {
      AscendingHead(s, y);
    }
  }

  /** An ascending list is determined by its elements. */
  lemma {:induction false} AscendingUnique(a: seq<int>, b: seq<int>)
    requires StrictlyAscending(a) && StrictlyAscending(b)
    requires forall y :: y in a <==> y in b
    ensures a == b
    decreases |a|
  {
    assert |b| > 0 ==> b[0] in b;
    if |a| > 0 {
      assert a[0] in a;
      AscendingHead(b, a[0]);
      assert b[0] in b;
      AscendingHead(a, b[0]);
      forall y ensures y in a[1..] <==> y in b[1..] {
        AscendingTail(a, y);
        AscendingTail(b, y);
      }
      AscendingUnique(a[1..], b[1..]);
    }
  }

  /** Normalizing a list that is already ascending leaves it as it is. */
  lemma NormalizeAscending(xs: seq<int>)
    requires StrictlyAscending(xs)
    ensures Normalize(xs) == xs
  {
    AscendingUnique(Normalize(xs), xs);
  }

  /** A valid day of the month. */
  predicate ValidDay(d: int) {
    1 <= d <= 31
  }

  /** Each token read with `Integer.parseInt` and range checked, in token order. */
  function ParseDates(tokens: seq<string>): (r: Result<seq<int>, ParseError>)
    ensures r.Ok? ==> |r.value| == |tokens|
    ensures r.Ok? ==> forall i :: 0 <= i < |tokens| ==>
                        ParseJavaInt(tokens[i]) == Some(r.value[i]) && ValidDay(r.value[i])
    ensures r.Err? ==> r.error.NumberFormat? || r.error == InvalidDate
  {
    if |tokens| == 0 then Ok([])
    else
      var n := |tokens| - 1;
      var init :- ParseDates(tokens[..n]);
      match ParseJavaInt(tokens[n])
      case None => Err(NumberFormat(tokens[n]))
      case Some(d) =>
        if d > 31 || d < 1 then Err(InvalidDate)
        else
          assert forall i :: 0 <= i < n ==> tokens[..n][i] == tokens[i];
          Ok(init + [d])
  }

  /** The normalized days of parsed tokens are valid days, each the value of a token. */
  lemma NormalizedDates(tokens: seq<string>, ds: seq<int>)
    requires |ds| == |tokens|
    requires forall i :: 0 <= i < |tokens| ==> ParseJavaInt(tokens[i]) == Some(ds[i]) && ValidDay(ds[i])
    ensures forall d :: d in Normalize(ds) <==> exists tok :: tok in tokens && ParseJavaInt(tok) == Some(d)
  {
    var r := Normalize(ds);
    forall d ensures d in r <==> exists tok :: tok in tokens && ParseJavaInt(tok) == Some(d) {
      if d in r {
        var i :| 0 <= i < |ds| && ds[i] == d;
        assert tokens[i] in tokens;
      }
      if exists tok :: tok in tokens && ParseJavaInt(tok) == Some(d) {
        var tok :| tok in tokens && ParseJavaInt(tok) == Some(d);
        var i :| 0 <= i < |tokens| && tokens[i] == tok;
        assert ds[i] == d;
      }
    }
  }

  /** Normalizing valid days gives valid days. */
  lemma NormalizedValid(ds: seq<int>)
    requires forall i :: 0 <= i < |ds| ==> ValidDay(ds[i])
    ensures forall i :: 0 <= i < |Normalize(ds)| ==> ValidDay(Normalize(ds)[i])
  {
    var r := Normalize(ds);
    forall i | 0 <= i < |r| ensures ValidDay(r[i]) {
      assert r[i] in r;
      var j :| 0 <= j < |ds| && ds[j] == r[i];
    }
  }

  /** `BlockDateCommandParser.parse`. */
  function ParseBlockDate(args: string, userName: string): (r: Result<Command, ParseError>)
    ensures AllTrimmable(args) <==> r == Err(InvalidFormat(BlockDateUsage, None))
    ensures r.Ok? ==> r.value.BlockDate? && r.value.userName == userName
    ensures r.Ok? ==> StrictlyAscending(r.value.dates)
    ensures r.Ok? ==> forall i :: 0 <= i < |r.value.dates| ==> ValidDay(r.value.dates[i])
  {
    var t := Trim(args);
    if |t| == 0 then Err(InvalidFormat(BlockDateUsage, None))
    else
      var tokens := JavaSplit(t, ' ');
      var ds :- ParseDates(tokens);
      NormalizedValid(ds);
      Ok(BlockDate(Normalize(ds), userName))
  }

  /** The blocked days of a successful parse are exactly the values of the tokens of the
      trimmed argument string. */
  lemma BlockDateDays(args: string, userName: string)
    requires ParseBlockDate(args, userName).Ok?
    ensures forall d :: d in ParseBlockDate(args, userName).value.dates <==>
              exists tok :: tok in JavaSplit(Trim(args), ' ') && ParseJavaInt(tok) == Some(d)
  {
    var tokens := JavaSplit(Trim(args), ' ');
    NormalizedDates(tokens, ParseDates(tokens).value);
  }

  // ----- idempotence -----

  /** The decimal renderings of days. */
  function ShowAll(ds: seq<int>): (ss: seq<string>)
    requires forall i :: 0 <= i < |ds| ==> ValidDay(ds[i])
    ensures |ss| == |ds|
    ensures forall i :: 0 <= i < |ds| ==> ValidDay(ds[i]) && ss[i] == ShowNat(ds[i])
  {
    if |ds| == 0 then []
    else
      assert ValidDay(ds[0]) && forall i :: 0 <= i < |ds| - 1 ==> ds[1..][i] == ds[i + 1];
      [ShowNat(ds[0])] + ShowAll(ds[1..])
  }

  lemma {:induction false} JoinEnds(parts: seq<string>, sep: char)
    requires |parts| > 0 && forall i :: 0 <= i < |parts| ==> |parts[i]| > 0
    ensures |Join(parts, sep)| > 0
    ensures Join(parts, sep)[0] == parts[0][0]
    ensures Join(parts, sep)[|Join(parts, sep)| - 1] == parts[|parts| - 1][|parts[|parts| - 1]| - 1]
    decreases |parts|
  {
    if |parts| > 1 {
      JoinEnds(parts[1..], sep);
    }
  }

  /** Parsing the renderings of valid days gives back the days. */
  lemma ParseShown(ds: seq<int>)
    requires forall i :: 0 <= i < |ds| ==> ValidDay(ds[i])
    ensures ParseDates(ShowAll(ds)) == Ok(ds)
  {
    var ss := ShowAll(ds);
    forall i | 0 <= i < |ds| ensures ParseJavaInt(ss[i]) == Some(ds[i]) {
      ParseShowNat(ds[i]);
    }
    ParseTokenValues(ss, ds);
  }

  /** Tokens whose `Integer.parseInt` values are valid days parse to those values. */
  lemma {:induction false} ParseTokenValues(tokens: seq<string>, ds: seq<int>)
    requires |tokens| == |ds|
    requires forall i :: 0 <= i < |ds| ==> ParseJavaInt(tokens[i]) == Some(ds[i]) && ValidDay(ds[i])
    ensures ParseDates(tokens) == Ok(ds)
    decreases |ds|
  {
    if |ds| > 0 {
      var n := |ds| - 1;
      var pre := ds[..n];
      assert forall i :: 0 <= i < n ==> tokens[..n][i] == tokens[i] && pre[i] == ds[i];
      ParseTokenValues(tokens[..n], pre);
      ParseDatesStep(tokens, pre, ds[n]);
      assert pre + [ds[n]] == ds;
    }
  }

  /** One step of `ParseDates` on a token list whose prefix has already been parsed. */
  lemma ParseDatesStep(tokens: seq<string>, init: seq<int>, d: int)
    requires |tokens| > 0 && ParseDates(tokens[..|tokens| - 1]) == Ok(init)
    requires ParseJavaInt(tokens[|tokens| - 1]) == Some(d) && ValidDay(d)
    ensures ParseDates(tokens) == Ok(init + [d])
  {
  }

  /** A rendering of a number is a non-empty run of digits. */
  lemma ShownToken(x: string)
    requires |x| > 0 && AllDigits(x)
    ensures ' ' !in x && IsDigit(x[0]) && IsDigit(x[|x| - 1])
  {
    forall k | 0 <= k < |x| ensures x[k] != ' ' {
      assert IsDigit(x[k]);
    }
  }

  /** A join whose first part is non-empty is non-empty. */
  lemma JoinNonEmpty(parts: seq<string>, sep: char)
    requires |parts| > 0 && |parts[0]| > 0
    ensures |Join(parts, sep)| > 0
  {
  }

  /** The space-joined renderings of valid days are their own trim and split back into
      the renderings. */
  lemma JoinedDays(ds: seq<int>)
    requires |ds| > 0 && forall i :: 0 <= i < |ds| ==> ValidDay(ds[i])
    ensures Trim(Join(ShowAll(ds), ' ')) == Join(ShowAll(ds), ' ')
    ensures JavaSplit(Join(ShowAll(ds), ' '), ' ') == ShowAll(ds)
  {
    JoinedDigitRuns(ShowAll(ds));
  }

  /** Non-empty digit runs joined by single spaces are their own trim and split back
      into the runs. */
  lemma JoinedDigitRuns(ss: seq<string>)
    requires |ss| > 0 && forall i :: 0 <= i < |ss| ==> |ss[i]| > 0 && AllDigits(ss[i])
    ensures Trim(Join(ss, ' ')) == Join(ss, ' ')
    ensures JavaSplit(Join(ss, ' '), ' ') == ss
  {
    var s := Join(ss, ' ');
    forall i | 0 <= i < |ss| ensures ' ' !in ss[i] {
      ShownToken(ss[i]);
    }
    ShownToken(ss[0]);
    ShownToken(ss[|ss| - 1]);
    JoinEnds(ss, ' ');
    TrimOfTrimmed(s);
    JavaSplitJoin(ss, ' ');
  }

  /** Re-parsing the space-joined output of a successful parse gives the same command. */
  lemma BlockDateIdempotent(args: string, userName: string)
    requires ParseBlockDate(args, userName).Ok?
    ensures var ds := ParseBlockDate(args, userName).value.dates;
            ParseBlockDate(Join(ShowAll(ds), ' '), userName) == Ok(BlockDate(ds, userName))
  {
    var t := Trim(args);
    var tokens := JavaSplit(t, ' ');
    assert |t| > 0 && ParseDates(tokens).Ok?;
    var raw := ParseDates(tokens).value;
    var ds := Normalize(raw);
    assert ParseBlockDate(args, userName).value.dates == ds;
    assert |ds| > 0 by {
      JavaSplitNonEmpty(t, ' ');
      assert raw[0] in raw;
    }
    ShownDaysParse(ds, userName);
  }

  /** The space-joined renderings of a non-empty ascending list of valid days parse back
      into the same list. */
  lemma ShownDaysParse(ds: seq<int>, userName: string)
    requires |ds| > 0 && StrictlyAscending(ds)
    requires forall i :: 0 <= i < |ds| ==> ValidDay(ds[i])
    ensures ParseBlockDate(Join(ShowAll(ds), ' '), userName) == Ok(BlockDate(ds, userName))
  {
    var ss := ShowAll(ds);
    var s := Join(ss, ' ');
    assert |s| > 0 by { JoinNonEmpty(ss, ' '); }
    assert Trim(s) == s && JavaSplit(s, ' ') == ss by { JoinedDays(ds); }
    assert ParseDates(ss) == Ok(ds) by { ParseShown(ds); }
    assert Normalize(ds) == ds by { NormalizeAscending(ds); }
    ParseDatesSuccess(s, userName);
  }

  /** Tokens that all parse make the command succeed with their normalized days. */
  lemma ParseDatesSuccess(args: string, userName: string)
    requires |Trim(args)| > 0 && ParseDates(JavaSplit(Trim(args), ' ')).Ok?
    ensures ParseBlockDate(args, userName) ==
            Ok(BlockDate(Normalize(ParseDates(JavaSplit(Trim(args), ' ')).value), userName))
  {
  }

  /** The last piece of a single-char split of a string not ending in the separator is
      non-empty. */
  lemma {:induction false} SplitAllLast(s: string, sep: char)
    requires |s| > 0 && s[|s| - 1] != sep
    ensures |SplitAll(s, sep)[|SplitAll(s, sep)| - 1]| > 0
    decreases |s|
  {
    var rest := SplitAll(s[1..], sep);
    if |s| > 1 {
      SplitAllLast(s[1..], sep);
    }
  }

  lemma JavaSplitNonEmpty(s: string, sep: char)
    requires |s| > 0 && s[|s| - 1] != sep
    ensures |JavaSplit(s, sep)| > 0
  {
    if sep in s {
      var parts := SplitAll(s, sep);
      SplitAllLast(s, sep);
      var r := DropTrailingEmpty(parts);
      if |r| < |parts| {
        assert parts[|parts| - 1] == "";
      }
    }
  }

  /** `ParseDates` reports the first token `Integer.parseInt` rejects, as long as every
      token before it is a valid day. */
  lemma {:induction false} ParseDatesFirstFailure(tokens: seq<string>, k: nat)
    requires k < |tokens| && ParseJavaInt(tokens[k]).None?
    requires forall i :: 0 <= i < k ==>
               ParseJavaInt(tokens[i]).Some? && ValidDay(ParseJavaInt(tokens[i]).value)
    ensures ParseDates(tokens) == Err(NumberFormat(tokens[k]))
    decreases |tokens|
  {
    var n := |tokens| - 1;
    if k < n {
      assert tokens[..n][k] == tokens[k];
      assert forall i :: 0 <= i < k ==> tokens[..n][i] == tokens[i];
      ParseDatesFirstFailure(tokens[..n], k);
    } else {
      var pre := tokens[..n];
      ParseDatesAllValid(pre);
    }
  }

  /** The first token that is a number but not a day of the month (1 to 31) makes the
      parse fail with the invalid-date error, when every token before it is a valid day. */
  lemma {:induction false} ParseDatesRangeFailure(tokens: seq<string>, k: nat)
    requires k < |tokens| && ParseJavaInt(tokens[k]).Some? && !ValidDay(ParseJavaInt(tokens[k]).value)
    requires forall i :: 0 <= i < k ==>
               ParseJavaInt(tokens[i]).Some? && ValidDay(ParseJavaInt(tokens[i]).value)
    ensures ParseDates(tokens) == Err(InvalidDate)
    decreases |tokens|
  {
    var n := |tokens| - 1;
    if k < n {
      assert tokens[..n][k] == tokens[k];
      assert forall i :: 0 <= i < k ==> tokens[..n][i] == tokens[i];
      ParseDatesRangeFailure(tokens[..n], k);
    } else {
      ParseDatesAllValid(tokens[..n]);
    }
  }

  /** Tokens that are all valid days parse. */
  lemma {:induction false} ParseDatesAllValid(tokens: seq<string>)
    requires forall i :: 0 <= i < |tokens| ==>
               ParseJavaInt(tokens[i]).Some? && ValidDay(ParseJavaInt(tokens[i]).value)
    ensures ParseDates(tokens).Ok?
    decreases |tokens|
  {
    if |tokens| > 0 {
      var n := |tokens| - 1;
      assert forall i :: 0 <= i < n ==> tokens[..n][i] == tokens[i];
      ParseDatesAllValid(tokens[..n]);
    }
  }

  /** `Integer.parseInt` rejects the empty string. */
  lemma EmptyNotInt(s: string)
    requires |s| == 0
    ensures ParseJavaInt(s).None?
  {
  }

  /** Two words joined by a doubled space split into the words around an empty token. */
  lemma DoubledSpaceTokens(a: string, b: string)
    requires |a| > 0 && ' ' !in a && |b| > 0 && ' ' !in b
    requires !IsTrimmable(a[0]) && !IsTrimmable(b[|b| - 1])
    ensures Trim(a + "  " + b) == a + "  " + b
    ensures JavaSplit(a + "  " + b, ' ') == [a, "", b]
  {
    var s := a + "  " + b;
    assert s[0] == a[0] && s[|s| - 1] == b[|b| - 1];
    TrimOfTrimmed(s);
    assert [a, "", b][1..] == ["", b] && ["", b][1..] == [b];
    assert Join(["", b], ' ') == [' '] + b;
    assert s == Join([a, "", b], ' ');
    assert ' ' !in "";
    JavaSplitJoin([a, "", b], ' ');
  }

  /** A doubled space between two days yields an empty token, which `Integer.parseInt`
      rejects: the parse fails with a number-format error, not an invalid-format one. */
  lemma DoubledSpaceFails(a: string, b: string, userName: string)
    requires ParseJavaInt(a).Some? && ValidDay(ParseJavaInt(a).value)
    requires ' ' !in a && |b| > 0 && ' ' !in b && !IsTrimmable(a[0]) && !IsTrimmable(b[|b| - 1])
    ensures ParseBlockDate(a + "  " + b, userName) == Err(NumberFormat(""))
  {
    var s := a + "  " + b;
    var tokens := JavaSplit(Trim(s), ' ');
    assert tokens == [a, "", b] by { DoubledSpaceTokens(a, b); }
    assert ParseDates(tokens) == Err(NumberFormat("")) by {
      EmptyNotInt(tokens[1]);
      ParseDatesFirstFailure(tokens, 1);
    }
    ParseDatesFailure(s, userName);
  }

  /** A day outside 1 to 31, preceded only by valid days, makes the command fail with the
      invalid-date error. */
  lemma OutOfRangeDayRejected(args: string, userName: string, k: nat)
    requires |Trim(args)| > 0
    requires var tokens := JavaSplit(Trim(args), ' ');
             && k < |tokens| && ParseJavaInt(tokens[k]).Some? && !ValidDay(ParseJavaInt(tokens[k]).value)
             && forall i :: 0 <= i < k ==>
                  ParseJavaInt(tokens[i]).Some? && ValidDay(ParseJavaInt(tokens[i]).value)
    ensures ParseBlockDate(args, userName) == Err(InvalidDate)
  {
    ParseDatesRangeFailure(JavaSplit(Trim(args), ' '), k);
    ParseDatesFailure(args, userName);
  }

  /** Tokens that fail to parse make the command fail with the same error. */
  lemma ParseDatesFailure(args: string, userName: string)
    requires |Trim(args)| > 0 && ParseDates(JavaSplit(Trim(args), ' ')).Err?
    ensures ParseBlockDate(args, userName) == Err(ParseDates(JavaSplit(Trim(args), ' ')).error)
  {
  }
}

=== FILE: calendar.dfy ===
/** The duty calendar: the current and the next month roster, plus the year and month
    index it was built for. The wall clock is a parameter. */
module Calendar {
  import opened Roster

  /** The class declares `currentYear` and `currentMonthIndex` twice; the model keeps one
      copy of each. A field that no constructor sets holds Java's default 0. */
  datatype DutyCalendar = DutyCalendar(currentYear: int, currentMonthIndex: int,
                                       currentMonth: DutyMonth, nextMonth: DutyMonth)

  /** The year of the month after month `index` of `year`: only index 11 moves to the next year. */
  function YearOfNextMonth(index: int, year: int): int {
    if index == 11 then year + 1 else year
  }

  /** The fresh next month built after month `index` of `year`. Its index is `index + 1`
      with no wrap-around, so the month after December (11) is numbered 12. */
  function FreshNextMonth(index: int, year: int, clock: Clock): (m: DutyMonth)
    ensures m.monthIndex == index + 1
    ensures m.year == year + 1 <==> index == 11
    ensures m.year == year <==> index != 11
    ensures m.duties == [] && m.blocked == map[] && !m.confirmed
  {
    var y := YearOfNextMonth(index, year);
    NewMonth(y, index + 1, clock.firstDayOf(y, index + 1))
  }

  /** The no-argument constructor: both months are derived from the wall clock. */
  function Default(clock: Clock): (c: DutyCalendar)
    ensures c.currentYear == clock.year && c.currentMonthIndex == clock.monthIndex
    ensures c.currentMonth.year == clock.year && c.currentMonth.monthIndex == clock.monthIndex
    ensures c.currentMonth.firstDay == clock.firstDayOf(clock.year, clock.monthIndex)
    ensures c.currentMonth.duties == [] && !c.currentMonth.confirmed
    ensures c.nextMonth.monthIndex == clock.monthIndex + 1
    ensures c.nextMonth.year == clock.year + 1 <==> clock.monthIndex == 11
    ensures c.nextMonth.year == clock.year <==> clock.monthIndex != 11
    ensures c.nextMonth.duties == [] && !c.nextMonth.confirmed
  {
    DutyCalendar(clock.year, clock.monthIndex,
                 NewMonth(clock.year, clock.monthIndex, clock.firstDayOf(clock.year, clock.monthIndex)),
                 FreshNextMonth(clock.monthIndex, clock.year, clock))
  }

  /** The two-month constructor: only the months are set, so the year and the month
      index read back as 0 whatever the months say. */
  function OfMonths(current: DutyMonth, next: DutyMonth): (c: DutyCalendar)
    ensures c.currentMonth == current && c.nextMonth == next
    ensures c.currentYear == 0 && c.currentMonthIndex == 0
  {
    DutyCalendar(0, 0, current, next)
  }

  /** `rollover`: the stored next month becomes current, the year and index come from the
      wall clock, and a fresh next month is built; the stored current month is dropped. */
  function Rollover(self: DutyCalendar, stored: DutyCalendar, clock: Clock): (r: DutyCalendar)
    ensures r.currentYear == clock.year && r.currentMonthIndex == clock.monthIndex
    ensures r.currentMonth == stored.nextMonth
    ensures r.nextMonth == FreshNextMonth(clock.monthIndex, clock.year, clock)
  {
    DutyCalendar(clock.year, clock.monthIndex, stored.nextMonth,
                 FreshNextMonth(clock.monthIndex, clock.year, clock))
  }

  /** `setDutyCalendar(other)`: a calendar built for the wall-clock month is copied month by
      month, leaving this calendar's own year and index fields alone; any other calendar
      is rolled over. */
  function SetDutyCalendar(self: DutyCalendar, other: DutyCalendar, clock: Clock): (r: DutyCalendar)
    ensures other.currentMonthIndex == clock.monthIndex ==>
              && r.currentMonth == other.currentMonth && r.nextMonth == other.nextMonth
              && r.currentYear == self.currentYear && r.currentMonthIndex == self.currentMonthIndex
    ensures other.currentMonthIndex != clock.monthIndex ==>
              && r.currentMonth == other.nextMonth
              && r.currentYear == clock.year && r.currentMonthIndex == clock.monthIndex
              && r.nextMonth.monthIndex == clock.monthIndex + 1 && r.nextMonth.duties == []
    ensures other.currentMonthIndex != clock.monthIndex ==> r == Rollover(self, other, clock)
  {
    if other.currentMonthIndex == clock.monthIndex then
      self.(currentMonth := other.currentMonth, nextMonth := other.nextMonth)
    else
      Rollover(self, other, clock)
  }

  /** `setDutyCalendar(other, needsRollover)` (declared outside this model): with the flag
      set it behaves as `SetDutyCalendar`; without it the months are copied verbatim. */
  function SetDutyCalendarFlag(self: DutyCalendar, other: DutyCalendar, needsRollover: bool,
                               clock: Clock): (r: DutyCalendar)
    ensures !needsRollover ==> r.currentMonth == other.currentMonth && r.nextMonth == other.nextMonth
    ensures needsRollover ==> r == SetDutyCalendar(self, other, clock)
  {
    if needsRollover then SetDutyCalendar(self, other, clock)
    else self.(currentMonth := other.currentMonth, nextMonth := other.nextMonth)
  }

  /** The stored current month plays no part in a rollover: two stored calendars that
      differ only there give the same result. */
  lemma RolloverDiscardsStoredCurrent(self: DutyCalendar, a: DutyCalendar, b: DutyCalendar, clock: Clock)
    requires a.currentMonthIndex != clock.monthIndex
    requires b == a.(currentMonth := b.currentMonth)
    ensures SetDutyCalendar(self, a, clock) == SetDutyCalendar(self, b, clock)
  {
  }

  /** A calendar built by the two-month constructor is copied only when the wall clock
      reads January, since its month index reads back as 0. */
  lemma TwoMonthCalendarCopiedOnlyInJanuary(self: DutyCalendar, cur: DutyMonth, next: DutyMonth, clock: Clock)
    ensures clock.monthIndex == 0 ==> SetDutyCalendar(self, OfMonths(cur, next), clock).currentMonth == cur
    ensures clock.monthIndex != 0 ==> SetDutyCalendar(self, OfMonths(cur, next), clock).currentMonth == next
  {
  }

  /** In December the calendar's next month is numbered 12 and lies in the following year:
      the index does not wrap around to January (0). */
  lemma DecemberNextMonth(clock: Clock)
    requires clock.monthIndex == 11
    ensures Default(clock).nextMonth.monthIndex == 12
    ensures Default(clock).nextMonth.monthIndex != (Default(clock).currentMonth.monthIndex + 1) % 12
    ensures Default(clock).nextMonth.year == Default(clock).currentMonth.year + 1
  {
  }

  /** The calendar the default constructor builds has months in the relation the loader
      checks: next index is current index + 1, and the years agree unless the current
      month is December. A rollover result has that relation between its own year and index
      fields and its next month; its current month is the stored next month, so its months
      are in the relation when the stored next month is the wall-clock month. */
  lemma FreshCalendarsConsistent(self: DutyCalendar, stored: DutyCalendar, clock: Clock)
    ensures var c := Default(clock);
            c.nextMonth.monthIndex == c.currentMonth.monthIndex + 1
            && (c.currentMonth.monthIndex != 11 ==> c.currentMonth.year == c.nextMonth.year)
    ensures var r := Rollover(self, stored, clock);
            r.nextMonth.monthIndex == r.currentMonthIndex + 1
            && (r.currentMonthIndex != 11 ==> r.nextMonth.year == r.currentYear)
    ensures stored.nextMonth.monthIndex == clock.monthIndex && stored.nextMonth.year == clock.year ==>
              var r := Rollover(self, stored, clock);
              r.nextMonth.monthIndex == r.currentMonth.monthIndex + 1
              && (r.currentMonth.monthIndex != 11 ==> r.nextMonth.year == r.currentMonth.year)
  {
  }
}

=== FILE: command_parser.dfy ===
/** `PersonnelDatabaseParser.parseCommand`: the trimmed input is split by the pattern
    `(?<commandWord>\S+)(?<arguments>.*)` into a command word and its arguments, and the
    word selects the command or the argument parser to run. */
module CommandParser {
  import opened Common
  import opened JavaText
  import opened ParserTypes
  import opened BlockDateParser
  import opened ArgParsers

  /** The two groups of a successful match. */
  datatype Split = Split(word: string, arguments: string)

  /** No char of `s` is a line terminator, so `.*` matches all of `s`. */
  predicate NoLineTerminator(s: string) {
    forall k :: 0 <= k < |s| ==> !IsLineTerminator(s[k])
  }

  /** The pattern matches all of `t` with the command word `t[..k]`: `\S+` takes `t[..k]`
      and `.*` takes the rest. */
  predicate MatchesAt(t: string, k: int) {
    1 <= k <= |t| && NoSpace(t[..k]) && NoLineTerminator(t[k..])
  }

  /** `Matcher.matches()` on the trimmed input `t`, with the groups of the match: the
      greedy `\S+` takes the whole first word, and the match fails when the input is blank
      or what follows the word contains a line terminator. */
  function SplitTrimmed(t: string): (r: Option<Split>)
    requires |t| == 0 || !IsTrimmable(t[0])
    ensures r.Some? <==> |t| > 0 && NoLineTerminator(t[|Word(t)|..])
    ensures r.Some? ==>
              && r.value.word + r.value.arguments == t
              && r.value.word == Word(t) && NonEmpty(r.value.word) && NoSpace(r.value.word)
              && (|r.value.arguments| == 0 || IsSpace(r.value.arguments[0]))
  {
    var w := Word(t);
    if |t| == 0 then None
    else
      SplitWordNonEmpty(t);
      if NoLineTerminator(t[|w|..]) then Some(Split(w, t[|w|..])) else None
  }

  /** The match is taken on the input with Java's `trim()` applied. */
  function SplitCommand(input: string): Option<Split> {
    SplitTrimmed(Trim(input))
  }

  lemma SplitWordNonEmpty(t: string)
    requires |t| > 0 && !IsTrimmable(t[0])
    ensures |Word(t)| > 0
  {
    SpaceIsTrimmable(t[0]);
  }

  /** No match can take a command word longer than the first word. */
  lemma MatchNotPastWord(t: string, k: int)
    requires MatchesAt(t, k)
    ensures k <= |Word(t)|
  {
    var w := Word(t);
    forall i | 0 <= i < k ensures !IsSpace(t[i]) {
      assert t[..k][i] == t[i];
    }
  }

  /** Any match shows that nothing after the first word is a line terminator. */
  lemma MatchRestFree(t: string, k: int)
    requires MatchesAt(t, k)
    ensures NoLineTerminator(t[|Word(t)|..])
  {
    MatchNotPastWord(t, k);
    var w := Word(t);
    forall j | 0 <= j < |t| - |w| ensures !IsLineTerminator(t[|w|..][j]) {
      assert t[|w|..][j] == t[k..][j + |w| - k];
    }
  }

  /** A match of the pattern exists exactly when `SplitTrimmed` succeeds, and the word it
      returns is the longest one any match could give: the `\S+` group is greedy. */
  lemma SplitIsGreedyMatch(t: string)
    requires |t| == 0 || !IsTrimmable(t[0])
    ensures SplitTrimmed(t).Some? <==> exists k :: MatchesAt(t, k)
    ensures SplitTrimmed(t).Some? ==>
              MatchesAt(t, |SplitTrimmed(t).value.word|)
              && forall k :: MatchesAt(t, k) ==> k <= |SplitTrimmed(t).value.word|
  {
    forall k | MatchesAt(t, k) ensures k <= |Word(t)| && NoLineTerminator(t[|Word(t)|..]) {
      MatchNotPastWord(t, k);
      MatchRestFree(t, k);
    }
    if SplitTrimmed(t).Some? {
      assert t[..|Word(t)|] == Word(t);
      assert MatchesAt(t, |Word(t)|);
    }
  }

  /** Every command kind, in the order the `switch` lists its word. */
  const SwitchOrder := [
    AcceptSwapKind, AddKind, BlockDateKind, ClearKind, DeleteKind, EditKind, ExitKind,
    FindKind, HelpKind, HistoryKind, ListKind, RedoKind, ScheduleKind, SelectKind, SortKind,
    ConfirmKind, SwapKind, UndoKind, ViewKind, UnconfirmKind, DutySettingsKind, PointsKind,
    ViewCurrentKind, ViewNextKind, ViewSwapsKind, ApproveSwapKind, RejectSwapKind,
    RewardKind, PenalizeKind, ViewBlockKind, RemoveBlockKind]

  lemma SwitchOrderComplete(k: CommandKind)
    ensures k in SwitchOrder
  {
  }

  /** The first kind of `kinds` whose command word is `w`. */
  function FirstWithWord(kinds: seq<CommandKind>, w: string, word: CommandKind -> string)
    : (r: Option<CommandKind>)
    ensures r.None? <==> forall i :: 0 <= i < |kinds| ==> word(kinds[i]) != w
    ensures r.Some? ==> r.value in kinds && word(r.value) == w
  {
    if |kinds| == 0 then None
    else if word(kinds[0]) == w then Some(kinds[0])
    else
      var r := FirstWithWord(kinds[1..], w, word);
      assert forall i :: 1 <= i < |kinds| ==> kinds[1..][i - 1] == kinds[i];
      r
  }

  /** The `switch (commandWord)`: the kind whose word is `w`, if any. */
  function KindOf(w: string, word: CommandKind -> string): (r: Option<CommandKind>)
    ensures r.None? <==> forall k :: word(k) != w
    ensures r.Some? ==> word(r.value) == w
  {
    var r := FirstWithWord(SwitchOrder, w, word);
    if r.None? then
      assert forall k :: word(k) != w by {
        forall k ensures word(k) != w {
          SwitchOrderComplete(k);
          var i :| 0 <= i < |SwitchOrder| && SwitchOrder[i] == k;
        }
      }
      r
    else r
  }

  /** With distinct command words, the word of a kind selects that kind. */
  lemma KindOfWord(k: CommandKind, word: CommandKind -> string)
    requires WellFormedWords(word)
    ensures KindOf(word(k), word) == Some(k)
  {
  }

  /** The command built for each kind that takes no arguments; none for the kinds whose
      arguments are parsed. */
  function FixedCommand(kind: CommandKind, userName: string): Option<Command> {
    match kind
    case ClearKind => Some(Clear(userName))
    case ExitKind => Some(Exit)
    case HelpKind => Some(Help)
    case HistoryKind => Some(History)
    case ListKind => Some(List)
    case RedoKind => Some(Redo)
    case ScheduleKind => Some(Schedule)
    case SortKind => Some(Sort)
    case ConfirmKind => Some(Confirm)
    case UndoKind => Some(Undo)
    case UnconfirmKind => Some(Unconfirm)
    case ViewCurrentKind => Some(ViewCurrent)
    case ViewNextKind => Some(ViewNext)
    case ViewSwapsKind => Some(ViewSwaps)
    case ViewBlockKind => Some(ViewBlock(userName))
    case RemoveBlockKind => Some(RemoveBlock(userName))
    case _ => None
  }

  /** The body of each `case`: the argument parser of the kind, or the command itself for
      the kinds that take no arguments, whatever the arguments are. */
  function Dispatch(kind: CommandKind, args: string, userType: Option<UserType>, userName: string,
                    env: ParseEnv): Result<Command, ParseError>
  {
    match kind
    case AcceptSwapKind => ParseAcceptSwap(args, userName, env)
    case AddKind => ParseAdd(args, env)
    case BlockDateKind => ParseBlockDate(args, userName)
    case ClearKind => Ok(Clear(userName))
    case DeleteKind => ParseDelete(args, userType, userName, env)
    case EditKind => ParseEdit(args, userType, userName, env)
    case ExitKind => Ok(Exit)
    case FindKind => ParseFind(args)
    case HelpKind => Ok(Help)
    case HistoryKind => Ok(History)
    case ListKind => Ok(List)
    case RedoKind => Ok(Redo)
    case ScheduleKind => Ok(Schedule)
    case SelectKind => ParseSelect(args, env)
    case SortKind => Ok(Sort)
    case ConfirmKind => Ok(Confirm)
    case SwapKind => env.otherParser(SwapKind, args, userType, userName)
    case UndoKind => Ok(Undo)
    case ViewKind => env.otherParser(ViewKind, args, userType, userName)
    case UnconfirmKind => Ok(Unconfirm)
    case DutySettingsKind => env.otherParser(DutySettingsKind, args, userType, userName)
    case PointsKind => ParsePoints(args, env)
    case ViewCurrentKind => Ok(ViewCurrent)
    case ViewNextKind => Ok(ViewNext)
    case ViewSwapsKind => Ok(ViewSwaps)
    case ApproveSwapKind => ParseApproveSwap(args, userType, env)
    case RejectSwapKind => ParseRejectSwap(args, userType, env)
    case RewardKind => env.otherParser(RewardKind, args, userType, userName)
    case PenalizeKind => env.otherParser(PenalizeKind, args, userType, userName)
    case ViewBlockKind => Ok(ViewBlock(userName))
    case RemoveBlockKind => Ok(RemoveBlock(userName))
  }

  /** `parseCommand`. */
  function ParseCommand(input: string, userType: Option<UserType>, userName: string, env: ParseEnv)
    : (r: Result<Command, ParseError>)
    ensures SplitCommand(input).None? ==> r == Err(InvalidFormat(HelpUsage, None))
    ensures SplitCommand(input).Some? && KindOf(SplitCommand(input).value.word, env.word).None?
            ==> r == Err(UnknownCommand)
    ensures SplitCommand(input).Some? && KindOf(SplitCommand(input).value.word, env.word).Some?
            ==> r == Dispatch(KindOf(SplitCommand(input).value.word, env.word).value,
                              SplitCommand(input).value.arguments, userType, userName, env)
  {
    match SplitCommand(input)
    case None => Err(InvalidFormat(HelpUsage, None))
    case Some(split) =>
      match KindOf(split.word, env.word)
      case None => Err(UnknownCommand)
      case Some(kind) => Dispatch(kind, split.arguments, userType, userName, env)
  }

  /** Blank input is an invalid command format quoting the help usage. */
  lemma BlankInputRejected(input: string, userType: Option<UserType>, userName: string, env: ParseEnv)
    requires AllTrimmable(input)
    ensures ParseCommand(input, userType, userName, env) == Err(InvalidFormat(HelpUsage, None))
  {
  }

  /** Input whose first word is no command word is an unknown command. */
  lemma UnknownWordRejected(input: string, userType: Option<UserType>, userName: string, env: ParseEnv)
    requires SplitCommand(input).Some?
    requires forall k :: env.word(k) != Word(Trim(input))
    ensures ParseCommand(input, userType, userName, env) == Err(UnknownCommand)
  {
  }

  /** A command line built from a word without trimmable chars, a run of non-terminator
      whitespace and a rest without line terminators is its own trim, and splits into the
      word and the whitespace followed by the rest. */
  lemma CommandLineSplits(w: string, gap: string, rest: string)
    requires NonEmpty(w) && forall j :: 0 <= j < |w| ==> !IsTrimmable(w[j])
    requires |gap| > 0 && forall j :: 0 <= j < |gap| ==> IsSpace(gap[j]) && !IsLineTerminator(gap[j])
    requires |rest| > 0 && NoLineTerminator(rest) && !IsTrimmable(rest[|rest| - 1])
    ensures SplitCommand(w + gap + rest) == Some(Split(w, gap + rest))
  {
    var tail := gap + rest;
    var input := w + tail;
    assert w + gap + rest == input;
    assert NoSpace(w) by {
      forall j | 0 <= j < |w| ensures !IsSpace(w[j]) { SpaceIsTrimmable(w[j]); }
    }
    assert input[0] == w[0];
    assert input[|input| - 1] == rest[|rest| - 1];
    TrimOfTrimmed(input);
    assert tail[0] == gap[0];
    WordOfPrefix(w, tail);
    assert input[|w|..] == tail;
    assert NoLineTerminator(tail) by {
      forall j | 0 <= j < |tail| ensures !IsLineTerminator(tail[j]) {
        if j >= |gap| { assert tail[j] == rest[j - |gap|]; }
      }
    }
  }

  /** Input that is a command word, then a run of whitespace, then a non-empty line without
      line terminators, runs the parser of that command on the whitespace and the line. */
  lemma WordSelectsCommand(k: CommandKind, gap: string, rest: string, userType: Option<UserType>,
                           userName: string, env: ParseEnv)
    requires WellFormedWords(env.word) && NonEmpty(env.word(k))
    requires forall j :: 0 <= j < |env.word(k)| ==> !IsTrimmable(env.word(k)[j])
    requires |gap| > 0 && forall j :: 0 <= j < |gap| ==> IsSpace(gap[j]) && !IsLineTerminator(gap[j])
    requires |rest| > 0 && NoLineTerminator(rest) && !IsTrimmable(rest[|rest| - 1])
    ensures ParseCommand(env.word(k) + gap + rest, userType, userName, env)
            == Dispatch(k, gap + rest, userType, userName, env)
  {
    CommandLineSplits(env.word(k), gap, rest);
    KindOfWord(k, env.word);
  }

  /** The word of a space-free string followed by whitespace is that string. */
  lemma {:induction false} WordOfPrefix(w: string, tail: string)
    requires NoSpace(w) && (|tail| == 0 || IsSpace(tail[0]))
    ensures Word(w + tail) == w
    decreases |w|
  {
    if |w| > 0 {
      assert (w + tail)[1..] == w[1..] + tail;
      assert NoSpace(w[1..]) by {
        forall j | 0 <= j < |w[1..]| ensures !IsSpace(w[1..][j]) {
          assert w[1..][j] == w[j + 1];
        }
      }
      WordOfPrefix(w[1..], tail);
    }
  }

  /** The kinds that take no arguments build their command whatever the arguments are. */
  lemma FixedDispatch(kind: CommandKind, args: string, userType: Option<UserType>, userName: string,
                      env: ParseEnv)
    requires FixedCommand(kind, userName).Some?
    ensures Dispatch(kind, args, userType, userName, env) == Ok(FixedCommand(kind, userName).value)
  {
  }

  /** Commands that take no arguments ignore whatever follows their word. */
  lemma ArgumentsIgnored(input: string, k: CommandKind, userType: Option<UserType>, userName: string,
                         env: ParseEnv)
    requires WellFormedWords(env.word) && FixedCommand(k, userName).Some?
    requires SplitCommand(input).Some? && SplitCommand(input).value.word == env.word(k)
    ensures ParseCommand(input, userType, userName, env) == Ok(FixedCommand(k, userName).value)
  {
    KindOfWord(k, env.word);
    FixedDispatch(k, SplitCommand(input).value.arguments, userType, userName, env);
  }
}

=== FILE: commands.dfy ===
/** The modelled commands. Each runs against the model state and either succeeds with a
    result for the user interface or fails with a command error. A failure does not roll
    back what the command already changed (reward and penalize fail part-way through), so
    the outcome carries the state in both cases. */
module Commands {
  import opened Common
  import opened Persons
  import opened PointsLedger
  import opened Roster
  import Calendar
  import opened Database
  import opened AppModel
  import ParserTypes

  /** What a successful command reports. */
  datatype Feedback =
    | Added(person: Person, runScheduleAgain: bool)      // asks for a new schedule if one was confirmed
    | Deleted(person: Person)
    | PointsAdjusted(rewarded: bool, points: int, targets: seq<Person>)
    | PointsTable                                        // the ledger's points overview
    | PointsDetails(person: Person)                      // the ledger's records of one person
    | Cleared
    | UndoDone
    | RedoDone
    | DutiesOf(userName: string, duties: seq<Duty>)     // one line per (duty, assignment) match
    | NoDuties(userName: string)
    | BlockedDates(days: Option<seq<int>>)               // `None` prints as "null"
    | SortedList
    | ListedAll
    | HelpShown
    | Exiting
    | CurrentMonthShown

  datatype CommandResult = CommandResult(feedback: Feedback, hint: Hint)

  /** A `CommandException`, by its message. */
  datatype CmdError =
    | NoAuthority
    | DuplicatePerson
    | InvalidPersonDisplayedIndex
    | InvalidIndex(oneBased: int)
    | NoUser
    | NoMoreUndo
    | NoMoreRedo
    | OtherError(message: string)                        // raised by a command outside this model

  datatype Outcome = Outcome(result: Result<CommandResult, CmdError>, state: ModelState)

  /** The collaborators of the commands: the wall clock, the name-keyword predicate of the
      displayed list, `findPerson`, and the commands outside this model (schedule, confirm,
      swaps, block dates, edit, find, select, history, ...). */
  datatype CmdEnv = CmdEnv(
    clock: Clock,
    matches: KeywordMatcher,
    findPerson: (seq<Person>, string) -> Option<Person>,
    otherExecute: (ParserTypes.Command, UserType, ModelState) -> Outcome)

  /** The commands outside this model keep the model invariant. */
  ghost predicate OthersKeepInv(env: CmdEnv) {
    forall c, role, m :: Inv(m) ==> Inv(env.otherExecute(c, role, m).state)
  }

  /** The commands this model defines. */
  predicate Modelled(c: ParserTypes.Command) {
    || c.Add? || c.Delete? || c.Reward? || c.Penalize? || c.Points? || c.Clear?
    || c.Undo? || c.Redo? || c.View? || c.ViewBlock? || c.Sort? || c.List? || c.Help?
    || c.Exit? || c.ViewCurrent?
  }

  /** `r` is `m` after one `commit` of `r`'s live database. */
  predicate CommittedFrom(m: ModelState, r: ModelState) {
    && m.versions.pointer < |m.versions.states|
    && r.versions.pointer == m.versions.pointer + 1
    && r.versions.pointer < |r.versions.states|
    && r.versions.states[..r.versions.pointer] == m.versions.states[..m.versions.pointer + 1]
    && r.versions.states[r.versions.pointer] == r.db
    && !CanRedo(r)
  }

  function WithDb(m: ModelState, db: Db): ModelState {
    m.(db := db)
  }

  function Refused(m: ModelState, e: CmdError): (o: Outcome)
    ensures o.result.Err? && o.state == m
  {
    Outcome(Err(e), m)
  }

  function Done(m: ModelState, f: Feedback, h: Hint): (o: Outcome)
    ensures o.result.Ok? && o.state == m
  {
    Outcome(Ok(CommandResult(f, h)), m)
  }

  /** The next month loses its confirmation; the scheduler's last batch leaves the ledger. */
  function Invalidate(db: Db): (r: Db)
    ensures r.persons == db.persons && r.modified == db.modified
    ensures r.ledger.log == db.ledger.log + [UndoLastBatch]
    ensures r.calendar.currentMonth == db.calendar.currentMonth
    ensures !r.calendar.nextMonth.confirmed
    ensures r.calendar.nextMonth.duties == db.calendar.nextMonth.duties
  {
    var cal := db.calendar;
    db.(calendar := cal.(nextMonth := Unconfirm(cal.nextMonth)), ledger := PointsLedger.Undo(db.ledger))
  }

  // ----- add -----

  /** `add`: admins only; refuses a person whose NRIC is listed; otherwise appends the
      person, invalidates the next month's schedule and commits. */
  function ExecAdd(m: ModelState, p: Person, role: UserType): (o: Outcome)
    requires Inv(m)
    ensures Inv(o.state)
    ensures role == General ==> o == Outcome(Err(NoAuthority), m)
    ensures role == Admin && HasPerson(m.db, p) ==> o == Outcome(Err(DuplicatePerson), m)
    ensures role == Admin && !HasPerson(m.db, p) ==>
              && o.result == Ok(CommandResult(Added(p, m.db.calendar.nextMonth.confirmed), NoHint))
              && o.state.db.persons == m.db.persons + [p]
              && o.state.db.ledger.log == m.db.ledger.log + [AddRow(p), UndoLastBatch]
              && o.state.db.calendar.currentMonth == m.db.calendar.currentMonth
              && !o.state.db.calendar.nextMonth.confirmed
              && o.state.db.calendar.nextMonth.duties == m.db.calendar.nextMonth.duties
              && o.state.db.modified && o.state.filter == m.filter
              && CommittedFrom(m, o.state)
  {
    if role == General then Refused(m, NoAuthority)
    else if HasPerson(m.db, p) then Refused(m, DuplicatePerson)
    else
      AddPersonKeepsValid(m.db, p);
      var db := Invalidate(Database.AddPerson(m.db, p));
      Done(Commit(WithDb(m, db)), Added(p, m.db.calendar.nextMonth.confirmed), NoHint)
  }

  // ----- delete -----

  /** After removing the first occurrence of a listed person from a list with unique
      identities, nobody with that identity is left. */
  lemma RemovedIdentityGone(db: Db, p: Person)
    requires Valid(db) && p in db.persons
    ensures Valid(Database.RemovePerson(db, p))
    ensures !HasPerson(Database.RemovePerson(db, p), p)
    ensures forall i :: 0 <= i < |db.persons| && db.persons[i] == p ==>
              Database.RemovePerson(db, p).persons == db.persons[..i] + db.persons[i + 1..]
  {
    RemovePersonKeepsValid(db, p);
    var i := IndexOf(db.persons, p);
    var ps := db.persons;
    var r := Database.RemovePerson(db, p).persons;
    assert r == ps[..i] + ps[i + 1..];
    forall j | 0 <= j < |ps| && j != i ensures ps[j] != p {
      assert ps[j].nric != ps[i].nric;
    }
    forall k | 0 <= k < |r| ensures !SamePerson(r[k], p) {
      if k < i {
        assert r[k] == ps[k];
      } else {
        assert r[k] == ps[k + 1];
      }
    }
  }

  /** `delete INDEX`: admins only; removes the person at the index of the displayed list,
      clears the next month's duties, drops the person's ledger row, invalidates the next
      month's schedule and commits. A user who deletes themself is logged out. */
  function ExecDelete(m: ModelState, index: nat, userName: string, role: UserType, env: CmdEnv): (o: Outcome)
    requires Inv(m)
    ensures Inv(o.state)
    ensures role == General ==> o == Outcome(Err(NoAuthority), m)
    ensures role == Admin && index >= |Shown(m, env.matches)| ==>
              o == Outcome(Err(InvalidPersonDisplayedIndex), m)
    ensures role == Admin && index < |Shown(m, env.matches)| ==>
              var p := Shown(m, env.matches)[index];
              && o.result == Ok(CommandResult(Deleted(p), if p.nric == userName then ExitHint else NoHint))
              && multiset(o.state.db.persons) == multiset(m.db.persons) - multiset{p}
              && (forall i :: 0 <= i < |m.db.persons| && m.db.persons[i] == p ==>
                    o.state.db.persons == m.db.persons[..i] + m.db.persons[i + 1..])
              && !HasPerson(o.state.db, p)
              && o.state.db.ledger.log == m.db.ledger.log + [RemoveRow(p), UndoLastBatch]
              && o.state.db.calendar.currentMonth == m.db.calendar.currentMonth
              && o.state.db.calendar.nextMonth.duties == []
              && !o.state.db.calendar.nextMonth.confirmed
              && o.state.db.modified && o.state.filter == m.filter
              && CommittedFrom(m, o.state)
  {
    var shown := Shown(m, env.matches);
    if role == General then Refused(m, NoAuthority)
    else if index >= |shown| then Refused(m, InvalidPersonDisplayedIndex)
    else
      var p := shown[index];
      RemovedIdentityGone(m.db, p);
      var db1 := Database.RemovePerson(m.db, p);
      var cal := db1.calendar;
      var db2 := db1.(calendar := cal.(nextMonth := ClearAllDuties(cal.nextMonth)),
                      ledger := PointsLedger.RemovePerson(db1.ledger, p));
      var db := Invalidate(db2);
      Done(Commit(WithDb(m, db)), Deleted(p), if p.nric == userName then ExitHint else NoHint)
  }

  /** Deleting, from the full list, the person just added restores the person list; the
      ledger keeps a trace of both. */
  lemma AddThenDelete(m: ModelState, p: Person, userName: string, env: CmdEnv)
    requires Inv(m) && m.filter.ShowAll? && !HasPerson(m.db, p)
    ensures var a := ExecAdd(m, p, Admin).state;
            ExecDelete(a, |m.db.persons|, userName, Admin, env).state.db.persons == m.db.persons
    ensures var a := ExecAdd(m, p, Admin).state;
            ExecDelete(a, |m.db.persons|, userName, Admin, env).result
            == Ok(CommandResult(Deleted(p), if p.nric == userName then ExitHint else NoHint))
    ensures var a := ExecAdd(m, p, Admin).state;
            ExecDelete(a, |m.db.persons|, userName, Admin, env).state.db.ledger.log
            == m.db.ledger.log + [AddRow(p), UndoLastBatch, RemoveRow(p), UndoLastBatch]
  {
    var a := ExecAdd(m, p, Admin).state;
    var n := |m.db.persons|;
    assert a.db.persons == m.db.persons + [p];
    assert Shown(a, env.matches) == a.db.persons;
    assert a.db.persons[n] == p;
    assert a.db.persons[..n] == m.db.persons;
    assert a.db.persons[n + 1..] == [];
    assert m.db.ledger.log + [AddRow(p), UndoLastBatch] + [RemoveRow(p), UndoLastBatch]
           == m.db.ledger.log + [AddRow(p), UndoLastBatch, RemoveRow(p), UndoLastBatch];
  }

  // ----- reward and penalize -----

  function PointsEntry(p: Person, points: int, reward: bool): Entry {
    if reward then Rewarded(p, points) else Penalized(p, points)
  }

  /** The persons at `indexes` of the displayed list, in iteration order. */
  function Targets(shown: seq<Person>, indexes: seq<nat>): (r: seq<Person>)
    requires forall i :: 0 <= i < |indexes| ==> indexes[i] < |shown|
    ensures |r| == |indexes|
  {
    if |indexes| == 0 then []
    else Targets(shown, indexes[..|indexes| - 1]) + [shown[indexes[|indexes| - 1]]]
  }

  /** Element `i` of the targets is the displayed person at the `i`-th index. */
  lemma {:induction false} TargetsAt(shown: seq<Person>, indexes: seq<nat>, i: nat)
    requires forall j :: 0 <= j < |indexes| ==> indexes[j] < |shown|
    requires i < |indexes|
    ensures Targets(shown, indexes)[i] == shown[indexes[i]]
    decreases |indexes|
  {
    var n := |indexes| - 1;
    if i < n {
      TargetsAt(shown, indexes[..n], i);
    }
  }

  /** The ledger entries of rewarding (or penalizing) each of `targets` in turn. */
  function PointsEntries(targets: seq<Person>, points: int, reward: bool): (r: seq<Entry>)
    ensures |r| == |targets|
  {
    if |targets| == 0 then []
    else PointsEntries(targets[..|targets| - 1], points, reward)
         + [PointsEntry(targets[|targets| - 1], points, reward)]
  }

  /** The position of the first index at or past `n`, if any. */
  function FirstOutOfRange(indexes: seq<nat>, n: nat): (r: Option<nat>)
    ensures r.None? <==> forall i :: 0 <= i < |indexes| ==> indexes[i] < n
    ensures r.Some? ==> r.value < |indexes| && indexes[r.value] >= n
    ensures r.Some? ==> forall i :: 0 <= i < r.value ==> indexes[i] < n
  {
    if |indexes| == 0 then None
    else if indexes[0] >= n then Some(0)
    else
      match FirstOutOfRange(indexes[1..], n)
      case None => None
      case Some(k) => Some(k + 1)
  }

  /** What one reward or penalty entry adds to a balance. */
  lemma EntryDelta(t: Person, points: int, reward: bool, q: Person)
    ensures Delta(PointsEntry(t, points, reward), q)
            == (if reward then points else -points) * Count([t], q)
  {
    assert [t][1..] == [];
  }

  lemma PointsEntriesSnoc(targets: seq<Person>, t: Person, points: int, reward: bool)
    ensures PointsEntries(targets + [t], points, reward)
            == PointsEntries(targets, points, reward) + [PointsEntry(t, points, reward)]
  {
    assert (targets + [t])[..|targets|] == targets;
  }

  lemma Distribute(a: int, b: int, c: int)
    ensures a * (b + c) == a * b + a * c
  {
  }

  /** The balance change of the entries: the signed points times the number of times a
      person is targeted. */
  lemma {:induction false} AdjustedBalances(log: seq<Entry>, targets: seq<Person>, points: int,
                                             reward: bool, q: Person)
    ensures ManualPoints(log + PointsEntries(targets, points, reward), q)
            == ManualPoints(log, q) + (if reward then points else -points) * Count(targets, q)
    decreases |targets|
  {
    var sign := if reward then points else -points;
    if |targets| == 0 {
      assert log + PointsEntries(targets, points, reward) == log;
    } else {
      var n := |targets| - 1;
      var front := targets[..n];
      var t := targets[n];
      var e := PointsEntry(t, points, reward);
      assert targets == front + [t];
      PointsEntriesSnoc(front, t, points, reward);
      AdjustedBalances(log, front, points, reward, q);
      var all := log + PointsEntries(front, points, reward);
      assert log + PointsEntries(targets, points, reward) == all + [e];
      assert (all + [e])[..|all|] == all;
      assert ManualPoints(all + [e], q) == ManualPoints(all, q) + Delta(e, q);
      EntryDelta(t, points, reward, q);
      CountAppend(front, [t], q);
      Distribute(sign, Count(front, q), Count([t], q));
    }
  }

  lemma TargetsSnoc(shown: seq<Person>, indexes: seq<nat>, i: nat)
    requires i < |indexes| && forall j :: 0 <= j <= i ==> indexes[j] < |shown|
    ensures Targets(shown, indexes[..i + 1]) == Targets(shown, indexes[..i]) + [shown[indexes[i]]]
  {
    assert indexes[..i + 1][..i] == indexes[..i];
  }

  /** One more index in range adds the entry of its displayed person. */
  lemma RecordStep(shown: seq<Person>, indexes: seq<nat>, i: nat, points: int, reward: bool,
                   log: seq<Entry>)
    requires i < |indexes| && forall j :: 0 <= j <= i ==> indexes[j] < |shown|
    ensures log + PointsEntries(Targets(shown, indexes[..i + 1]), points, reward)
            == log + PointsEntries(Targets(shown, indexes[..i]), points, reward)
               + [PointsEntry(shown[indexes[i]], points, reward)]
  {
    TargetsSnoc(shown, indexes, i);
    PointsEntriesSnoc(Targets(shown, indexes[..i]), shown[indexes[i]], points, reward);
  }

  /** `dutyStorage.reward` or `dutyStorage.penalize`. */
  function Record(l: Ledger, t: Person, points: int, reward: bool): (r: Ledger)
    ensures r.log == l.log + [PointsEntry(t, points, reward)]
  {
    if reward then PointsLedger.Reward(l, t, points) else PointsLedger.Penalize(l, t, points)
  }

  /** The first index past the displayed list, found by scanning from the front, is the
      one `FirstOutOfRange` names. */
  lemma FirstOutOfRangeAt(indexes: seq<nat>, n: nat, i: nat)
    requires i < |indexes| && indexes[i] >= n
    requires forall j :: 0 <= j < i ==> indexes[j] < n
    ensures FirstOutOfRange(indexes, n) == Some(i)
  {
    var r := FirstOutOfRange(indexes, n);
    assert r.Some?;
  }

  /** The loop of reward and penalize: one ledger entry per index until the first index
      past the displayed list, whose position is returned. */
  method RecordPoints(shown: seq<Person>, indexes: seq<nat>, points: int, reward: bool,
                      start: Ledger) returns (ledger: Ledger, stop: Option<nat>)
    ensures stop == FirstOutOfRange(indexes, |shown|)
    ensures stop.None? ==>
              ledger.log == start.log + PointsEntries(Targets(shown, indexes), points, reward)
    ensures stop.Some? ==>
              ledger.log == start.log + PointsEntries(Targets(shown, indexes[..stop.value]), points, reward)
  {
    ledger := start;
    var i := 0;
    while i < |indexes| && indexes[i] < |shown|
      invariant 0 <= i <= |indexes|
      invariant forall j :: 0 <= j < i ==> indexes[j] < |shown|
      invariant ledger.log == start.log + PointsEntries(Targets(shown, indexes[..i]), points, reward)
    {
      RecordStep(shown, indexes, i, points, reward, start.log);
      ledger := Record(ledger, shown[indexes[i]], points, reward);
      i := i + 1;
    }
    if i < |indexes| {
      FirstOutOfRangeAt(indexes, |shown|, i);
      stop := Some(i);
    } else {
      assert indexes[..i] == indexes;
      stop := None;
    }
  }

  /** `reward`/`penalize` in closed form: the entries of the targets before the first
      index past the displayed list are kept; the command commits only when there is none. */
  function PointsOutcome(m: ModelState, indexes: seq<nat>, points: int, reward: bool,
                         role: UserType, env: CmdEnv): (o: Outcome)
    requires Inv(m)
    ensures Inv(o.state)
    ensures o.state.db.persons == m.db.persons && o.state.db.calendar == m.db.calendar
    ensures o.result.Ok? <==> role == Admin && FirstOutOfRange(indexes, |Shown(m, env.matches)|).None?
  {
    if role == General then Refused(m, NoAuthority)
    else
      var shown := Shown(m, env.matches);
      var stop := FirstOutOfRange(indexes, |shown|);
      if stop.Some? then
        var k := stop.value;
        var ts := Targets(shown, indexes[..k]);
        Outcome(Err(InvalidIndex(indexes[k] + 1)),
                m.(db := m.db.(ledger := Ledger(m.db.ledger.log + PointsEntries(ts, points, reward)))))
      else
        var ts := Targets(shown, indexes);
        var after := m.(db := m.db.(ledger := Ledger(m.db.ledger.log + PointsEntries(ts, points, reward))));
        assert role == Admin;
        Done(Commit(after), PointsAdjusted(reward, points, ts), NoHint)
  }

  /** The displayed list has unique identities. */
  lemma ShownUnique(m: ModelState, matches: KeywordMatcher)
    requires Inv(m)
    ensures UniqueIds(Shown(m, matches))
  {
    if m.filter.NameKeywords? {
      FilteredUnique(m.db.persons, p => matches(m.filter.keywords, p));
    }
  }

  /** Distinct indexes into a list with unique identities pick distinct persons. */
  lemma TargetsDistinct(shown: seq<Person>, indexes: seq<nat>)
    requires UniqueIds(shown) && Distinct(indexes)
    requires forall i :: 0 <= i < |indexes| ==> indexes[i] < |shown|
    ensures Distinct(Targets(shown, indexes))
    ensures forall q :: q in Targets(shown, indexes) <==>
              exists i :: 0 <= i < |indexes| && shown[indexes[i]] == q
  {
    var ts := Targets(shown, indexes);
    forall i | 0 <= i < |indexes| ensures ts[i] == shown[indexes[i]] {
      TargetsAt(shown, indexes, i);
    }
    forall a, b | 0 <= a < b < |ts| ensures ts[a] != ts[b] {
      assert ts[a].nric != ts[b].nric by {
        assert indexes[a] != indexes[b];
        if indexes[a] < indexes[b] {
          assert shown[indexes[a]].nric != shown[indexes[b]].nric;
        } else {
          assert shown[indexes[b]].nric != shown[indexes[a]].nric;
        }
      }
    }
  }

  /** The source keeps the indexes of reward and penalize in a set. With distinct indexes
      in range, the command changes the balance of every chosen displayed person by exactly
      the points (added or deducted) and leaves every other balance alone. */
  lemma EachTargetOnce(m: ModelState, indexes: seq<nat>, points: int, reward: bool, env: CmdEnv, q: Person)
    requires Inv(m) && Distinct(indexes)
    requires forall i :: 0 <= i < |indexes| ==> indexes[i] < |Shown(m, env.matches)|
    ensures PointsOutcome(m, indexes, points, reward, Admin, env).result.Ok?
    ensures ManualPoints(PointsOutcome(m, indexes, points, reward, Admin, env).state.db.ledger.log, q)
            == ManualPoints(m.db.ledger.log, q)
               + (if exists i :: 0 <= i < |indexes| && Shown(m, env.matches)[indexes[i]] == q
                  then (if reward then points else -points) else 0)
  {
    var shown := Shown(m, env.matches);
    var ts := Targets(shown, indexes);
    ShownUnique(m, env.matches);
    TargetsDistinct(shown, indexes);
    CountDistinct(ts, q);
    AdjustedBalances(m.db.ledger.log, ts, points, reward, q);
  }

  /** `reward`/`penalize`: admins only. Goes through the indexes in order, recording one
      ledger entry per displayed person; the first index past the displayed list aborts the
      command with the entries recorded so far kept and nothing committed. Success commits;
      the database is not marked modified, so nothing is saved. */
  method AdjustPoints(m: ModelState, indexes: seq<nat>, points: int, reward: bool,
                      role: UserType, env: CmdEnv) returns (o: Outcome)
    requires Inv(m)
    ensures Inv(o.state)
    ensures o == PointsOutcome(m, indexes, points, reward, role, env)
    ensures role == General ==> o == Outcome(Err(NoAuthority), m)
    ensures role == Admin && FirstOutOfRange(indexes, |Shown(m, env.matches)|).None? ==>
              var ts := Targets(Shown(m, env.matches), indexes);
              && o.result == Ok(CommandResult(PointsAdjusted(reward, points, ts), NoHint))
              && o.state.db == m.db.(ledger := Ledger(m.db.ledger.log + PointsEntries(ts, points, reward)))
              && o.state.filter == m.filter
              && CommittedFrom(m, o.state)
    ensures role == Admin && FirstOutOfRange(indexes, |Shown(m, env.matches)|).Some? ==>
              var k := FirstOutOfRange(indexes, |Shown(m, env.matches)|).value;
              var ts := Targets(Shown(m, env.matches), indexes[..k]);
              && o.result == Err(InvalidIndex(indexes[k] + 1))
              && o.state == m.(db := m.db.(ledger := Ledger(m.db.ledger.log + PointsEntries(ts, points, reward))))
  {
    if role == General {
      return Refused(m, NoAuthority);
    }
    var shown := Shown(m, env.matches);
    var ledger, stop := RecordPoints(shown, indexes, points, reward, m.db.ledger);
    var after := m.(db := m.db.(ledger := ledger));
    match stop {
      case Some(k) =>
        o := Outcome(Err(InvalidIndex(indexes[k] + 1)), after);
      case None =>
        o := Done(Commit(after), PointsAdjusted(reward, points, Targets(shown, indexes)), NoHint);
    }
  }

  // ----- points -----

  /** `points [INDEX]`: admins only; the points table, or the records of the displayed
      person at the index. Nothing changes. */
  function ExecPoints(m: ModelState, selected: Option<nat>, role: UserType, env: CmdEnv): (o: Outcome)
    ensures o.state == m
    ensures role == General ==> o.result == Err(NoAuthority)
    ensures role == Admin && selected.None? ==> o.result == Ok(CommandResult(PointsTable, NoHint))
    ensures role == Admin && selected.Some? ==>
              var shown := Shown(m, env.matches);
              && (selected.value >= |shown| ==> o.result == Err(InvalidPersonDisplayedIndex))
              && (selected.value < |shown| ==>
                    o.result == Ok(CommandResult(PointsDetails(shown[selected.value]), NoHint)))
  {
    if role == General then Refused(m, NoAuthority)
    else
      match selected
      case None => Done(m, PointsTable, NoHint)
      case Some(i) =>
        var shown := Shown(m, env.matches);
        if i >= |shown| then Refused(m, InvalidPersonDisplayedIndex)
        else Done(m, PointsDetails(shown[i]), NoHint)
  }

  // ----- clear -----

  /** `clear`: admins only; replaces the data by an empty database through `resetData`
      (persons emptied, calendar taken over from a fresh one, ledger kept) and commits.
      Anyone but the default admin account is logged out. */
  function ExecClear(m: ModelState, userName: string, role: UserType, env: CmdEnv): (o: Outcome)
    requires Inv(m)
    ensures Inv(o.state)
    ensures role == General ==> o == Outcome(Err(NoAuthority), m)
    ensures role == Admin ==>
              && o.result == Ok(CommandResult(Cleared, if userName == "Admin" then NoHint else ExitHint))
              && o.state.db.persons == [] && o.state.db.ledger == m.db.ledger
              && o.state.db.calendar
                 == Calendar.SetDutyCalendar(m.db.calendar, Calendar.Default(env.clock), env.clock)
              && o.state.db.modified && o.state.filter == m.filter
              && CommittedFrom(m, o.state)
  {
    if role == General then Refused(m, NoAuthority)
    else
      var db := ResetData(m.db, Empty(env.clock), env.clock);
      Done(Commit(WithDb(m, db)), Cleared, if userName == "Admin" then NoHint else ExitHint)
  }

  /** A cleared database can be brought back by undo: its persons are those of the
      snapshot the clear was committed after. */
  lemma ClearThenUndo(m: ModelState, userName: string, env: CmdEnv)
    requires Inv(m)
    ensures var c := ExecClear(m, userName, Admin, env).state;
            CanUndo(c) && AppModel.Undo(c, env.clock).db.persons == m.versions.states[m.versions.pointer].persons
  {
    var c := ExecClear(m, userName, Admin, env).state;
    var p := m.versions.pointer;
    assert c.versions.states[p] == c.versions.states[..p + 1][p];
  }

  // ----- undo and redo -----

  /** `undo`: any user; restores the previous snapshot and shows every person. */
  function ExecUndo(m: ModelState, env: CmdEnv): (o: Outcome)
    requires Inv(m)
    ensures Inv(o.state)
    ensures !CanUndo(m) ==> o == Outcome(Err(NoMoreUndo), m)
    ensures CanUndo(m) ==>
              && o.result == Ok(CommandResult(UndoDone, NoHint))
              && o.state == AppModel.Undo(m, env.clock).(filter := ShowAll)
  {
    if !CanUndo(m) then Refused(m, NoMoreUndo)
    else Done(AppModel.Undo(m, env.clock).(filter := ShowAll), UndoDone, NoHint)
  }

  /** `redo`: any user; restores the next snapshot and shows every person. */
  function ExecRedo(m: ModelState, env: CmdEnv): (o: Outcome)
    requires Inv(m)
    ensures Inv(o.state)
    ensures !CanRedo(m) ==> o == Outcome(Err(NoMoreRedo), m)
    ensures CanRedo(m) ==>
              && o.result == Ok(CommandResult(RedoDone, NoHint))
              && o.state == Redo(m, env.clock).(filter := ShowAll)
  {
    if !CanRedo(m) then Refused(m, NoMoreRedo)
    else Done(Redo(m, env.clock).(filter := ShowAll), RedoDone, NoHint)
  }

  /** An undo followed by a redo succeeds twice and comes back to the same history with the
      persons of the current snapshot. */
  lemma UndoThenRedo(m: ModelState, env: CmdEnv)
    requires Inv(m) && CanUndo(m)
    ensures ExecUndo(m, env).result.Ok?
    ensures var r := ExecRedo(ExecUndo(m, env).state, env);
            && r.result.Ok?
            && r.state.versions == m.versions
            && r.state.db.persons == m.versions.states[m.versions.pointer].persons
            && r.state.db.ledger == m.db.ledger
  {
    UndoRedoRoundTrip(m, env.clock);
  }

  /** Undo right after a committed add brings back the persons of the snapshot the add was
      committed after. */
  lemma AddThenUndo(m: ModelState, p: Person, env: CmdEnv)
    requires Inv(m) && !HasPerson(m.db, p)
    ensures var a := ExecAdd(m, p, Admin).state;
            var u := ExecUndo(a, env);
            && u.result.Ok?
            && u.state.db.persons == m.versions.states[m.versions.pointer].persons
            && u.state.db.ledger.log == m.db.ledger.log + [AddRow(p), UndoLastBatch]
  {
    var a := ExecAdd(m, p, Admin).state;
    var ptr := m.versions.pointer;
    assert a.versions.states[ptr] == a.versions.states[..ptr + 1][ptr];
  }

  // ----- view -----

  /** Goes through the duties and their persons, collecting a duty once per assignment of
      the person with NRIC `nric`. */
  method MatchDuties(duties: seq<Duty>, nric: string) returns (found: seq<Duty>)
    ensures found == Matches(duties, nric)
    ensures |found| == DutyCount(duties, nric)
    ensures forall i :: 0 <= i < |found| ==> found[i] in duties
    ensures forall i :: 0 <= i < |found| ==> AssignedCount(found[i].persons, nric) > 0
  {
    found := [];
    var i := 0;
    while i < |duties|
      invariant 0 <= i <= |duties|
      invariant found == Matches(duties[..i], nric)
    {
      var duty := duties[i];
      var ps := duty.persons;
      var j := 0;
      while j < |ps|
        invariant 0 <= j <= |ps|
        invariant found == Matches(duties[..i], nric) + Copies(duty, ps[..j], nric)
      {
        assert ps[..j + 1][..j] == ps[..j];
        if ps[j].nric == nric {
          found := found + [duty];
        }
        j := j + 1;
      }
      assert ps[..j] == ps;
      assert duties[..i + 1][..i] == duties[..i];
      i := i + 1;
    }
    assert duties[..i] == duties;
    MatchesCount(duties, nric);
    forall k | 0 <= k < |found|
      ensures found[k] in duties && AssignedCount(found[k].persons, nric) > 0
    {
      MatchesMembers(duties, nric, found[k]);
    }
  }

  /** `view NRIC` as a function: refuses an NRIC nobody has; otherwise lists every duty of
      the current and the next month once per assignment of that NRIC. Nothing changes. */
  function ViewOutcome(m: ModelState, userName: string): (o: Outcome)
    ensures o.state == m
    ensures !HasNric(m.db.persons, userName) <==> o.result == Err(NoUser)
    ensures var all := m.db.calendar.currentMonth.duties + m.db.calendar.nextMonth.duties;
            HasNric(m.db.persons, userName) && |all| == 0 ==>
              o.result == Ok(CommandResult(NoDuties(userName), NoHint))
    ensures var cur := m.db.calendar.currentMonth.duties;
            var next := m.db.calendar.nextMonth.duties;
            o.result.Ok? && |cur + next| > 0 ==>
              && o.result.value.feedback.DutiesOf?
              && o.result.value.feedback.userName == userName
              && o.result.value.hint == NoHint
              && o.result.value.feedback.duties == Matches(cur, userName) + Matches(next, userName)
              && |o.result.value.feedback.duties| == DutyCount(cur, userName) + DutyCount(next, userName)
              && (forall d :: d in o.result.value.feedback.duties <==>
                    d in cur + next && AssignedCount(d.persons, userName) > 0)
  {
    var cur := m.db.calendar.currentMonth.duties;
    var next := m.db.calendar.nextMonth.duties;
    if !HasNric(m.db.persons, userName) then Refused(m, NoUser)
    else if |cur + next| == 0 then Done(m, NoDuties(userName), NoHint)
    else
      MatchesAppend(cur, next, userName);
      MatchesCount(cur + next, userName);
      DutyCountAppend(cur, next, userName);
      assert forall d :: d in Matches(cur + next, userName) <==>
               d in cur + next && AssignedCount(d.persons, userName) > 0 by {
        forall d ensures d in Matches(cur + next, userName) <==>
                           d in cur + next && AssignedCount(d.persons, userName) > 0 {
          MatchesMembers(cur + next, userName, d);
        }
      }
      Done(m, DutiesOf(userName, Matches(cur, userName) + Matches(next, userName)), NoHint)
  }

  /** `view NRIC`: any user; the nested loops of the command compute `ViewOutcome`. */
  method ExecView(m: ModelState, userName: string) returns (o: Outcome)
    ensures o == ViewOutcome(m, userName)
  {
    if !HasNric(m.db.persons, userName) {
      return Refused(m, NoUser);
    }
    var cur := m.db.calendar.currentMonth.duties;
    var next := m.db.calendar.nextMonth.duties;
    var all := cur + next;
    if |all| == 0 {
      return Done(m, NoDuties(userName), NoHint);
    }
    var found := MatchDuties(all, userName);
    MatchesAppend(cur, next, userName);
    o := Done(m, DutiesOf(userName, found), NoHint);
  }

  // ----- view blocked dates, sort, and the commands that only steer the interface -----

  /** `viewblock`: general users only; the next month's blocked days of the person
      `findPerson` returns for the user name, absent when that person has none. */
  function ExecViewBlock(m: ModelState, userName: string, role: UserType, env: CmdEnv): (o: Outcome)
    ensures o.state == m
    ensures role == Admin ==> o.result == Err(NoAuthority)
    ensures role == General ==>
              var blocked := m.db.calendar.nextMonth.blocked;
              var who := env.findPerson(m.db.persons, userName);
              && o.result.Ok? && o.result.value.feedback.BlockedDates?
              && (o.result.value.feedback.days.Some? <==> who.Some? && who.value in blocked)
              && (o.result.value.feedback.days.Some? ==>
                    o.result.value.feedback.days.value == blocked[who.value])
  {
    if role == Admin then Refused(m, NoAuthority)
    else
      var blocked := m.db.calendar.nextMonth.blocked;
      var days := match env.findPerson(m.db.persons, userName)
                  case None => None
                  case Some(p) => if p in blocked then Some(blocked[p]) else None;
      Done(m, BlockedDates(days), NoHint)
  }

  /** `sort`: any user; orders the persons by name and shows every person. Nothing is
      committed. */
  function ExecSort(m: ModelState): (o: Outcome)
    requires Inv(m)
    ensures Inv(o.state)
    ensures o.result == Ok(CommandResult(SortedList, PeopleListHint))
    ensures SortedByName(o.state.db.persons)
    ensures multiset(o.state.db.persons) == multiset(m.db.persons)
    ensures o.state.db.calendar == m.db.calendar && o.state.db.ledger == m.db.ledger
    ensures o.state.db.modified
    ensures o.state.filter == ShowAll && o.state.versions == m.versions
  {
    var db := Sort(m.db);
    assert Valid(db) by {
      SortKeepsValid(m.db.persons, db.persons);
    }
    Done(m.(db := db, filter := ShowAll), SortedList, PeopleListHint)
  }

  lemma {:induction false} OccursOnce(ps: seq<Person>, x: Person)
    requires UniqueIds(ps)
    ensures multiset(ps)[x] <= 1
    decreases |ps|
  {
    if |ps| > 0 {
      var rest := ps[1..];
      assert ps == [ps[0]] + rest;
      assert UniqueIds(rest) by {
        forall a, b | 0 <= a < b < |rest| ensures rest[a].nric != rest[b].nric {
          assert rest[a] == ps[a + 1] && rest[b] == ps[b + 1];
        }
      }
      OccursOnce(rest, x);
      forall k | 0 <= k < |rest| ensures rest[k].nric != ps[0].nric {
        assert rest[k] == ps[k + 1];
      }
    }
  }

  lemma OccursTwice(qs: seq<Person>, i: nat, j: nat)
    requires i < j < |qs|
    ensures qs[i] == qs[j] ==> multiset(qs)[qs[i]] >= 2
  {
    assert qs == qs[..i] + [qs[i]] + qs[i + 1..j] + [qs[j]] + qs[j + 1..];
  }

  /** A permutation of a list with unique identities has unique identities. */
  lemma SortKeepsValid(ps: seq<Person>, qs: seq<Person>)
    requires UniqueIds(ps) && multiset(qs) == multiset(ps)
    ensures UniqueIds(qs)
  {
    forall i, j | 0 <= i < j < |qs| ensures qs[i].nric != qs[j].nric {
      OccursTwice(qs, i, j);
      OccursOnce(ps, qs[i]);
      assert qs[i] in multiset(ps) && qs[j] in multiset(ps);
      var a :| 0 <= a < |ps| && ps[a] == qs[i];
      var b :| 0 <= b < |ps| && ps[b] == qs[j];
      assert a != b;
    }
  }

  /** `list`: any user; shows every person. */
  function ExecList(m: ModelState): (o: Outcome)
    requires Inv(m)
    ensures Inv(o.state)
    ensures o.result == Ok(CommandResult(ListedAll, PeopleListHint))
    ensures o.state == m.(filter := ShowAll)
  {
    Done(m.(filter := ShowAll), ListedAll, PeopleListHint)
  }

  // ----- dispatch -----

  /** The outcome of a parsed command run as `executeAdmin` or `executeGeneral`, by the
      user's role. */
  function Run(c: ParserTypes.Command, role: UserType, m: ModelState, env: CmdEnv): (o: Outcome)
    requires Inv(m) && OthersKeepInv(env)
    ensures Inv(o.state)
  {
    if c.Add? then ExecAdd(m, c.person, role)
    else if c.Delete? then ExecDelete(m, c.index, c.userName, role, env)
    else if c.Reward? then PointsOutcome(m, c.indexes, c.points, true, role, env)
    else if c.Penalize? then PointsOutcome(m, c.indexes, c.points, false, role, env)
    else if c.Points? then ExecPoints(m, c.selected, role, env)
    else if c.Clear? then ExecClear(m, c.userName, role, env)
    else if c.Undo? then ExecUndo(m, env)
    else if c.Redo? then ExecRedo(m, env)
    else if c.View? then ViewOutcome(m, c.userName)
    else if c.ViewBlock? then ExecViewBlock(m, c.userName, role, env)
    else if c.Sort? then ExecSort(m)
    else if c.List? then ExecList(m)
    else if c.Help? then Done(m, HelpShown, HelpHint)
    else if c.Exit? then Done(m, Exiting, ExitHint)
    else if c.ViewCurrent? then Done(m, CurrentMonthShown, CalendarCurrentHint)
    else env.otherExecute(c, role, m)
  }

  /** Commands that only read leave the database untouched, so a run of one never causes
      a save. */
  lemma ReadOnlyNotModified(c: ParserTypes.Command, role: UserType, m: ModelState, env: CmdEnv)
    requires Inv(m) && OthersKeepInv(env)
    requires c.View? || c.Points? || c.ViewBlock? || c.Help? || c.Exit? || c.ViewCurrent? || c.List?
    ensures Run(c, role, m, env).state.db == m.db
  {
  }

  /** Which command definition `Run` applies to each modelled command. */
  lemma RunCases(c: ParserTypes.Command, role: UserType, m: ModelState, env: CmdEnv)
    requires Inv(m) && OthersKeepInv(env)
    ensures !Modelled(c) ==> Run(c, role, m, env) == env.otherExecute(c, role, m)
    ensures c.Add? ==> Run(c, role, m, env) == ExecAdd(m, c.person, role)
    ensures c.Delete? ==> Run(c, role, m, env) == ExecDelete(m, c.index, c.userName, role, env)
    ensures c.Points? ==> Run(c, role, m, env) == ExecPoints(m, c.selected, role, env)
    ensures c.Clear? ==> Run(c, role, m, env) == ExecClear(m, c.userName, role, env)
    ensures c.Undo? ==> Run(c, role, m, env) == ExecUndo(m, env)
    ensures c.Redo? ==> Run(c, role, m, env) == ExecRedo(m, env)
    ensures c.ViewBlock? ==> Run(c, role, m, env) == ExecViewBlock(m, c.userName, role, env)
    ensures c.Sort? ==> Run(c, role, m, env) == ExecSort(m)
    ensures c.List? ==> Run(c, role, m, env) == ExecList(m)
    ensures (c.View? || c.Points? || c.ViewBlock? || c.Help? || c.Exit? || c.ViewCurrent?) ==>
              Run(c, role, m, env).state == m
    ensures c.Help? ==> Run(c, role, m, env).result == Ok(CommandResult(HelpShown, HelpHint))
    ensures c.Exit? ==> Run(c, role, m, env).result == Ok(CommandResult(Exiting, ExitHint))
    ensures c.ViewCurrent? ==>
              Run(c, role, m, env).result == Ok(CommandResult(CurrentMonthShown, CalendarCurrentHint))
  {
  }

  /** Runs a parsed command; reward, penalize and view go through their loops. */
  method Execute(c: ParserTypes.Command, role: UserType, m: ModelState, env: CmdEnv) returns (o: Outcome)
    requires Inv(m) && OthersKeepInv(env)
    ensures o == Run(c, role, m, env)
    ensures Inv(o.state)
    ensures !Modelled(c) ==> o == env.otherExecute(c, role, m)
    ensures c.Add? ==> o == ExecAdd(m, c.person, role)
    ensures c.Delete? ==> o == ExecDelete(m, c.index, c.userName, role, env)
    ensures c.Reward? ==> o == PointsOutcome(m, c.indexes, c.points, true, role, env)
    ensures c.Penalize? ==> o == PointsOutcome(m, c.indexes, c.points, false, role, env)
    ensures c.Points? ==> o == ExecPoints(m, c.selected, role, env)
    ensures c.Clear? ==> o == ExecClear(m, c.userName, role, env)
    ensures c.Undo? ==> o == ExecUndo(m, env)
    ensures c.Redo? ==> o == ExecRedo(m, env)
    ensures c.View? ==> o == ViewOutcome(m, c.userName)
    ensures c.ViewBlock? ==> o == ExecViewBlock(m, c.userName, role, env)
    ensures c.Sort? ==> o == ExecSort(m)
    ensures c.List? ==> o == ExecList(m)
    ensures (c.View? || c.Points? || c.ViewBlock? || c.Help? || c.Exit? || c.ViewCurrent?) ==>
              o.state == m
    ensures c.Help? ==> o.result == Ok(CommandResult(HelpShown, HelpHint))
    ensures c.Exit? ==> o.result == Ok(CommandResult(Exiting, ExitHint))
    ensures c.ViewCurrent? ==> o.result == Ok(CommandResult(CurrentMonthShown, CalendarCurrentHint))
  {
    if c.Reward? {
      o := AdjustPoints(m, c.indexes, c.points, true, role, env);
    } else if c.Penalize? {
      o := AdjustPoints(m, c.indexes, c.points, false, role, env);
    } else if c.View? {
      o := ExecView(m, c.userName);
    } else {
      o := Run(c, role, m, env);
    }
    RunCases(c, role, m, env);
  }
}

=== FILE: common.dfy ===
/** Shared vocabulary of the duty planner model: optional values, success/failure
    results, account roles, the kinds of person field, and UI interaction hints. */
module Common {

  /** A value that may be absent; stands in for Java's nullable references. */
  datatype Option<+T> = None | Some(value: T)

  /** Success with a value, or failure with an error; stands in for a thrown checked exception. */
  datatype Result<+T, +E> = Ok(value: T) | Err(error: E) {

    predicate IsFailure() {
      Err?
    }

    function PropagateFailure<U>(): Result<U, E>
      requires Err?
    {
      Err(error)
    }

    function Extract(): T
      requires Ok?
    {
      value
    }
  }

  /** The two account roles. Where Java allows any other value (or null), the model uses `Option<UserType>`. */
  datatype UserType = Admin | General

  /** The person attributes that have their own validator in the system. */
  datatype FieldKind = NricField | CompanyField | SectionField | RankField | NameField
                     | PhoneField | PasswordField | UserTypeField | TagField

  /** The interaction a command result asks the user interface to perform. */
  datatype Hint = NoHint | ExitHint | PeopleListHint | HelpHint | CalendarCurrentHint

  /** No element of `s` occurs twice. */
  predicate Distinct<T(==)>(s: seq<T>) {
    forall i, j :: 0 <= i < j < |s| ==> s[i] != s[j]
  }

  /** The number of occurrences of `x` in `s`. */
  function Count<T(==)>(s: seq<T>, x: T): nat {
    if |s| == 0 then 0 else (if s[0] == x then 1 else 0) + Count(s[1..], x)
  }

  lemma CountAppend<T>(a: seq<T>, b: seq<T>, x: T)
    ensures Count(a + b, x) == Count(a, x) + Count(b, x)
  {
    if |a| == 0 {
      assert a + b == b;
    } else {
      assert (a + b)[1..] == a[1..] + b;
      CountAppend(a[1..], b, x);
    }
  }

  /** In a sequence without repeats an element occurs once or not at all. */
  lemma {:induction false} CountDistinct<T>(s: seq<T>, x: T)
    requires Distinct(s)
    ensures Count(s, x) == if x in s then 1 else 0
    decreases |s|
  {
    if |s| > 0 {
      var rest := s[1..];
      assert Distinct(rest) by {
        forall i, j | 0 <= i < j < |rest| ensures rest[i] != rest[j] {
          assert rest[i] == s[i + 1] && rest[j] == s[j + 1];
        }
      }
      CountDistinct(rest, x);
      assert s == [s[0]] + rest;
      if s[0] == x {
        forall k | 0 <= k < |rest| ensures rest[k] != x {
          assert rest[k] == s[k + 1];
        }
      }
    }
  }
}

=== FILE: database.dfy ===
/** The personnel database: the person list, the duty calendar and the points ledger.
    Listener notification is reduced to a `modified` flag that every notifying
    operation sets and that only the caller clears. */
module Database {
  import opened Common
  import opened Persons
  import opened PointsLedger
  import opened Roster
  import opened Calendar

  datatype Db = Db(persons: seq<Person>, calendar: DutyCalendar, ledger: Ledger, modified: bool)

  /** The invariant of the person list: no two persons share an identity. */
  predicate Valid(db: Db) {
    UniqueIds(db.persons)
  }

  /** A fresh database: no persons, a calendar built from the wall clock, an empty ledger. */
  function Empty(clock: Clock): (db: Db)
    ensures Valid(db) && !db.modified
  {
    Db([], Default(clock), EmptyLedger, false)
  }

  /** The position of the first occurrence of `x` in `s`. */
  function IndexOf<T(==)>(s: seq<T>, x: T): (i: nat)
    requires x in s
    ensures i < |s| && s[i] == x && x !in s[..i]
  {
    if s[0] == x then 0
    else
      var j := IndexOf(s[1..], x);
      assert s[..j + 1] == [s[0]] + s[1..][..j];
      j + 1
  }

  /** `setPersons`: the list is replaced wholesale; calendar and ledger stay. */
  function SetPersons(db: Db, ps: seq<Person>): (r: Db)
    requires UniqueIds(ps)
    ensures Valid(r) && r.modified
    ensures r.persons == ps && r.calendar == db.calendar && r.ledger == db.ledger
  {
    db.(persons := ps, modified := true)
  }

  /** `setDutyCalendar(other)`: the calendar takes over `other` by the wall-clock rule. */
  function SetDutyCalendar(db: Db, other: DutyCalendar, clock: Clock): (r: Db)
    ensures r.modified && r.persons == db.persons && r.ledger == db.ledger
    ensures other.currentMonthIndex == clock.monthIndex ==>
              r.calendar.currentMonth == other.currentMonth && r.calendar.nextMonth == other.nextMonth
    ensures other.currentMonthIndex != clock.monthIndex ==>
              r.calendar.currentMonth == other.nextMonth && r.calendar.currentMonthIndex == clock.monthIndex
    ensures other.currentMonthIndex == clock.monthIndex ==>
              r.calendar.currentYear == db.calendar.currentYear
              && r.calendar.currentMonthIndex == db.calendar.currentMonthIndex
    ensures other.currentMonthIndex != clock.monthIndex ==>
              r.calendar.currentYear == clock.year
              && r.calendar.nextMonth == Calendar.FreshNextMonth(clock.monthIndex, clock.year, clock)
    ensures r.calendar == Calendar.SetDutyCalendar(db.calendar, other, clock)
  {
    db.(calendar := Calendar.SetDutyCalendar(db.calendar, other, clock), modified := true)
  }

  /** `setDutyCalendar(other, needsRollover)`: without the flag the months are copied verbatim. */
  function SetDutyCalendarFlag(db: Db, other: DutyCalendar, needsRollover: bool, clock: Clock): (r: Db)
    ensures r.modified && r.persons == db.persons && r.ledger == db.ledger
    ensures !needsRollover ==>
              r.calendar.currentMonth == other.currentMonth && r.calendar.nextMonth == other.nextMonth
    ensures needsRollover ==> r == SetDutyCalendar(db, other, clock)
  {
    db.(calendar := Calendar.SetDutyCalendarFlag(db.calendar, other, needsRollover, clock), modified := true)
  }

  /** The scheduler that fills the next month lives outside this model: it is a parameter
      that may change the calendar and the ledger. */
  type Scheduler = (DutyCalendar, seq<Person>, Ledger) -> (DutyCalendar, Ledger)

  /** `scheduleDutyForNextMonth`: the scheduler's result is installed without notifying
      the listeners, so the modified flag keeps its value. */
  function ScheduleDutyForNextMonth(db: Db, ps: seq<Person>, schedule: Scheduler): (r: Db)
    ensures r.modified == db.modified && r.persons == db.persons
    ensures (r.calendar, r.ledger) == schedule(db.calendar, ps, db.ledger)
  {
    var (c, l) := schedule(db.calendar, ps, db.ledger);
    db.(calendar := c, ledger := l)
  }

  /** `resetData(newData)`: the person list of `newData` and, by the wall-clock rule,
      its calendar. The ledger is not part of the reset. */
  function ResetData(db: Db, newData: Db, clock: Clock): (r: Db)
    requires Valid(newData)
    ensures Valid(r) && r.modified
    ensures r.persons == newData.persons && r.ledger == db.ledger
    ensures r.calendar == Calendar.SetDutyCalendar(db.calendar, newData.calendar, clock)
  {
    SetDutyCalendar(SetPersons(db, newData.persons), newData.calendar, clock)
  }

  // ----- sorting by name -----

  /** Lexicographic order on names, character by character, a proper prefix first. */
  predicate NameLeq(a: string, b: string) {
    |a| == 0 || (|b| > 0 && (a[0] < b[0] || (a[0] == b[0] && NameLeq(a[1..], b[1..]))))
  }

  lemma {:induction false} NameLeqTotal(a: string, b: string)
    ensures NameLeq(a, b) || NameLeq(b, a)
    decreases |a|
  {
    if |a| > 0 && |b| > 0 && a[0] == b[0] {
      NameLeqTotal(a[1..], b[1..]);
    }
  }

  predicate SortedByName(ps: seq<Person>) {
    forall i :: 0 < i < |ps| ==> NameLeq(ps[i - 1].name, ps[i].name)
  }

  /** Inserts `p` before the first person it does not follow. */
  function InsertByName(p: Person, ps: seq<Person>): (r: seq<Person>)
    requires SortedByName(ps)
    ensures SortedByName(r)
    ensures multiset(r) == multiset(ps) + multiset{p}
    ensures r[0] == p || (|ps| > 0 && r[0] == ps[0])
  {
    if |ps| == 0 || NameLeq(p.name, ps[0].name) then [p] + ps
    else
      var t := InsertByName(p, ps[1..]);
      NameLeqTotal(p.name, ps[0].name);
      assert ps == [ps[0]] + ps[1..];
      [ps[0]] + t
  }

  function SortByName(ps: seq<Person>): (r: seq<Person>)
    ensures SortedByName(r)
    ensures multiset(r) == multiset(ps)
  {
    if |ps| == 0 then []
    else
      assert ps == [ps[0]] + ps[1..];
      InsertByName(ps[0], SortByName(ps[1..]))
  }

  /** `sort`: the person list is reordered by name; nothing is added or lost. */
  function Sort(db: Db): (r: Db)
    ensures SortedByName(r.persons) && multiset(r.persons) == multiset(db.persons)
    ensures r.calendar == db.calendar && r.ledger == db.ledger && r.modified
  {
    db.(persons := SortByName(db.persons), modified := true)
  }

  // ----- person-level operations -----

  /** `hasPerson(Person)`: some listed person has the same identity. */
  predicate HasPerson(db: Db, p: Person) {
    ContainsIdentity(db.persons, p)
  }

  /** `hasPerson(String)`: scans the whole list, raising a flag on every NRIC match. */
  method HasPersonNric(db: Db, nric: string) returns (found: bool)
    ensures found <==> HasNric(db.persons, nric)
  {
    found := false;
    var i := 0;
    while i < |db.persons|
      invariant 0 <= i <= |db.persons|
      invariant found <==> exists k :: 0 <= k < i && db.persons[k].nric == nric
    {
      if db.persons[i].nric == nric {
        found := true;
      }
      i := i + 1;
    }
  }

  /** `addPerson`: appends the person, tells the ledger, notifies. */
  function AddPerson(db: Db, p: Person): (r: Db)
    requires !HasPerson(db, p)
    ensures r.persons == db.persons + [p] && HasPerson(r, p)
    ensures r.ledger == PointsLedger.AddPerson(db.ledger, p) && HasRow(r.ledger.log, p)
    ensures r.calendar == db.calendar && r.modified
  {
    assert (db.persons + [p])[|db.persons|] == p;
    db.(persons := db.persons + [p], ledger := PointsLedger.AddPerson(db.ledger, p), modified := true)
  }

  /** `setPerson(target, edited)`: the first occurrence of `target` becomes `edited`. */
  function SetPerson(db: Db, target: Person, edited: Person): (r: Db)
    requires target in db.persons
    requires SamePerson(target, edited) || !ContainsIdentity(db.persons, edited)
    ensures |r.persons| == |db.persons|
    ensures forall i :: 0 <= i < |db.persons| && db.persons[i] == target && target !in db.persons[..i] ==>
              r.persons == db.persons[i := edited]
    ensures r.calendar == db.calendar && r.ledger == db.ledger && r.modified
  {
    var i := IndexOf(db.persons, target);
    FirstOccurrence(db.persons, target, i);
    db.(persons := db.persons[i := edited], modified := true)
  }

  /** A position holding `x` with no `x` before it is the only such position. */
  lemma FirstOccurrence<T>(s: seq<T>, x: T, i: nat)
    requires i < |s| && s[i] == x && x !in s[..i]
    ensures forall j :: 0 <= j < |s| && s[j] == x && x !in s[..j] ==> j == i
  {
    forall j | 0 <= j < i ensures s[j] != x {
      assert s[..i][j] == s[j];
    }
    forall j | i < j <= |s| ensures x in s[..j] {
      assert s[..j][i] == x;
    }
  }

  lemma CutMultiset<T>(s: seq<T>, i: nat)
    requires i < |s|
    ensures multiset(s[..i] + s[i + 1..]) == multiset(s) - multiset{s[i]}
  {
    assert s == s[..i] + [s[i]] + s[i + 1..];
  }

  /** `removePerson(key)`: the first occurrence of `key` leaves the list; the calendar and
      the ledger are not told. */
  function RemovePerson(db: Db, key: Person): (r: Db)
    requires key in db.persons
    ensures multiset(r.persons) == multiset(db.persons) - multiset{key}
    ensures forall i :: 0 <= i < |db.persons| && db.persons[i] == key && key !in db.persons[..i] ==>
              r.persons == db.persons[..i] + db.persons[i + 1..]
    ensures r.calendar == db.calendar && r.ledger == db.ledger && r.modified
  {
    var i := IndexOf(db.persons, key);
    FirstOccurrence(db.persons, key, i);
    CutMultiset(db.persons, i);
    db.(persons := db.persons[..i] + db.persons[i + 1..], modified := true)
  }

  /** `equals`: two databases are equal when their person lists are. */
  predicate Equals(a: Db, b: Db) {
    a.persons == b.persons
  }

  // ----- lemmas -----

  /** Adding a person keeps identities unique. */
  lemma AddPersonKeepsValid(db: Db, p: Person)
    requires Valid(db) && !HasPerson(db, p)
    ensures Valid(AddPerson(db, p))
  {
    UniqueIdsAppend(db.persons, p);
  }

  /** Replacing a person keeps identities unique. */
  lemma SetPersonKeepsValid(db: Db, target: Person, edited: Person)
    requires Valid(db) && target in db.persons
    requires SamePerson(target, edited) || !ContainsIdentity(db.persons, edited)
    ensures Valid(SetPerson(db, target, edited))
  {
    var i := IndexOf(db.persons, target);
    var r := SetPerson(db, target, edited).persons;
    assert r == db.persons[i := edited];
    forall a, b | 0 <= a < b < |r| ensures r[a].nric != r[b].nric {
      if a == i {
        assert !SamePerson(db.persons[b], edited) by {
          if SamePerson(target, edited) {
            assert db.persons[i].nric != db.persons[b].nric;
          } else {
            assert !SamePerson(db.persons[b], edited);
          }
        }
      } else if b == i {
        assert !SamePerson(db.persons[a], edited) by {
          if SamePerson(target, edited) {
            assert db.persons[a].nric != db.persons[i].nric;
          } else {
            assert !SamePerson(db.persons[a], edited);
          }
        }
      }
    }
  }

  /** Element `a` of `s` with position `i` cut out. */
  lemma CutAt<T>(s: seq<T>, i: nat, a: nat)
    requires i < |s| && a < |s| - 1
    ensures (s[..i] + s[i + 1..])[a] == s[if a < i then a else a + 1]
  {
  }

  /** Removing a person keeps identities unique. */
  lemma RemovePersonKeepsValid(db: Db, key: Person)
    requires Valid(db) && key in db.persons
    ensures Valid(RemovePerson(db, key))
  {
    var i := IndexOf(db.persons, key);
    var s := db.persons;
    var r := s[..i] + s[i + 1..];
    assert RemovePerson(db, key).persons == r;
    forall a, b | 0 <= a < b < |r| ensures r[a].nric != r[b].nric {
      CutAt(s, i, a);
      CutAt(s, i, b);
    }
  }

  /** Removing a just-added person restores the person list, but the ledger keeps the row:
      `removePerson` does not tell the ledger. */
  lemma RemoveUndoesAdd(db: Db, p: Person)
    requires !HasPerson(db, p)
    ensures RemovePerson(AddPerson(db, p), p).persons == db.persons
    ensures HasRow(RemovePerson(AddPerson(db, p), p).ledger.log, p)
  {
    var s := AddPerson(db, p).persons;
    var n := |db.persons|;
    forall k | 0 <= k < n ensures db.persons[k] != p {
      assert !SamePerson(db.persons[k], p);
    }
    assert s[n] == p && s[..n] == db.persons;
    assert s[n + 1..] == [];
  }

  /** Equality looks at the person list only: calendar, ledger and flag are ignored. */
  lemma EqualsIgnoresCalendar(a: Db, c: DutyCalendar, l: Ledger, m: bool)
    ensures Equals(a, a.(calendar := c, ledger := l, modified := m))
    ensures a.calendar != c ==> a != a.(calendar := c, ledger := l, modified := m)
  {
  }

  /** Checking by NRIC string agrees with checking by identity. */
  lemma HasNricIsHasPerson(db: Db, p: Person)
    ensures HasNric(db.persons, p.nric) <==> HasPerson(db, p)
  {
    if HasPerson(db, p) {
      var k :| 0 <= k < |db.persons| && SamePerson(db.persons[k], p);
      assert db.persons[k].nric == p.nric;
    }
  }
}

=== FILE: javatext.dfy ===
/** The Java string operations the parsers rely on, written out exactly:
    `String.trim`, the regex classes `\s` and `.`, `String.split` on a single
    char and on `\s+`, and `Integer.parseInt` in radix 10. */
module JavaText {
  import opened Common

  /** `String.trim()` strips every leading and trailing char whose code is at most U+0020. */
  predicate IsTrimmable(c: char) {
    c <= ' '
  }

  /** The regex class `\s` without the UNICODE_CHARACTER_CLASS flag. */
  predicate IsSpace(c: char) {
    c == ' ' || c == '\t' || c == '\n' || c == '\U{B}' || c == '\U{C}' || c == '\r'
  }

  /** The chars that `.` refuses to match when DOTALL is off. */
  predicate IsLineTerminator(c: char) {
    c == '\n' || c == '\r' || c == '\U{85}' || c == '\U{2028}' || c == '\U{2029}'
  }

  predicate IsDigit(c: char) {
    '0' <= c <= '9'
  }

  lemma SpaceIsTrimmable(c: char)
    ensures IsSpace(c) ==> IsTrimmable(c)
  {
  }

  predicate AllTrimmable(s: string) {
    forall k :: 0 <= k < |s| ==> IsTrimmable(s[k])
  }

  predicate NonEmpty(s: string) {
    |s| > 0
  }

  predicate NoSpace(s: string) {
    forall k :: 0 <= k < |s| ==> !IsSpace(s[k])
  }

  // ---------------------------------------------------------------- trim

  function TrimStart(s: string): (r: string)
    ensures |r| <= |s| && r == s[|s| - |r|..]
    ensures AllTrimmable(s[..|s| - |r|])
    ensures |r| == 0 || !IsTrimmable(r[0])
    ensures |r| == 0 <==> AllTrimmable(s)
  {
    if |s| == 0 || !IsTrimmable(s[0]) then s else TrimStart(s[1..])
  }

  function TrimEnd(s: string): (r: string)
    ensures |r| <= |s| && r == s[..|r|]
    ensures AllTrimmable(s[|r|..])
    ensures |r| == 0 || !IsTrimmable(r[|r| - 1])
    ensures |s| > 0 && !IsTrimmable(s[0]) ==> |r| > 0
  {
    if |s| == 0 || !IsTrimmable(s[|s| - 1]) then s else TrimEnd(s[..|s| - 1])
  }

  /** `String.trim()`: the slice of `s` left after dropping trimmable chars at both ends. */
  function Trim(s: string): (r: string)
    ensures |r| <= |s|
    ensures |r| > 0 ==> !IsTrimmable(r[0]) && !IsTrimmable(r[|r| - 1])
    ensures |r| == 0 <==> AllTrimmable(s)
  {
    TrimEnd(TrimStart(s))
  }

  /** A string whose two ends are not trimmable is its own trim. */
  lemma TrimOfTrimmed(s: string)
    requires |s| > 0 && !IsTrimmable(s[0]) && !IsTrimmable(s[|s| - 1])
    ensures Trim(s) == s
  {
  }

  lemma {:induction false} TrimIdempotent(s: string)
    ensures Trim(Trim(s)) == Trim(s)
  {
    var r := Trim(s);
    if |r| > 0 {
      TrimOfTrimmed(r);
    }
  }

  // ---------------------------------------------------------------- split on one char

  /** Concatenation of `parts` with `sep` between consecutive parts. */
  function Join(parts: seq<string>, sep: char): string {
    if |parts| == 0 then ""
    else if |parts| == 1 then parts[0]
    else parts[0] + [sep] + Join(parts[1..], sep)
  }

  /** Every piece of `s` between occurrences of `sep`, empty pieces included. */
  function SplitAll(s: string, sep: char): (r: seq<string>)
    ensures |r| >= 1
    ensures forall i :: 0 <= i < |r| ==> sep !in r[i]
  {
    if |s| == 0 then [""]
    else
      var rest := SplitAll(s[1..], sep);
      if s[0] == sep then [""] + rest
      else [[s[0]] + rest[0]] + rest[1..]
  }

  lemma {:induction false} JoinSplitAll(s: string, sep: char)
    ensures Join(SplitAll(s, sep), sep) == s
  {
    if |s| > 0 {
      var rest := SplitAll(s[1..], sep);
      JoinSplitAll(s[1..], sep);
      if s[0] == sep {
        assert ([""] + rest)[1..] == rest;
      } else {
        var r := [[s[0]] + rest[0]] + rest[1..];
        if |rest| == 1 {
          assert r == [[s[0]] + rest[0]];
        } else {
          assert r[1..] == rest[1..];
          assert Join(rest, sep) == rest[0] + [sep] + Join(rest[1..], sep);
        }
      }
    }
  }

  lemma {:induction false} SplitAllJoin(parts: seq<string>, sep: char)
    requires |parts| >= 1
    requires forall i :: 0 <= i < |parts| ==> sep !in parts[i]
    ensures SplitAll(Join(parts, sep), sep) == parts
    decreases |parts|, |parts[0]|
  {
    var head := parts[0];
    if |head| == 0 {
      if |parts| > 1 {
        assert Join(parts, sep) == [sep] + Join(parts[1..], sep);
        assert ([sep] + Join(parts[1..], sep))[1..] == Join(parts[1..], sep);
        SplitAllJoin(parts[1..], sep);
        assert [""] + parts[1..] == parts;
      }
    } else {
      var shorter := [head[1..]] + parts[1..];
      assert shorter[1..] == parts[1..];
      assert forall i :: 0 <= i < |shorter| ==> sep !in shorter[i] by {
        forall i | 0 <= i < |shorter| ensures sep !in shorter[i] {
          if i == 0 {
            assert forall c :: c in head[1..] ==> c in head;
          }
        }
      }
      SplitAllJoin(shorter, sep);
      var s := Join(parts, sep);
      assert s == [head[0]] + Join(shorter, sep) by {
        if |parts| == 1 {
          assert head == [head[0]] + head[1..];
        } else {
          assert head == [head[0]] + head[1..];
          assert s == head + [sep] + Join(parts[1..], sep);
          assert Join(shorter, sep) == head[1..] + [sep] + Join(parts[1..], sep);
        }
      }
      assert s[1..] == Join(shorter, sep);
      assert head[0] != sep by { assert head[0] in head; }
      assert [[head[0]] + head[1..]] + parts[1..] == parts by {
        assert [head[0]] + head[1..] == head;
      }
    }
  }

  /** Drops empty strings from the end of `parts`, as `String.split` does. */
  function DropTrailingEmpty(parts: seq<string>): (r: seq<string>)
    ensures |r| <= |parts| && r == parts[..|r|]
    ensures r == [] || r[|r| - 1] != ""
    ensures forall i :: |r| <= i < |parts| ==> parts[i] == ""
  {
    if |parts| == 0 || parts[|parts| - 1] != "" then parts
    else DropTrailingEmpty(parts[..|parts| - 1])
  }

  /** `s.split(String.valueOf(sep))`: no occurrence gives `[s]`; otherwise the pieces
      with trailing empty pieces removed. */
  function JavaSplit(s: string, sep: char): seq<string> {
    if sep !in s then [s] else DropTrailingEmpty(SplitAll(s, sep))
  }

  /** Splitting a join of separator-free parts whose last part is non-empty gives the parts back. */
  lemma JavaSplitJoin(parts: seq<string>, sep: char)
    requires |parts| >= 1 && parts[|parts| - 1] != ""
    requires forall i :: 0 <= i < |parts| ==> sep !in parts[i]
    ensures JavaSplit(Join(parts, sep), sep) == parts
  {
    SplitAllJoin(parts, sep);
    var s := Join(parts, sep);
    if |parts| > 1 {
      assert s == parts[0] + [sep] + Join(parts[1..], sep);
      assert s[|parts[0]|] == sep;
    }
  }

  // ---------------------------------------------------------------- split on \s+

  /** The longest prefix of `s` without a `\s` char. */
  function Word(s: string): (w: string)
    ensures |w| <= |s| && w == s[..|w|] && NoSpace(w)
    ensures |w| == |s| || IsSpace(s[|w|])
  {
    if |s| == 0 || IsSpace(s[0]) then "" else [s[0]] + Word(s[1..])
  }

  /** `s` with its leading run of `\s` chars removed. */
  function DropSpaces(s: string): (r: string)
    ensures |r| <= |s| && r == s[|s| - |r|..]
    ensures r == "" || !IsSpace(r[0])
    ensures s != "" && IsSpace(s[0]) ==> |r| < |s|
  {
    if |s| == 0 || !IsSpace(s[0]) then s else DropSpaces(s[1..])
  }

  /** The pieces of `s` between maximal runs of `\s` chars, leading and trailing empty pieces included. */
  function SplitRuns(s: string): (r: seq<string>)
    ensures |r| >= 1 && r[0] == Word(s)
    decreases |s|
  {
    var w := Word(s);
    var rest := s[|w|..];
    if rest == "" then [w] else [w] + SplitRuns(DropSpaces(rest))
  }

  /** `s.split("\\s+")`: no match gives `[s]`; otherwise the pieces with trailing empty pieces removed. */
  function JavaSplitSpaces(s: string): seq<string> {
    if NoSpace(s) then [s] else DropTrailingEmpty(SplitRuns(s))
  }

  /** `s` with every maximal run of `\s` chars replaced by one space. */
  function Collapse(s: string): (r: string)
    decreases |s|
  {
    if |s| == 0 then ""
    else if IsSpace(s[0]) then [' '] + Collapse(DropSpaces(s))
    else [s[0]] + Collapse(s[1..])
  }

  lemma {:induction false} CollapseWord(w: string, rest: string)
    requires NoSpace(w)
    ensures Collapse(w + rest) == w + Collapse(rest)
    decreases |w|
  {
    if |w| > 0 {
      assert (w + rest)[1..] == w[1..] + rest;
      CollapseWord(w[1..], rest);
      assert w == [w[0]] + w[1..];
    } else {
      assert w + rest == rest;
    }
  }

  lemma JoinCons(w: string, tail: seq<string>, sep: char)
    requires |tail| >= 1
    ensures Join([w] + tail, sep) == w + [sep] + Join(tail, sep)
  {
    assert ([w] + tail)[1..] == tail;
  }

  lemma ConcatAssoc<T>(a: seq<T>, b: seq<T>, c: seq<T>)
    ensures a + b + c == a + (b + c)
  {
  }

  lemma CollapseStep(s: string)
    requires s != "" && IsSpace(s[0])
    ensures Collapse(s) == [' '] + Collapse(DropSpaces(s))
  {
  }

  /** Joining the `\s+` pieces with single spaces is the whitespace-collapsed string. */
  lemma {:induction false} JoinSplitRuns(s: string)
    ensures Join(SplitRuns(s), ' ') == Collapse(s)
    decreases |s|
  {
    var w := Word(s);
    var rest := s[|w|..];
    assert s == w + rest;
    CollapseWord(w, rest);
    if rest != "" {
      var d := DropSpaces(rest);
      var tail := SplitRuns(d);
      JoinSplitRuns(d);
      JoinCons(w, tail, ' ');
      CollapseStep(rest);
      calc {
        Join(SplitRuns(s), ' ');
        Join([w] + tail, ' ');
        w + [' '] + Join(tail, ' ');
        w + [' '] + Collapse(d);
        { ConcatAssoc(w, [' '], Collapse(d)); }
        w + ([' '] + Collapse(d));
        w + Collapse(rest);
      }
    }
  }

  lemma SplitRunsStep(s: string)
    requires s[|Word(s)|..] != ""
    ensures SplitRuns(s) == [Word(s)] + SplitRuns(DropSpaces(s[|Word(s)|..]))
  {
  }

  lemma ConsAll<T>(x: T, t: seq<T>, r: seq<T>, p: T -> bool)
    requires r == [x] + t && p(x)
    requires forall i :: 0 <= i < |t| ==> p(t[i])
    ensures forall i :: 0 <= i < |r| ==> p(r[i])
  {
    forall i | 0 <= i < |r| ensures p(r[i]) {
      if i > 0 {
        assert r[i] == t[i - 1];
      }
    }
  }

  /** No piece of the `\s+` split contains a `\s` char. */
  lemma {:induction false} SplitRunsNoSpace(s: string)
    ensures forall i :: 0 <= i < |SplitRuns(s)| ==> NoSpace(SplitRuns(s)[i])
    decreases |s|
  {
    var w := Word(s);
    var rest := s[|w|..];
    if rest != "" {
      SplitRunsNoSpace(DropSpaces(rest));
      SplitRunsStep(s);
      ConsAll(w, SplitRuns(DropSpaces(rest)), SplitRuns(s), NoSpace);
    }
  }

  /** On a string that neither starts nor ends with a `\s` char, every piece is non-empty. */
  lemma {:induction false} SplitRunsNonEmpty(s: string)
    requires s != "" && !IsSpace(s[0]) && !IsSpace(s[|s| - 1])
    ensures forall i :: 0 <= i < |SplitRuns(s)| ==> NonEmpty(SplitRuns(s)[i])
    decreases |s|
  {
    var rest := s[|Word(s)|..];
    WordNonEmpty(s);
    if rest != "" {
      var d := DropSpaces(rest);
      RestKeepsEnds(s);
      SplitRunsNonEmpty(d);
      SplitRunsStep(s);
      ConsAll(Word(s), SplitRuns(d), SplitRuns(s), NonEmpty);
    }
  }

  lemma WordNonEmpty(s: string)
    requires s != "" && !IsSpace(s[0])
    ensures Word(s) != ""
  {
  }

  /** What follows the first word, with its leading spaces dropped, is shorter and still
      neither starts nor ends with a `\s` char. */
  lemma RestKeepsEnds(s: string)
    requires s != "" && !IsSpace(s[|s| - 1])
    requires s[|Word(s)|..] != ""
    ensures var d := DropSpaces(s[|Word(s)|..]);
            d != "" && !IsSpace(d[0]) && !IsSpace(d[|d| - 1]) && |d| < |s|
  {
    var rest := s[|Word(s)|..];
    assert rest[|rest| - 1] == s[|s| - 1];
    DropSpacesKeepsLast(rest);
  }

  lemma {:induction false} DropSpacesKeepsLast(s: string)
    requires s != "" && !IsSpace(s[|s| - 1])
    ensures DropSpaces(s) != "" && DropSpaces(s)[|DropSpaces(s)| - 1] == s[|s| - 1]
    decreases |s|
  {
    if IsSpace(s[0]) {
      DropSpacesKeepsLast(s[1..]);
    }
  }

  lemma {:induction false} WordOfNoSpace(s: string)
    requires NoSpace(s)
    ensures Word(s) == s
    decreases |s|
  {
    if |s| > 0 {
      assert NoSpace(s[1..]) by {
        forall k | 0 <= k < |s[1..]| ensures !IsSpace(s[1..][k]) {
          assert s[1..][k] == s[k + 1];
        }
      }
      WordOfNoSpace(s[1..]);
    }
  }

  /** On a string that neither starts nor ends with `\s`, the `\s+` split yields the
      non-empty space-free words, and they re-join to the collapsed string. */
  lemma SplitSpacesOfTrimmed(s: string)
    requires s != "" && !IsSpace(s[0]) && !IsSpace(s[|s| - 1])
    ensures JavaSplitSpaces(s) == SplitRuns(s)
    ensures forall i :: 0 <= i < |SplitRuns(s)| ==> NonEmpty(SplitRuns(s)[i]) && NoSpace(SplitRuns(s)[i])
    ensures Join(JavaSplitSpaces(s), ' ') == Collapse(s)
  {
    JoinSplitRuns(s);
    SplitRunsNonEmpty(s);
    SplitRunsNoSpace(s);
    if NoSpace(s) {
      WordOfNoSpace(s);
      assert s[|Word(s)|..] == "";
    }
  }

  // ---------------------------------------------------------------- Integer.parseInt

  const IntMin: int := -0x8000_0000
  const IntMax: int := 0x7fff_ffff

  predicate AllDigits(s: string) {
    forall k :: 0 <= k < |s| ==> IsDigit(s[k])
  }

  /** The value of a string of decimal digits, most significant first. */
  function DigitsValue(s: string): (v: nat)
    requires AllDigits(s)
  {
    if |s| == 0 then 0
    else DigitsValue(s[..|s| - 1]) * 10 + (s[|s| - 1] as int - '0' as int)
  }

  /** `Integer.parseInt(s)` restricted to ASCII digits: an optional sign, at least one digit,
      and a value inside the 32-bit range; anything else is a NumberFormatException (`None`). */
  function ParseJavaInt(s: string): (r: Option<int>)
    ensures r.Some? ==> IntMin <= r.value <= IntMax
    ensures r.Some? ==> |s| > 0
  {
    if |s| == 0 then None
    else
      var negative := s[0] == '-';
      var digits := if s[0] == '-' || s[0] == '+' then s[1..] else s;
      if |digits| == 0 || !AllDigits(digits) then None
      else
        var v: int := if negative then -(DigitsValue(digits) as int) else DigitsValue(digits);
        if IntMin <= v <= IntMax then Some(v) else None
  }

  /** The decimal rendering `Integer.toString(n)` of a non-negative number. */
  function ShowNat(n: nat): (s: string)
    ensures |s| >= 1 && AllDigits(s) && s[0] != '-' && s[0] != '+'
    ensures DigitsValue(s) == n
  {
    var d := ['0' + (n % 10) as char];
    if n < 10 then d
    else
      var p := ShowNat(n / 10);
      var s := p + d;
      assert s[..|s| - 1] == p;
      s
  }

  /** Rendering then parsing a 32-bit non-negative number gives it back. */
  lemma ParseShowNat(n: nat)
    requires n <= IntMax
    ensures ParseJavaInt(ShowNat(n)) == Some(n)
  {
  }
}

=== FILE: ledger.dfy ===
/** The points ledger, seen only through the calls the modelled code makes on it.
    Its rows, history and scheduling-batch undo live in code outside this model, so the
    ledger is an append-only log of those calls; the only arithmetic assumed is that a
    reward adds its points and a penalty deducts them. */
module PointsLedger {
  import opened Persons

  datatype Entry =
    | AddRow(person: Person)
    | RemoveRow(person: Person)
    | Rewarded(person: Person, points: int)
    | Penalized(person: Person, points: int)
    | UndoLastBatch

  datatype Ledger = Ledger(log: seq<Entry>)

  const EmptyLedger := Ledger([])

  function AddPerson(l: Ledger, p: Person): Ledger {
    Ledger(l.log + [AddRow(p)])
  }

  function RemovePerson(l: Ledger, p: Person): Ledger {
    Ledger(l.log + [RemoveRow(p)])
  }

  function Reward(l: Ledger, p: Person, points: int): Ledger {
    Ledger(l.log + [Rewarded(p, points)])
  }

  function Penalize(l: Ledger, p: Person, points: int): Ledger {
    Ledger(l.log + [Penalized(p, points)])
  }

  function Undo(l: Ledger): Ledger {
    Ledger(l.log + [UndoLastBatch])
  }

  /** What one entry adds to the manual (reward/penalty) balance of `p`. */
  function Delta(e: Entry, p: Person): int {
    match e
    case Rewarded(q, k) => if q == p then k else 0
    case Penalized(q, k) => if q == p then -k else 0
    case _ => 0
  }

  /** The net of all rewards and penalties recorded for `p`. */
  function ManualPoints(log: seq<Entry>, p: Person): int {
    if |log| == 0 then 0 else ManualPoints(log[..|log| - 1], p) + Delta(log[|log| - 1], p)
  }

  /** Whether the ledger holds a row for `p`: the latest row call about `p` decides. */
  function HasRow(log: seq<Entry>, p: Person): bool {
    if |log| == 0 then false
    else
      match log[|log| - 1]
      case AddRow(q) => if q == p then true else HasRow(log[..|log| - 1], p)
      case RemoveRow(q) => if q == p then false else HasRow(log[..|log| - 1], p)
      case _ => HasRow(log[..|log| - 1], p)
  }

  lemma {:induction false} ManualPointsAppend(a: seq<Entry>, b: seq<Entry>, p: Person)
    ensures ManualPoints(a + b, p) == ManualPoints(a, p) + ManualPoints(b, p)
    decreases |b|
  {
    if |b| == 0 {
      assert a + b == a;
    } else {
      var b' := b[..|b| - 1];
      assert (a + b)[..|a + b| - 1] == a + b';
      assert (a + b)[|a + b| - 1] == b[|b| - 1];
      ManualPointsAppend(a, b', p);
    }
  }

  /** A reward adds its points to the rewarded person's balance and to nobody else's. */
  lemma RewardAdds(l: Ledger, p: Person, points: int, q: Person)
    ensures ManualPoints(Reward(l, p, points).log, q)
            == ManualPoints(l.log, q) + (if q == p then points else 0)
  {
    assert Reward(l, p, points).log[..|l.log|] == l.log;
  }

  /** A penalty deducts its points from the penalized person's balance and from nobody else's. */
  lemma PenalizeDeducts(l: Ledger, p: Person, points: int, q: Person)
    ensures ManualPoints(Penalize(l, p, points).log, q)
            == ManualPoints(l.log, q) - (if q == p then points else 0)
  {
    assert Penalize(l, p, points).log[..|l.log|] == l.log;
  }

  /** Rewarding and then penalizing the same amount leaves every balance as it was
      and appends exactly two entries. */
  lemma RewardThenPenalize(l: Ledger, p: Person, points: int)
    ensures forall q :: ManualPoints(Penalize(Reward(l, p, points), p, points).log, q)
                        == ManualPoints(l.log, q)
    ensures |Penalize(Reward(l, p, points), p, points).log| == |l.log| + 2
  {
    forall q ensures ManualPoints(Penalize(Reward(l, p, points), p, points).log, q)
                     == ManualPoints(l.log, q) {
      RewardAdds(l, p, points, q);
      PenalizeDeducts(Reward(l, p, points), p, points, q);
    }
  }

  /** Adding a row makes the person present; removing it makes the person absent;
      neither touches any balance. */
  lemma RowCalls(l: Ledger, p: Person, q: Person)
    ensures HasRow(AddPerson(l, p).log, p) && !HasRow(RemovePerson(l, p).log, p)
    ensures ManualPoints(AddPerson(l, p).log, q) == ManualPoints(l.log, q)
    ensures ManualPoints(RemovePerson(l, p).log, q) == ManualPoints(l.log, q)
    ensures ManualPoints(Undo(l).log, q) == ManualPoints(l.log, q)
  {
    assert AddPerson(l, p).log[..|l.log|] == l.log;
    assert RemovePerson(l, p).log[..|l.log|] == l.log;
    assert Undo(l).log[..|l.log|] == l.log;
  }
}

=== FILE: logic.dfy ===
/** The logic manager: runs one line of user input for a logged-in user. It parses the
    line for the user's role, runs the command, records the line in the history whatever
    happens, and saves the database when the command modified it. The storage write is a
    parameter: whether it succeeds. */
module Logic {
  import opened Common
  import opened Database
  import opened AppModel
  import opened Commands
  import ParserTypes
  import CommandParser

  datatype LogicError =
    | ParseFailed(parseError: ParserTypes.ParseError)
    | CommandFailed(commandError: CmdError)
    | FileOpsError                                  // the save raised an I/O error

  /** The model and the command history. */
  datatype Session = Session(model: ModelState, history: seq<string>)

  /** The model with the modification flag lowered, as at the start of every execution. */
  function Unflagged(m: ModelState): (r: ModelState)
    requires Inv(m)
    ensures Inv(r) && !r.db.modified
    ensures r.db.persons == m.db.persons && r.db.calendar == m.db.calendar
    ensures r.db.ledger == m.db.ledger && r.filter == m.filter && r.versions == m.versions
  {
    m.(db := m.db.(modified := false))
  }

  /** `execute(commandText, user, userName)`. `written` is the database handed to storage,
      if any; `saveSucceeds` says whether that write succeeded. */
  method Execute(s: Session, commandText: string, user: Option<UserType>, userName: string,
                 penv: ParserTypes.ParseEnv, cenv: CmdEnv, saveSucceeds: bool)
    returns (r: Result<CommandResult, LogicError>, s': Session, written: Option<Db>)
    requires Inv(s.model) && OthersKeepInv(cenv)
    ensures Inv(s'.model)
    ensures s'.history == s.history + [commandText]
    ensures user.None? ==>
              r == Err(CommandFailed(NoUser)) && s'.model == Unflagged(s.model) && written.None?
    ensures user.Some? &&
            CommandParser.ParseCommand(commandText, user, userName, penv).Err? ==>
              && r == Err(ParseFailed(CommandParser.ParseCommand(commandText, user, userName, penv).error))
              && s'.model == Unflagged(s.model) && written.None?
    ensures user.Some? && CommandParser.ParseCommand(commandText, user, userName, penv).Ok? ==>
              var o := Commands.Run(CommandParser.ParseCommand(commandText, user, userName, penv).value,
                                    user.value, Unflagged(s.model), cenv);
              && s'.model == o.state
              && (o.result.Err? ==> r == Err(CommandFailed(o.result.error)))
              && (o.result.Ok? && o.state.db.modified && !saveSucceeds ==> r == Err(FileOpsError))
              && (o.result.Ok? && (!o.state.db.modified || saveSucceeds) ==> r == Ok(o.result.value))
    ensures r.Err? && r.error.CommandFailed? ==> written.None?
    ensures written.Some? <==> (r.Ok? || r == Err(FileOpsError)) && s'.model.db.modified
    ensures written.Some? ==> written.value == s'.model.db
    ensures r == Err(FileOpsError) <==> written.Some? && !saveSucceeds
    ensures r.Ok? ==> user.Some? && CommandParser.ParseCommand(commandText, user, userName, penv).Ok?
  {
    var m := Unflagged(s.model);
    s' := Session(m, s.history + [commandText]);
    written := None;
    if user.None? {
      r := Err(CommandFailed(NoUser));
      return;
    }
    var parsed := CommandParser.ParseCommand(commandText, user, userName, penv);
    if parsed.Err? {
      r := Err(ParseFailed(parsed.error));
      return;
    }
    var o := Commands.Execute(parsed.value, user.value, m, cenv);
    s' := s'.(model := o.state);
    if o.result.Err? {
      r := Err(CommandFailed(o.result.error));
      return;
    }
    r := Ok(o.result.value);
    if o.state.db.modified {
      written := Some(o.state.db);
      if !saveSucceeds {
        r := Err(FileOpsError);
      }
    }
  }
}

=== FILE: parser_types.dfy ===
/** The vocabulary shared by the parsers: parse errors, the commands they build, the
    edit descriptor, argument prefixes, and the collaborators the parsers call
    (the parser utilities, the prefix tokenizer, the parsers of other commands),
    which are parameters of the model. */
module ParserTypes {
  import opened Common
  import opened Persons

  /** The usage text an invalid-format error quotes. */
  datatype Usage =
    | HelpUsage | AddUsage | BlockDateUsage | DeleteUsage | EditGeneralUsage | EditAdminUsage
    | FindUsage | PointsUsage | SelectUsage | AcceptSwapUsage | ApproveSwapUsage | RejectSwapUsage

  /** A `ParseException`, or the unchecked `NumberFormatException` of `Integer.parseInt`. */
  datatype ParseError =
    | InvalidFormat(usage: Usage, cause: Option<ParseError>)  // invalid command format, with the usage
    | UnknownCommand
    | NoAuthorityParse
    | NotEdited
    | InvalidDate
    | NumberFormat(token: string)                             // unchecked: not a ParseException
    | UtilError(message: string)                              // raised by a parser utility

  /** The argument prefixes the tokenizer recognises. */
  datatype Prefix = NricPrefix | CompanyPrefix | SectionPrefix | RankPrefix | NamePrefix
                  | PhonePrefix | TagPrefix | PasswordPrefix | UserTypePrefix

  /** The tokenizer's result: the (trimmed) preamble and all values of each prefix, in the
      order they occur. */
  datatype ArgMultimap = ArgMultimap(preamble: string, allValues: map<Prefix, seq<string>>)
  {
    /** `getAllValues`: every value of `p`, none when it does not occur. */
    function GetAll(p: Prefix): seq<string> {
      if p in allValues then allValues[p] else []
    }

    /** `getValue`: the last value of `p`, if it occurs. */
    function GetValue(p: Prefix): (r: Option<string>)
      ensures r.Some? <==> |GetAll(p)| > 0
      ensures r.Some? ==> r.value == GetAll(p)[|GetAll(p)| - 1]
    {
      var vs := GetAll(p);
      if |vs| == 0 then None else Some(vs[|vs| - 1])
    }
  }

  /** The fields an edit may change; `None` leaves the field as it is. */
  datatype EditDescriptor = EditDescriptor(nric: Option<string>, company: Option<string>,
                                           section: Option<string>, rank: Option<string>,
                                           name: Option<string>, phone: Option<string>,
                                           tags: Option<set<string>>, password: Option<string>,
                                           userType: Option<UserType>)
  {
    predicate AnyFieldEdited() {
      nric.Some? || company.Some? || section.Some? || rank.Some? || name.Some? || phone.Some?
      || tags.Some? || password.Some? || userType.Some?
    }
  }

  const NoEdits := EditDescriptor(None, None, None, None, None, None, None, None, None)

  /** The commands, by the word that selects them, in the order the dispatcher lists them. */
  datatype CommandKind =
    | AcceptSwapKind | AddKind | BlockDateKind | ClearKind | DeleteKind | EditKind | ExitKind
    | FindKind | HelpKind | HistoryKind | ListKind | RedoKind | ScheduleKind | SelectKind | SortKind
    | ConfirmKind | SwapKind | UndoKind | ViewKind | UnconfirmKind | DutySettingsKind | PointsKind
    | ViewCurrentKind | ViewNextKind | ViewSwapsKind | ApproveSwapKind | RejectSwapKind
    | RewardKind | PenalizeKind | ViewBlockKind | RemoveBlockKind

  /** A parsed command. Indexes are zero-based. Commands whose parsers are not part of this
      model carry what their parser produced. */
  datatype Command =
    | AcceptSwap(userName: string, index: nat)
    | Add(person: Person)
    | BlockDate(dates: seq<int>, userName: string)
    | Clear(userName: string)
    | Delete(index: nat, userName: string)
    | Edit(target: Option<nat>, descriptor: EditDescriptor, userName: string)
    | Exit
    | Find(keywords: seq<string>)
    | Help
    | History
    | List
    | Redo
    | Schedule
    | Select(index: nat)
    | Sort
    | Confirm
    | Undo
    | Unconfirm
    | Points(selected: Option<nat>)
    | ViewCurrent
    | ViewNext
    | ViewSwaps
    | ApproveSwap(index: nat)
    | RejectSwap(index: nat)
    | Reward(indexes: seq<nat>, points: int)
    | Penalize(indexes: seq<nat>, points: int)
    | ViewBlock(userName: string)
    | RemoveBlock(userName: string)
    | View(userName: string)
    | OtherCommand(kind: CommandKind, arguments: string)   // swap and duty settings

  /** The collaborators of the parsers.
      - `parseIndex`, `parseField`, `parseTags`, `parseUserType`: the parser utilities,
        failing with the message of the parse exception they throw;
      - `tokenize`: the prefix tokenizer, given the prefixes to recognise;
      - `newPersonPassword`, `newPersonUserType`: what the seven-field person constructor
        fills in for the fields it is not given;
      - `adminUserName`: the default admin user name;
      - `word`: the command word of each command;
      - `otherParser`: the parsers of swap, view, duty settings, reward and penalize. */
  datatype ParseEnv = ParseEnv(
    parseIndex: string -> Result<nat, string>,
    parseField: (FieldKind, string) -> Result<string, string>,
    parseTags: seq<string> -> Result<set<string>, string>,
    parseUserType: string -> Result<UserType, string>,
    tokenize: (string, seq<Prefix>) -> ArgMultimap,
    newPersonPassword: string -> string,
    newPersonUserType: UserType,
    adminUserName: string,
    word: CommandKind -> string,
    otherParser: (CommandKind, string, Option<UserType>, string) -> Result<Command, ParseError>)

  /** The command words that appear in the modelled command classes, and distinctness of
      all words (a Java `switch` on strings refuses repeated labels). */
  predicate WellFormedWords(word: CommandKind -> string) {
    && word(ListKind) == "list" && word(HelpKind) == "help" && word(DeleteKind) == "delete"
    && word(RedoKind) == "redo" && word(PenalizeKind) == "penalize" && word(RewardKind) == "reward"
    && word(SortKind) == "sort" && word(AddKind) == "add" && word(ViewKind) == "view"
    && word(UndoKind) == "undo" && word(ExitKind) == "exit" && word(ClearKind) == "clear"
    && word(ViewCurrentKind) == "viewCurrent" && word(PointsKind) == "points"
    && word(ViewBlockKind) == "viewblock"
    && forall a, b :: a != b ==> word(a) != word(b)
  }
}

=== FILE: person.dfy ===
/** Personnel records and the registry's notion of identity. */
module Persons {
  import opened Common

  /** A person as the registry stores it. Field values are the already validated strings;
      the tags form a set, so duplicates collapse. */
  datatype Person = Person(nric: string, company: string, section: string, rank: string,
                           name: string, phone: string, tags: set<string>,
                           password: string, userType: UserType)

  /** Two records denote the same person when their NRICs agree. */
  predicate SamePerson(a: Person, b: Person) {
    a.nric == b.nric
  }

  /** Some element of `ps` has the identity of `p`. */
  predicate ContainsIdentity(ps: seq<Person>, p: Person) {
    exists i :: 0 <= i < |ps| && SamePerson(ps[i], p)
  }

  /** Some element of `ps` has exactly this NRIC string. */
  predicate HasNric(ps: seq<Person>, nric: string) {
    exists i :: 0 <= i < |ps| && ps[i].nric == nric
  }

  /** No two elements of `ps` share an NRIC: the invariant of the person list. */
  predicate UniqueIds(ps: seq<Person>) {
    forall i, j :: 0 <= i < j < |ps| ==> ps[i].nric != ps[j].nric
  }

  /** The field validators of the system (one per field kind), left abstract. */
  type Validator = (FieldKind, string) -> bool

  /** Every field of `p` passes its validator. */
  predicate ValidPerson(p: Person, valid: Validator) {
    && valid(NricField, p.nric) && valid(CompanyField, p.company) && valid(SectionField, p.section)
    && valid(RankField, p.rank) && valid(NameField, p.name) && valid(PhoneField, p.phone)
    && (forall t :: t in p.tags ==> valid(TagField, t))
  }

  /** The set of elements of a sequence. */
  function Elements<T(!new)>(s: seq<T>): (r: set<T>)
    ensures forall x :: x in r <==> x in s
  {
    set x | x in s
  }

  lemma UniqueIdsAppend(ps: seq<Person>, p: Person)
    requires UniqueIds(ps) && !ContainsIdentity(ps, p)
    ensures UniqueIds(ps + [p])
  {
    var r := ps + [p];
    forall i, j | 0 <= i < j < |r| ensures r[i].nric != r[j].nric {
      if j == |ps| {
        assert r[i] == ps[i];
        assert !SamePerson(ps[i], p);
      }
    }
  }
}

=== FILE: roster.dfy ===
/** One month of the duty roster and the wall clock, seen through the interface the
    modelled code uses. The scheduler that fills a month lives outside this model. */
module Roster {
  import opened Persons

  /** One day's duty: the day number and the persons assigned to it. */
  datatype Duty = Duty(day: int, persons: seq<Person>)

  /** A month roster: its year, zero-based month index (not range-checked anywhere),
      weekday of day 1, the scheduled duties, each person's blocked days, whether the
      schedule is confirmed, and whether the stored month asks for a rollover on load. */
  datatype DutyMonth = DutyMonth(year: int, monthIndex: int, firstDay: int,
                                 duties: seq<Duty>, blocked: map<Person, seq<int>>,
                                 confirmed: bool, rollover: bool)

  /** The wall clock and the calendar helper: current year, current zero-based month,
      and the weekday of the first day of any (year, month index). */
  datatype Clock = Clock(year: int, monthIndex: int, firstDayOf: (int, int) -> int)

  /** A freshly built month: nothing scheduled, nothing blocked, not confirmed. */
  function NewMonth(year: int, monthIndex: int, firstDay: int): (m: DutyMonth)
    ensures m.year == year && m.monthIndex == monthIndex && m.firstDay == firstDay
    ensures m.duties == [] && m.blocked == map[] && !m.confirmed && !m.rollover
  {
    DutyMonth(year, monthIndex, firstDay, [], map[], false, false)
  }

  function Unconfirm(m: DutyMonth): (r: DutyMonth)
    ensures !r.confirmed
    ensures r.(confirmed := m.confirmed) == m
  {
    m.(confirmed := false)
  }

  /** Drops every scheduled duty; blocked days and the other fields stay. */
  function ClearAllDuties(m: DutyMonth): (r: DutyMonth)
    ensures r.duties == []
    ensures r.(duties := m.duties) == m
  {
    m.(duties := [])
  }

  /** The number of (duty, assigned person) pairs in `duties` whose person has NRIC `nric`. */
  function DutyCount(duties: seq<Duty>, nric: string): nat {
    if |duties| == 0 then 0
    else DutyCount(duties[..|duties| - 1], nric) + AssignedCount(duties[|duties| - 1].persons, nric)
  }

  /** The number of entries of `ps` whose NRIC is `nric`. */
  function AssignedCount(ps: seq<Person>, nric: string): nat {
    if |ps| == 0 then 0
    else AssignedCount(ps[..|ps| - 1], nric) + (if ps[|ps| - 1].nric == nric then 1 else 0)
  }

  lemma {:induction false} DutyCountAppend(a: seq<Duty>, b: seq<Duty>, nric: string)
    ensures DutyCount(a + b, nric) == DutyCount(a, nric) + DutyCount(b, nric)
    decreases |b|
  {
    if |b| == 0 {
      assert a + b == a;
    } else {
      var b' := b[..|b| - 1];
      assert (a + b)[..|a + b| - 1] == a + b';
      assert (a + b)[|a + b| - 1] == b[|b| - 1];
      DutyCountAppend(a, b', nric);
    }
  }

  /** One copy of `d` per entry of `ps` with NRIC `nric`, in list order. */
  function Copies(d: Duty, ps: seq<Person>, nric: string): seq<Duty> {
    if |ps| == 0 then []
    else Copies(d, ps[..|ps| - 1], nric) + (if ps[|ps| - 1].nric == nric then [d] else [])
  }

  /** The duties of `duties` that the person with NRIC `nric` holds, in roster order,
      each repeated once per assignment of that NRIC to it. */
  function Matches(duties: seq<Duty>, nric: string): seq<Duty> {
    if |duties| == 0 then []
    else Matches(duties[..|duties| - 1], nric)
         + Copies(duties[|duties| - 1], duties[|duties| - 1].persons, nric)
  }

  /** The copies of a duty are that duty, as many as its assignments of the NRIC. */
  lemma {:induction false} CopiesShape(d: Duty, ps: seq<Person>, nric: string)
    ensures |Copies(d, ps, nric)| == AssignedCount(ps, nric)
    ensures forall i :: 0 <= i < |Copies(d, ps, nric)| ==> Copies(d, ps, nric)[i] == d
    decreases |ps|
  {
    if |ps| > 0 {
      CopiesShape(d, ps[..|ps| - 1], nric);
    }
  }

  /** There are as many matches as assignments of the NRIC. */
  lemma {:induction false} MatchesCount(duties: seq<Duty>, nric: string)
    ensures |Matches(duties, nric)| == DutyCount(duties, nric)
    decreases |duties|
  {
    if |duties| > 0 {
      var n := |duties| - 1;
      MatchesCount(duties[..n], nric);
      CopiesShape(duties[n], duties[n].persons, nric);
    }
  }

  /** A duty is matched exactly when it is on the roster and has the NRIC among its persons. */
  lemma {:induction false} MatchesMembers(duties: seq<Duty>, nric: string, d: Duty)
    ensures d in Matches(duties, nric) <==> d in duties && AssignedCount(d.persons, nric) > 0
    decreases |duties|
  {
    if |duties| > 0 {
      var n := |duties| - 1;
      var last := duties[n];
      MatchesMembers(duties[..n], nric, d);
      CopiesShape(last, last.persons, nric);
      assert duties == duties[..n] + [last];
      var c := Copies(last, last.persons, nric);
      assert d in c <==> d == last && AssignedCount(last.persons, nric) > 0 by {
        if d == last && |c| > 0 {
          assert c[0] == d;
        }
      }
    }
  }

  lemma {:induction false} MatchesAppend(a: seq<Duty>, b: seq<Duty>, nric: string)
    ensures Matches(a + b, nric) == Matches(a, nric) + Matches(b, nric)
    decreases |b|
  {
    if |b| == 0 {
      assert a + b == a;
    } else {
      var b' := b[..|b| - 1];
      assert (a + b)[..|a + b| - 1] == a + b';
      assert (a + b)[|a + b| - 1] == b[|b| - 1];
      MatchesAppend(a, b', nric);
    }
  }
}

=== FILE: stored_database.dfy ===
/** The stored (JSON) form of the whole personnel database and the loader that turns
    it back into a database. The stored months are taken as already converted: the
    conversion of a stored month is not part of this model. */
module StoredDatabase {
  import opened Common
  import opened Persons
  import opened PointsLedger
  import opened Roster
  import opened Calendar
  import opened Database
  import opened StoredPerson

  datatype JsonDb = JsonDb(persons: seq<JsonPerson>, currentMonth: DutyMonth,
                           nextMonth: DutyMonth, ledger: Ledger)

  /** The deserialising constructor keeps the stored persons in their stored order. */
  function Create(persons: seq<JsonPerson>, currentMonth: DutyMonth, nextMonth: DutyMonth,
                  ledger: Ledger): (j: JsonDb)
    ensures j.persons == persons && j.currentMonth == currentMonth && j.nextMonth == nextMonth
    ensures j.ledger == ledger
  {
    JsonDb(persons, currentMonth, nextMonth, ledger)
  }

  /** Every person of `ps` comes with an iteration order of exactly its tags. */
  predicate TagOrdersFit(ps: seq<Person>, tagOrder: Person -> seq<string>) {
    forall i :: 0 <= i < |ps| ==> Elements(tagOrder(ps[i])) == ps[i].tags
  }

  /** The stored form of a list of persons, in list order. */
  function FromPersons(ps: seq<Person>, tagOrder: Person -> seq<string>): (js: seq<JsonPerson>)
    requires TagOrdersFit(ps, tagOrder)
    ensures |js| == |ps|
    ensures forall i :: 0 <= i < |ps| ==> js[i] == FromPerson(ps[i], tagOrder(ps[i]))
  {
    if |ps| == 0 then []
    else
      var n := |ps| - 1;
      assert TagOrdersFit(ps[..n], tagOrder) by {
        forall i | 0 <= i < n ensures Elements(tagOrder(ps[..n][i])) == ps[..n][i].tags {
          assert ps[..n][i] == ps[i];
        }
      }
      FromPersons(ps[..n], tagOrder) + [FromPerson(ps[n], tagOrder(ps[n]))]
  }

  /** The from-model constructor: every person in order, both months and the ledger. */
  function FromModel(db: Db, tagOrder: Person -> seq<string>): (j: JsonDb)
    requires TagOrdersFit(db.persons, tagOrder)
    ensures |j.persons| == |db.persons|
    ensures j.currentMonth == db.calendar.currentMonth && j.nextMonth == db.calendar.nextMonth
    ensures j.ledger == db.ledger
  {
    JsonDb(FromPersons(db.persons, tagOrder), db.calendar.currentMonth, db.calendar.nextMonth, db.ledger)
  }

  // ----- loading the persons -----

  /** Loading the persons in stored order: the first conversion error, or a duplicate
      identity, ends the load. */
  function LoadPersons(js: seq<JsonPerson>, valid: Validator): (r: Result<seq<Person>, LoadError>)
    ensures r.Ok? ==> |r.value| == |js| && UniqueIds(r.value)
    ensures r.Ok? ==> forall i :: 0 <= i < |js| ==> ToModel(js[i], valid) == Ok(r.value[i])
  {
    if |js| == 0 then Ok([])
    else
      var n := |js| - 1;
      match LoadPersons(js[..n], valid)
      case Err(e) => Err(e)
      case Ok(ps) =>
        match ToModel(js[n], valid)
        case Err(e) => Err(e)
        case Ok(p) =>
          if ContainsIdentity(ps, p) then Err(DuplicatePerson)
          else
            UniqueIdsAppend(ps, p);
            assert forall i :: 0 <= i < n ==> js[..n][i] == js[i];
            Ok(ps + [p])
  }

  /** The stored persons can all be loaded: each converts, and no two share an identity. */
  predicate Loadable(js: seq<JsonPerson>, valid: Validator) {
    && (forall i :: 0 <= i < |js| ==> ToModel(js[i], valid).Ok?)
    && (forall a, b :: 0 <= a < b < |js| && ToModel(js[a], valid).Ok? && ToModel(js[b], valid).Ok? ==>
          ToModel(js[a], valid).value.nric != ToModel(js[b], valid).value.nric)
  }

  lemma LoadableShrinks(js: seq<JsonPerson>, valid: Validator)
    requires |js| > 0 && Loadable(js, valid)
    ensures Loadable(js[..|js| - 1], valid)
  {
    var n := |js| - 1;
    assert forall i :: 0 <= i < n ==> js[..n][i] == js[i];
  }

  /** Loading succeeds exactly when the stored persons are loadable. */
  lemma {:induction false} LoadPersonsSucceeds(js: seq<JsonPerson>, valid: Validator)
    ensures LoadPersons(js, valid).Ok? <==> Loadable(js, valid)
    decreases |js|
  {
    if |js| > 0 {
      var n := |js| - 1;
      if Loadable(js, valid) {
        LoadableShrinks(js, valid);
        LoadPersonsSucceeds(js[..n], valid);
        var ps := LoadPersons(js[..n], valid).value;
        var p := ToModel(js[n], valid).value;
        assert !ContainsIdentity(ps, p) by {
          forall i | 0 <= i < n ensures ps[i].nric != p.nric {
            assert js[..n][i] == js[i];
          }
        }
      }
    }
  }

  /** A stored person whose identity was already loaded makes the load fail with the
      duplicate error, provided everything before it loads. */
  lemma DuplicateRejected(js: seq<JsonPerson>, valid: Validator, a: nat)
    requires |js| > 0 && a < |js| - 1
    requires LoadPersons(js[..|js| - 1], valid).Ok?
    requires ToModel(js[|js| - 1], valid).Ok?
    requires ToModel(js[a], valid).value.nric == ToModel(js[|js| - 1], valid).value.nric
    ensures LoadPersons(js, valid) == Err(DuplicatePerson)
  {
    var n := |js| - 1;
    var ps := LoadPersons(js[..n], valid).value;
    assert js[..n][a] == js[a];
    assert SamePerson(ps[a], ToModel(js[n], valid).value);
  }

  /** Once a prefix of the stored list fails, the whole load fails with the same error. */
  lemma {:induction false} LoadPersonsPrefixErr(js: seq<JsonPerson>, valid: Validator, k: nat)
    requires k <= |js| && LoadPersons(js[..k], valid).Err?
    ensures LoadPersons(js, valid) == LoadPersons(js[..k], valid)
    decreases |js| - k
  {
    if k < |js| {
      var n := |js| - 1;
      assert js[..n][..k] == js[..k];
      LoadPersonsPrefixErr(js[..n], valid, k);
    } else {
      assert js[..k] == js;
    }
  }

  /** Round trip of the person list: storing valid, distinct persons and loading them back
      gives the same list in the same order. */
  lemma {:induction false} PersonsRoundTrip(ps: seq<Person>, tagOrder: Person -> seq<string>, valid: Validator)
    requires TagOrdersFit(ps, tagOrder) && UniqueIds(ps)
    requires forall i :: 0 <= i < |ps| ==> ValidPerson(ps[i], valid)
    ensures LoadPersons(FromPersons(ps, tagOrder), valid) == Ok(ps)
    decreases |ps|
  {
    if |ps| > 0 {
      var n := |ps| - 1;
      var js := FromPersons(ps, tagOrder);
      assert forall i :: 0 <= i < n ==> ps[..n][i] == ps[i];
      assert js[..n] == FromPersons(ps[..n], tagOrder);
      PersonsRoundTrip(ps[..n], tagOrder, valid);
      RoundTrip(ps[n], tagOrder(ps[n]), valid);
      assert !ContainsIdentity(ps[..n], ps[n]) by {
        forall i | 0 <= i < n ensures !SamePerson(ps[..n][i], ps[n]) {
          assert ps[..n][i] == ps[i];
        }
      }
      assert ps[..n] + [ps[n]] == ps;
    }
  }

  // ----- the calendar and the month check -----

  /** The calendar a load installs into a fresh database: the stored months go through the
      rollover-capable setter when the stored current month asks for a rollover, and are
      copied verbatim otherwise. */
  function InstalledCalendar(j: JsonDb, clock: Clock): (c: DutyCalendar)
    ensures !j.currentMonth.rollover ==> c.currentMonth == j.currentMonth && c.nextMonth == j.nextMonth
    ensures j.currentMonth.rollover && clock.monthIndex != 0 ==>
              c.currentMonth == j.nextMonth && c.nextMonth.monthIndex == clock.monthIndex + 1
    ensures j.currentMonth.rollover && clock.monthIndex == 0 ==>
              c.currentMonth == j.currentMonth && c.nextMonth == j.nextMonth
  {
    var stored := OfMonths(j.currentMonth, j.nextMonth);
    if j.currentMonth.rollover then Calendar.SetDutyCalendar(Default(clock), stored, clock)
    else Calendar.SetDutyCalendarFlag(Default(clock), stored, false, clock)
  }

  /** The consistency check on the installed months: first the month indices, then the years. */
  function CheckMonths(cur: DutyMonth, next: DutyMonth): Option<LoadError> {
    if cur.monthIndex != next.monthIndex - 1 && cur.monthIndex != 12 then Some(MonthMismatch)
    else if cur.monthIndex != 11 && cur.year != next.year then Some(YearMismatch)
    else None
  }

  /** The calendar relation with wrap-around: the next month follows the current one,
      December (11) being followed by January (0) of the next year. */
  predicate WrapAroundConsistent(cur: DutyMonth, next: DutyMonth) {
    && 0 <= cur.monthIndex < 12
    && next.monthIndex == (cur.monthIndex + 1) % 12
    && next.year == (if cur.monthIndex == 11 then cur.year + 1 else cur.year)
  }

  // ----- the loader -----

  /** `toModelType`: persons are added one by one to a fresh database, rejecting a
      duplicate; the stored months and ledger are installed; the months are checked. */
  method ToModelType(j: JsonDb, valid: Validator, clock: Clock) returns (r: Result<Db, LoadError>)
    ensures LoadPersons(j.persons, valid).Err? ==> r == Err(LoadPersons(j.persons, valid).error)
    ensures LoadPersons(j.persons, valid).Ok? ==>
              var c := InstalledCalendar(j, clock);
              match CheckMonths(c.currentMonth, c.nextMonth)
              case Some(e) => r == Err(e)
              case None =>
                && r.Ok? && Valid(r.value) && r.value.modified
                && r.value.persons == LoadPersons(j.persons, valid).value
                && r.value.calendar == c && r.value.ledger == j.ledger
  {
    var db := Empty(clock);
    var i := 0;
    while i < |j.persons|
      invariant 0 <= i <= |j.persons|
      invariant LoadPersons(j.persons[..i], valid) == Ok(db.persons)
      invariant db.calendar == Default(clock)
      invariant i > 0 ==> db.modified
    {
      assert j.persons[..i + 1][..i] == j.persons[..i];
      var person := ToModel(j.persons[i], valid);
      if person.Err? {
        LoadPersonsPrefixErr(j.persons, valid, i + 1);
        return Err(person.error);
      }
      if HasPerson(db, person.value) {
        LoadPersonsPrefixErr(j.persons, valid, i + 1);
        return Err(DuplicatePerson);
      }
      db := Database.AddPerson(db, person.value);
      i := i + 1;
    }
    assert j.persons[..i] == j.persons;
    var stored := OfMonths(j.currentMonth, j.nextMonth);
    if j.currentMonth.rollover {
      db := Database.SetDutyCalendar(db, stored, clock);
    } else {
      db := Database.SetDutyCalendarFlag(db, stored, false, clock);
    }
    db := db.(ledger := j.ledger);
    var check := CheckMonths(db.calendar.currentMonth, db.calendar.nextMonth);
    if check.Some? {
      return Err(check.value);
    }
    return Ok(db);
  }

  // ----- lemmas about the month check -----

  /** A December current month followed by a January next month, the natural wrap-around,
      is rejected by the month-index check, although it is in the wrap-around relation. */
  lemma DecemberThenJanuaryRejected(cur: DutyMonth, next: DutyMonth)
    requires cur.monthIndex == 11 && next.monthIndex == 0
    ensures CheckMonths(cur, next) == Some(MonthMismatch)
  {
  }

  /** The check and the wrap-around relation agree on every month index 0 to 10; for
      December they never agree. A current index of 12, which the code gives the month after
      December, passes the index test whatever the next month, and then only the years are
      compared; the wrap-around relation never holds for it. */
  lemma CheckVersusWrapAround(cur: DutyMonth, next: DutyMonth)
    requires 0 <= cur.monthIndex <= 12
    ensures cur.monthIndex < 11 ==> (CheckMonths(cur, next).None? <==> WrapAroundConsistent(cur, next))
    ensures cur.monthIndex == 11 ==>
              (CheckMonths(cur, next).None? <==> !WrapAroundConsistent(cur, next) && next.monthIndex == 12)
    ensures cur.monthIndex == 12 ==>
              (CheckMonths(cur, next).None? <==> cur.year == next.year) && !WrapAroundConsistent(cur, next)
  {
  }

  /** The months a rollover installs pass the check exactly when the stored next month is
      the wall-clock month (or carries index 12), and its year is that of the fresh next
      month unless its index is 11. */
  lemma RolloverCheck(self: DutyCalendar, stored: DutyCalendar, clock: Clock)
    ensures var r := Rollover(self, stored, clock);
            var s := stored.nextMonth;
            CheckMonths(r.currentMonth, r.nextMonth).None?
            <==> (s.monthIndex == clock.monthIndex || s.monthIndex == 12)
                 && (s.monthIndex == 11 || s.year == YearOfNextMonth(clock.monthIndex, clock.year))
  {
  }

  /** The months of a calendar built from the wall clock always pass the check. */
  lemma FreshCalendarPassesCheck(clock: Clock)
    ensures CheckMonths(Default(clock).currentMonth, Default(clock).nextMonth).None?
  {
  }

  /** Round trip of a whole database: a database whose persons are valid and distinct and
      whose months pass the check, stored without a rollover request, loads back with the
      same persons in order, the same months and the same ledger, whatever the clock says. */
  lemma DatabaseRoundTrip(db: Db, tagOrder: Person -> seq<string>, valid: Validator, clock: Clock)
    requires Valid(db) && TagOrdersFit(db.persons, tagOrder)
    requires forall i :: 0 <= i < |db.persons| ==> ValidPerson(db.persons[i], valid)
    requires !db.calendar.currentMonth.rollover
    requires CheckMonths(db.calendar.currentMonth, db.calendar.nextMonth).None?
    ensures var j := FromModel(db, tagOrder);
            && LoadPersons(j.persons, valid) == Ok(db.persons)
            && InstalledCalendar(j, clock).currentMonth == db.calendar.currentMonth
            && InstalledCalendar(j, clock).nextMonth == db.calendar.nextMonth
            && CheckMonths(InstalledCalendar(j, clock).currentMonth, InstalledCalendar(j, clock).nextMonth).None?
            && j.ledger == db.ledger
  {
    PersonsRoundTrip(db.persons, tagOrder, valid);
  }
}

=== FILE: stored_person.dfy ===
/** The stored (JSON) form of a person and its conversion back to a model person.
    Field validators are abstract; JSON mechanics are not modelled. */
module StoredPerson {
  import opened Common
  import opened Persons

  /** Why loading stored data fails. */
  datatype LoadError =
    | TagConstraint(tag: string)     // a stored tag failed the tag validator
    | Missing(field: FieldKind)      // "Person's <field> field is missing!"
    | Constraint(field: FieldKind)   // the field's constraint message
    | DuplicatePerson                // the person list holds one identity twice
    | MonthMismatch                  // current and next month indices do not match
    | YearMismatch                   // current and next month years do not match

  /** A stored person: every field may be null; the tag list is never null. */
  datatype JsonPerson = JsonPerson(nric: Option<string>, company: Option<string>,
                                   section: Option<string>, rank: Option<string>,
                                   name: Option<string>, phone: Option<string>,
                                   tagged: seq<string>, password: Option<string>,
                                   userType: Option<UserType>)

  /** The deserialising constructor: a null tag list becomes an empty one. */
  function Create(nric: Option<string>, company: Option<string>, section: Option<string>,
                  rank: Option<string>, name: Option<string>, phone: Option<string>,
                  tagged: Option<seq<string>>, password: Option<string>,
                  userType: Option<UserType>): (j: JsonPerson)
    ensures tagged.None? ==> j.tagged == []
    ensures tagged.Some? ==> j.tagged == tagged.value
    ensures j.nric == nric && j.name == name && j.password == password && j.userType == userType
  {
    JsonPerson(nric, company, section, rank, name, phone,
               if tagged.Some? then tagged.value else [], password, userType)
  }

  /** The from-model constructor. The tags are listed in the set's iteration order,
      which Java leaves unspecified, so the order is a parameter. */
  function FromPerson(p: Person, tagOrder: seq<string>): (j: JsonPerson)
    requires Elements(tagOrder) == p.tags
  {
    JsonPerson(Some(p.nric), Some(p.company), Some(p.section), Some(p.rank), Some(p.name),
               Some(p.phone), tagOrder, Some(p.password), Some(p.userType))
  }

  /** The first tag the validator rejects, if any. */
  function FirstBadTag(tags: seq<string>, valid: Validator): (r: Option<string>)
    ensures r.None? <==> forall i :: 0 <= i < |tags| ==> valid(TagField, tags[i])
    ensures r.Some? ==> exists i :: 0 <= i < |tags| && tags[i] == r.value && !valid(TagField, tags[i])
                                    && forall k :: 0 <= k < i ==> valid(TagField, tags[k])
  {
    if |tags| == 0 then None
    else if !valid(TagField, tags[0]) then Some(tags[0])
    else
      var r := FirstBadTag(tags[1..], valid);
      FirstBadTagStep(tags, valid, r);
      r
  }

  lemma FirstBadTagStep(tags: seq<string>, valid: Validator, r: Option<string>)
    requires |tags| > 0 && valid(TagField, tags[0])
    requires r.None? <==> forall i :: 0 <= i < |tags[1..]| ==> valid(TagField, tags[1..][i])
    requires r.Some? ==> exists i :: 0 <= i < |tags[1..]| && tags[1..][i] == r.value && !valid(TagField, tags[1..][i])
                                     && forall k :: 0 <= k < i ==> valid(TagField, tags[1..][k])
    ensures r.None? <==> forall i :: 0 <= i < |tags| ==> valid(TagField, tags[i])
    ensures r.Some? ==> exists i :: 0 <= i < |tags| && tags[i] == r.value && !valid(TagField, tags[i])
                                    && forall k :: 0 <= k < i ==> valid(TagField, tags[k])
  {
    if r.Some? {
      var i :| 0 <= i < |tags[1..]| && tags[1..][i] == r.value && !valid(TagField, tags[1..][i])
               && forall k :: 0 <= k < i ==> valid(TagField, tags[1..][k]);
      assert tags[i + 1] == r.value;
      forall k | 0 < k < i + 1 ensures valid(TagField, tags[k]) {
        assert tags[k] == tags[1..][k - 1];
      }
    } else {
      forall k | 0 < k < |tags| ensures valid(TagField, tags[k]) {
        assert tags[k] == tags[1..][k - 1];
      }
    }
  }

  /** A non-null field that must pass its validator. */
  function Validated(v: Option<string>, kind: FieldKind, valid: Validator): Result<string, LoadError> {
    match v
    case None => Err(Missing(kind))
    case Some(s) => if valid(kind, s) then Ok(s) else Err(Constraint(kind))
  }

  /** A non-null field that is never validated. */
  function Present<T>(v: Option<T>, kind: FieldKind): Result<T, LoadError> {
    match v
    case None => Err(Missing(kind))
    case Some(x) => Ok(x)
  }

  /** `toModelType`: tags first, then the fields in their fixed order; the first failure wins.
      Duplicate tags collapse into the person's tag set. */
  function ToModel(j: JsonPerson, valid: Validator): Result<Person, LoadError> {
    match FirstBadTag(j.tagged, valid)
    case Some(t) => Err(TagConstraint(t))
    case None =>
      var nric :- Validated(j.nric, NricField, valid);
      var company :- Validated(j.company, CompanyField, valid);
      var section :- Validated(j.section, SectionField, valid);
      var rank :- Validated(j.rank, RankField, valid);
      var name :- Validated(j.name, NameField, valid);
      var phone :- Validated(j.phone, PhoneField, valid);
      var password :- Present(j.password, PasswordField);
      var userType :- Present(j.userType, UserTypeField);
      Ok(Person(nric, company, section, rank, name, phone, Elements(j.tagged), password, userType))
  }

  // ----- an independent statement of the check order -----

  /** One field check: which field, whether it is non-null, its text, whether it is validated. */
  datatype FieldCheck = FieldCheck(kind: FieldKind, present: bool, text: string, validated: bool)

  function Check(kind: FieldKind, v: Option<string>, validated: bool): FieldCheck {
    FieldCheck(kind, v.Some?, if v.Some? then v.value else "", validated)
  }

  /** The field checks of a stored person, in the order the source performs them. */
  function Checks(j: JsonPerson): (cs: seq<FieldCheck>)
    ensures |cs| == 8
  {
    [Check(NricField, j.nric, true), Check(CompanyField, j.company, true),
     Check(SectionField, j.section, true), Check(RankField, j.rank, true),
     Check(NameField, j.name, true), Check(PhoneField, j.phone, true),
     Check(PasswordField, j.password, false),
     FieldCheck(UserTypeField, j.userType.Some?, "", false)]
  }

  /** The error one check reports, if it fails. */
  function CheckError(c: FieldCheck, valid: Validator): Option<LoadError> {
    if !c.present then Some(Missing(c.kind))
    else if c.validated && !valid(c.kind, c.text) then Some(Constraint(c.kind))
    else None
  }

  predicate Passes(c: FieldCheck, valid: Validator) {
    CheckError(c, valid).None?
  }

  // ----- lemmas -----

  /** Conversion succeeds exactly when every tag and every field check passes, and then
      it yields the stored values with the tags as a set. */
  lemma ToModelSucceeds(j: JsonPerson, valid: Validator)
    ensures ToModel(j, valid).Ok? <==>
              FirstBadTag(j.tagged, valid).None? && forall k :: 0 <= k < 8 ==> Passes(Checks(j)[k], valid)
    ensures ToModel(j, valid).Ok? ==>
              ToModel(j, valid).value == Person(j.nric.value, j.company.value, j.section.value, j.rank.value,
                                                j.name.value, j.phone.value, Elements(j.tagged),
                                                j.password.value, j.userType.value)
  {
    if FirstBadTag(j.tagged, valid).None? && !ToModel(j, valid).Ok? {
      var cs := Checks(j);
      assert !Passes(cs[0], valid) || !Passes(cs[1], valid) || !Passes(cs[2], valid)
             || !Passes(cs[3], valid) || !Passes(cs[4], valid) || !Passes(cs[5], valid)
             || !Passes(cs[6], valid) || !Passes(cs[7], valid);
    }
  }

  /** When the tags pass, the error reported is that of the first failing field check. */
  lemma ToModelReportsFirstFailure(j: JsonPerson, valid: Validator, k: nat)
    requires FirstBadTag(j.tagged, valid).None?
    requires k < 8 && !Passes(Checks(j)[k], valid)
    requires forall m :: 0 <= m < k ==> Passes(Checks(j)[m], valid)
    ensures ToModel(j, valid) == Err(CheckError(Checks(j)[k], valid).value)
  {
    var cs := Checks(j);
    if k > 0 { assert Passes(cs[0], valid); }
    if k > 1 { assert Passes(cs[1], valid); }
    if k > 2 { assert Passes(cs[2], valid); }
    if k > 3 { assert Passes(cs[3], valid); }
    if k > 4 { assert Passes(cs[4], valid); }
    if k > 5 { assert Passes(cs[5], valid); }
    if k > 6 { assert Passes(cs[6], valid); }
  }

  /** A bad tag is reported ahead of anything wrong with the fields, even a missing NRIC. */
  lemma BadTagReportedFirst(j: JsonPerson, valid: Validator, i: nat)
    requires i < |j.tagged| && !valid(TagField, j.tagged[i])
    ensures ToModel(j, valid).Err? && ToModel(j, valid).error.TagConstraint?
  {
  }

  /** The password is never validated: any non-null text is accepted as it is. */
  lemma PasswordNotValidated(j: JsonPerson, valid: Validator)
    requires ToModel(j, valid).Ok?
    ensures forall pw :: ToModel(j.(password := Some(pw)), valid) == Ok(ToModel(j, valid).value.(password := pw))
  {
    forall pw ensures ToModel(j.(password := Some(pw)), valid) == Ok(ToModel(j, valid).value.(password := pw)) {
      ToModelSucceeds(j, valid);
      ToModelSucceeds(j.(password := Some(pw)), valid);
    }
  }

  /** Round trip: a valid person, stored and loaded back, is the same person whatever
      order its tags were written in. */
  lemma RoundTrip(p: Person, tagOrder: seq<string>, valid: Validator)
    requires ValidPerson(p, valid) && Elements(tagOrder) == p.tags
    ensures ToModel(FromPerson(p, tagOrder), valid) == Ok(p)
  {
    var j := FromPerson(p, tagOrder);
    assert forall i :: 0 <= i < |tagOrder| ==> valid(TagField, tagOrder[i]) by {
      forall i | 0 <= i < |tagOrder| ensures valid(TagField, tagOrder[i]) {
        assert tagOrder[i] in Elements(tagOrder);
      }
    }
  }

  /** Duplicate stored tags collapse: repeating a tag changes nothing. */
  lemma DuplicateTagsCollapse(j: JsonPerson, valid: Validator, i: nat)
    requires i < |j.tagged|
    ensures ToModel(j.(tagged := j.tagged + [j.tagged[i]]), valid) == ToModel(j, valid)
  {
    var t := j.tagged + [j.tagged[i]];
    assert Elements(t) == Elements(j.tagged);
    if FirstBadTag(j.tagged, valid).None? {
      assert FirstBadTag(t, valid).None? by {
        forall k | 0 <= k < |t| ensures valid(TagField, t[k]) {
          if k == |j.tagged| { assert t[k] == j.tagged[i]; } else { assert t[k] == j.tagged[k]; }
        }
      }
    } else {
      var b := FirstBadTag(j.tagged, valid).value;
      var m :| 0 <= m < |j.tagged| && j.tagged[m] == b && !valid(TagField, j.tagged[m])
               && forall k :: 0 <= k < m ==> valid(TagField, j.tagged[k]);
      FirstBadTagPrefix(j.tagged, [j.tagged[i]], valid, m);
    }
  }

  /** The first bad tag of a list is not changed by appending to it. */
  lemma {:induction false} FirstBadTagPrefix(a: seq<string>, b: seq<string>, valid: Validator, m: nat)
    requires m < |a| && !valid(TagField, a[m]) && forall k :: 0 <= k < m ==> valid(TagField, a[k])
    ensures FirstBadTag(a + b, valid) == FirstBadTag(a, valid) == Some(a[m])
    decreases m
  {
    if m > 0 {
      assert (a + b)[1..] == a[1..] + b;
      FirstBadTagPrefix(a[1..], b, valid, m - 1);
    }
  }
}
